=== FILE: README.md ===
# Tripconf quote wizard, modelled in Dafny

Tripconf is a small web application that an agritourism business uses to
build quotes ("preventives") for group trips. Here is how a quote is built:

1. An operator picks the check-in and check-out dates, the number of guests
   and the room split.
2. The operator chooses a lunch and a dinner for every night from the meal
   catalog.
3. The operator switches on services from the service catalog.
4. On the confirm step, the operator sets the free quotas and the vans.
5. Submitting stores the quote, with a snapshot of today's tax and room rates.
6. It then renders a PDF.

Stored quotes can be listed and deleted. A stored quote can be duplicated into
a new draft, after being reconciled with the current catalog. The meal,
service and service-category catalogs have their own create, update and
delete actions and their own dialog forms. A middleware guards every page
behind a signed token.

This project models that core:

- The catalog and quote tables are a `Database.Db` class with one map per
  table.
- The wizard's shared state is a `PreventiveFormContext.FormContext` class.
  It holds the step, the draft form, the slate of nights, the chosen services,
  the success dialog and the pending flag.
- Each server action and each component handler is a method that changes
  those fields. It is proved against a specification function of the old
  state.
- Pricing is a set of pure functions: `Pricing.QuoteCosts` and the sums
  beneath it. The PDF generator, the on-screen summary and the legacy summary
  are all proved to agree with it.
- Validation is one function per form schema. Each states which issues a
  draft raises and what a valid draft parses to.
- The PDF is modelled as its drawn-line layout. Every page starts with the
  header run. When the wrapped header takes at most 39 lines, no line falls
  below the page's bottom edge.

Each source file is one module. The modules are named after the program's
own files:
`Constants`, `Pricing`, `JsText`, `Schemas`, `Database`, `MealActions`,
`ServiceActions`, `CategoryActions`, `PreventiveActions`, `CreateActions`,
`QuoteDocument`, `PreventiveSummary`, `LegacySummary`, `PreventiveFormContext`,
`UsePreventiveForm`, `UseCreatePreventive`, `Steps`, `ArrivalAndDeparture`,
`SelectMeal`, `RenderSelectsMeals`, `SwitchService`, `Confirm`, `CostInput`,
`MealInputs`, `ServiceInputs` and `Middleware`.

Dates are whole day numbers, so "the next day" is `+ 1`. Money is an integer
number of euros. A decimal cost such as "12.5" can still be pasted or
edited into a cost field, because the fields check only their last
character. The model reads such a cost as NaN and refuses the write (see
"## Left out"). The tax and the per-guest figures are `real`s, because the
source divides with floating point there; division by zero is `None`. The
database, the clock, the cuid check and the PDF renderer's failures are
parameters, so each outcome is a case of the contract.

## Model

Functions without a row of their own (such as `Pricing.DaysCost`,
`Pricing.ServicesCost`, `JsText.Trim`, `JsText.ToNumber`,
`MealActions.GroupMeals`, `ArrivalAndDeparture.NightAt`,
`ArrivalAndDeparture.DateAt` and `ServiceActions.InCatalog`) are the
definitions that the rows' contracts are stated in.

| member | source | states |
|---|---|---|
| Constants.CeilDiv | src/lib/constants.ts:19-21 | `Math.ceil(a / b)` on naturals: the least `r` with `a <= r * b` |
| Constants.MaxVansIsFive | src/lib/constants.ts:18-21 | `MAX_NUMBER_OF_VANS` is 5, and four vans would not carry the largest group of 32 |
| Constants.DefaultSplitFits | src/lib/constants.ts:11-16 | for any allowed guest count, the default split into doubles and at most one single fits the room limits and seats everyone |
| Constants.FreeQuoteGuardReachable | src/lib/constants.ts:11-13 | the free-quote choices reach the smallest group size, so the confirm step's guard can refuse a choice |
| Pricing.StayOf | src/app/preventives/create/actions.ts:77 | the stay that pricing reads carries the quote's own dates, guests, rooms, free quota and vans |
| Pricing.ServiceCost | src/app/preventives/create/actions.ts:90-98 | without a van count, or with a van cost of 0, a service costs per person times guests plus the group cost |
| Pricing.WithTax | src/app/preventives/create/actions.ts:130-136 | the total with tax is `total * (100 + tax) / 100` |
| Pricing.PerGuest | src/app/preventives/create/actions.ts:138-140 | the cost per paying guest exists exactly when some guest pays, and times the paying guests it gives back the total with tax |
| Pricing.QuoteCosts | src/app/preventives/create/actions.ts:120-140 | the total is bases plus meals plus services; the taxed total and the per-guest figure follow from it as above |
| Pricing.DaysCostAppend | src/app/preventives/create/actions.ts:79-88 | the meal sum of two slates laid end to end is the sum of their meal sums |
| Pricing.DaysCostUpdate | src/app/preventives/create/actions.ts:79-88 | replacing one night changes the meal sum by exactly that night's difference |
| Pricing.DaysCostDrop | src/app/preventives/create/actions.ts:79-88 | dropping one night from between two stretches lowers the meal sum by exactly that night's cost |
| Pricing.DaysCostPermutation | src/app/preventives/create/actions.ts:79-88 | the meal sum does not depend on the order of the nights |
| Pricing.ServicesCostAppend | src/app/preventives/create/actions.ts:100-108 | the services sum of two lists laid end to end is the sum of their sums |
| Pricing.LiveTaxIsSixFifths | src/lib/constants.ts:6 | at today's 20% tax, every total with tax is six fifths of the total |
| Pricing.WithTaxMonotone | src/app/preventives/create/actions.ts:130-136 | for any tax of at least -100%, a larger total never gives a smaller total with tax |
| Pricing.PerGuestDefined | src/app/preventives/create/actions.ts:138-140 | with fewer free places than guests, the per-guest cost exists, and it is positive when the total is |
| JsText.TrimStartSpec | src/lib/schemas.ts:12 | the start-trimmed string is a suffix, starts with no whitespace, and only whitespace was removed |
| JsText.TrimEndSpec | src/lib/schemas.ts:12 | the end-trimmed string is a prefix, ends with no whitespace, and only whitespace was removed |
| JsText.TrimIsSlice | src/lib/schemas.ts:12 | `trim()` returns a slice of its input, surrounded by whitespace only, that neither starts nor ends with whitespace |
| JsText.TrimOfTrimmed | src/lib/schemas.ts:12 | a string with no whitespace at either end is its own trim |
| JsText.TrimIdempotent | src/lib/schemas.ts:12 | trimming twice is trimming once |
| JsText.TrimEmptyIffWhitespace | src/lib/schemas.ts:12 | the trim is empty exactly when the string is all whitespace |
| JsText.OptionalToNumber | src/app/services/actions.ts:51-53 | `Number` of a present string reads the string; `Number(undefined)` is NaN |
| JsText.LastChar | src/components/meals/create.tsx:192 | `value.slice(-1)` has at most one character |
| JsText.ToNumberOfChar | src/components/meals/create.tsx:198 | `Number` of at most one character is a number exactly when it is empty, a digit or whitespace |
| JsText.DigitChar | src/components/meals/actions.tsx:68 | the character printed for a digit is a digit of that value |
| JsText.NatToString | src/components/meals/actions.tsx:68 | `String(n)` of a natural number is a non-empty run of digits |
| JsText.DigitsValueOfNatToString | src/components/meals/actions.tsx:68 | reading back the printed digits of `n` gives `n` |
| JsText.ToNumberOfIntToString | src/components/services/actions.tsx:79-81 | `Number(String(n))` is `n` for every integer cost |
| Schemas.NameIssues | src/lib/schemas.ts:9-12 | a name is refused exactly when it is empty, before trimming |
| Schemas.Required | src/lib/schemas.ts:13-17 | a required field raises its issue exactly when it is missing |
| Schemas.LoginForm | src/lib/schemas.ts:3-6 | a login is valid exactly when both fields are non-empty; each empty field is reported |
| Schemas.PreventiveForm | src/lib/schemas.ts:8-23 | a draft is valid exactly when its name is non-empty and both dates and the guest count are set; it then parses to the trimmed name and the other fields unchanged; each failure is reported |
| Schemas.WhitespaceNameAccepted | src/lib/schemas.ts:9-12 | a name of spaces passes, because the length check comes before the trim, and it parses to the empty name |
| Schemas.PreventiveFormIdempotent | src/lib/schemas.ts:8-23 | re-validating a parsed quote with a non-empty name gives the same quote |
| Schemas.BlankNameRefusedOnResubmit | src/lib/schemas.ts:8-23 | a quote whose name trimmed to empty is refused when it is validated again |
| Schemas.DraftOf | src/context/preventive-form.tsx:174-184 | a stored quote loaded into the form keeps its dates, guests and name |
| Schemas.ParseDayType | src/lib/schemas.ts:30 | the day type enum accepts exactly "first_day", "default_day" and "last_day" |
| Schemas.ParseMealType | src/lib/schemas.ts:31 | the meal type enum accepts exactly "lunch" and "dinner" |
| Schemas.DayTypeNameRoundTrip | src/lib/schemas.ts:30 | day type names and the enum parse are inverse both ways |
| Schemas.MealTypeNameRoundTrip | src/lib/schemas.ts:31 | meal type names and the enum parse are inverse both ways |
| Schemas.MealForm | src/lib/schemas.ts:25-34 | a meal form is valid exactly when its name is non-empty and both enums parse; it then keeps the trimmed name, the cost and the description |
| Schemas.ServiceForm | src/lib/schemas.ts:36-47 | a service form is valid exactly when its name is non-empty and a category is set; it then keeps every other field; a missing category is reported |
| Schemas.ServiceCategoryForm | src/lib/schemas.ts:49-54 | a category name is valid exactly when non-empty, and parses to its trim |
| Database.IdSet | src/app/meals/actions.ts:25 | the `id in ids` filter selects exactly the listed ids |
| Database.FindMeal | src/app/meals/actions.ts:35-43 | the lookup by name, day type and meal type finds a meal exactly when one has that key, and returns that stored meal |
| Database.FindService | src/app/services/actions.ts:35-46 | the lookup by name and category finds a service exactly when one has that key, and returns that stored service |
| Database.FindCategory | src/app/services-categories/actions.ts:43-51 | the lookup by name finds a category exactly when one has that name |
| Database.FindMany | src/app/meals/actions.ts:115 | `findMany()` returns each stored row once and nothing else |
| MealActions.DeleteMeals | src/app/meals/actions.ts:19-31 | an empty id list is refused and changes nothing; otherwise exactly the listed meals are removed and the other tables are untouched |
| MealActions.NewMeal | src/app/meals/actions.ts:49-54 | the created meal carries the form's key, description and the cost read from the form |
| MealActions.CreateMeal | src/app/meals/actions.ts:33-60 | a meal whose key is taken is refused and nothing changes; otherwise exactly one meal is added under the new id |
| MealActions.MealPatchOf | src/app/meals/actions.ts:72-77 | the patch holds a key field exactly when the form changes it, always holds the cost, and applied to the meal gives the form's values |
| MealActions.PatchAppliesForm | src/app/meals/actions.ts:72-106 | the key the update checks is the form's key, and the updated meal has the form's fields |
| MealActions.SkippedCheckIsSafe | src/app/meals/actions.ts:79-101 | when no key field changed, skipping the uniqueness check is safe: the key still finds the meal itself |
| MealActions.UpdateMeal | src/app/meals/actions.ts:62-112 | an unknown id is "Meal not found"; a new key that another meal already has is refused; otherwise the meal is patched in place and keys stay unique |
| MealActions.InsertKeepsKeysUnique | src/app/meals/actions.ts:45-54 | adding a meal whose key is free keeps the keys unique |
| MealActions.UpdateKeepsKeysUnique | src/app/meals/actions.ts:79-106 | updating a meal to a key no other meal has keeps the keys unique |
| MealActions.Bucket | src/app/meals/actions.ts:114-135 | one group bucket holds no more meals than the table |
| MealActions.BucketMembers | src/app/meals/actions.ts:114-135 | a meal is in the bucket of a day type and meal type exactly when it is a row of that type |
| MealActions.BucketAppend | src/app/meals/actions.ts:114-135 | grouping distributes over appending rows |
| MealActions.BucketsPartition | src/app/meals/actions.ts:114-135 | the six buckets together hold exactly as many meals as the rows |
| MealActions.GroupMembers | src/app/meals/actions.ts:114-135 | the grouped options for a day type and a meal type are exactly the rows of those types |
| MealActions.CatalogMembers | src/app/meals/actions.ts:114-135 | grouped over all stored rows, the options are exactly the catalog's meals of those types |
| MealActions.GetMealsByGroup | src/app/meals/actions.ts:114-135 | every catalog meal appears under its own day type and meal type, and the groups hold as many meals as the catalog |
| MealActions.CatalogGrouping | src/app/meals/actions.ts:114-135 | grouping every row of the catalog files each meal under exactly its day type and meal type, and loses none |
| MealActions.CheckedSlot | src/app/meals/actions.ts:137-182 | an empty slot stays empty; a chosen meal becomes the catalog meal with its key, or empty if none |
| MealActions.CheckedDay | src/app/meals/actions.ts:137-182 | checking a night keeps its date and day type |
| MealActions.CheckedSlate | src/app/meals/actions.ts:137-182 | checking a slate keeps its length |
| MealActions.CheckedSlateShape | src/app/meals/actions.ts:137-182 | each checked night keeps its date and day type, and its slots are the checked slots |
| MealActions.CheckedSlateIdempotent | src/app/meals/actions.ts:137-182 | checking an already checked slate changes nothing |
| MealActions.CheckedSlotIdempotent | src/app/meals/actions.ts:137-182 | checking a checked slot changes nothing |
| MealActions.CheckAndSetMeals | src/app/meals/actions.ts:137-182 | the loop returns exactly the checked slate |
| ServiceActions.DeleteServices | src/app/services/actions.ts:19-31 | an empty id list is refused and changes nothing; otherwise exactly the listed services are removed |
| ServiceActions.NewService | src/app/services/actions.ts:48-55 | the created service carries the form's key and the three costs read from the form |
| ServiceActions.CreateService | src/app/services/actions.ts:33-61 | a service whose name is taken in its category is refused and nothing changes; otherwise exactly one service is added |
| ServiceActions.InsertKeepsServiceKeysUnique | src/app/services/actions.ts:33-55 | adding a service whose key is free keeps the keys unique |
| ServiceActions.ServicePatchOf | src/app/services/actions.ts:73-78 | the patch holds the name, category, flag and description exactly when the form changes them, and always holds the costs |
| ServiceActions.ServicePatchAppliesForm | src/app/services/actions.ts:73-108 | the key the update checks is the form's key, and the updated service has the form's fields |
| ServiceActions.ServiceSkippedCheckIsSafe | src/app/services/actions.ts:80-96 | when neither name nor category changed, skipping the check is safe |
| ServiceActions.UpdateKeepsServiceKeysUnique | src/app/services/actions.ts:80-108 | updating a service to a key no other service has keeps the keys unique |
| ServiceActions.UpdateService | src/app/services/actions.ts:63-114 | an unknown id is "Service not found"; a new key another service has is refused; otherwise the service is patched in place |
| ServiceActions.KeptServices | src/app/services/actions.ts:116-149 | reconciling never adds services |
| ServiceActions.KeptServicesMembers | src/app/services/actions.ts:116-149 | a service is kept exactly when it was listed and the catalog still has its name and category; the listed object is kept as given, costs included |
| ServiceActions.KeptServicesAppend | src/app/services/actions.ts:116-149 | reconciling distributes over appending lists |
| ServiceActions.KeptServicesIdempotent | src/app/services/actions.ts:116-149 | reconciling twice is reconciling once |
| ServiceActions.CheckAndSetServices | src/app/services/actions.ts:116-149 | the loop returns exactly the kept services, in order |
| CategoryActions.ServicesOutside | src/app/services-categories/actions.ts:21-31 | the services kept are exactly those whose category is not being deleted |
| CategoryActions.DeleteServicesCategories | src/app/services-categories/actions.ts:15-37 | an empty id list is refused; otherwise the listed categories and all their services go together, and no remaining service points at a deleted category |
| CategoryActions.CascadeNeeded | src/app/services-categories/actions.ts:21-31 | deleting categories keeps every service's category present exactly when no service used them |
| CategoryActions.CreateServiceCategory | src/app/services-categories/actions.ts:39-61 | a taken name is refused and nothing changes; otherwise exactly one category is added |
| CategoryActions.UpdateServiceCategory | src/app/services-categories/actions.ts:63-113 | an unknown id is "Service category not found"; a name taken by another category is refused; otherwise the category is renamed |
| PreventiveActions.DeletePreventives | src/app/preventives/actions.ts:23-37 | an empty id list is refused and changes nothing; otherwise exactly the listed quotes are removed |
| PreventiveActions.RowOf | src/app/preventives/actions.ts:8-21 | a listed row carries the quote's id, timestamps and stay dates |
| PreventiveActions.RowRoundTrip | src/app/preventives/actions.ts:8-21 | the row serialisation loses nothing: reading a row back gives the quote |
| PreventiveActions.InsertNewestFirst | src/app/preventives/actions.ts:9-12 | placing a quote in the newest-first order adds exactly one row |
| PreventiveActions.InsertAddsOne | src/app/preventives/actions.ts:9-12 | that placement only adds the quote: the rows are the old ones plus it |
| PreventiveActions.InsertMembers | src/app/preventives/actions.ts:9-12 | the placed quote is listed and so is every old row, and nothing else |
| PreventiveActions.InsertKeepsOrder | src/app/preventives/actions.ts:9-12 | placing a quote in a newest-first list keeps it newest-first |
| PreventiveActions.GetPreventives | src/app/preventives/actions.ts:8-21 | every stored quote is listed once, nothing else, ordered by last update, newest first |
| PreventiveActions.SortNewestFirst | src/app/preventives/actions.ts:9-13 | the records come back as a reordering of the input, latest update first |
| PreventiveActions.GetPreventive | src/context/preventive-form.tsx:142-146 | the lookup the duplicate query awaits (`getPreventive` in src/app/preventives/[id]/actions.ts, lines 11-43): an id that is not a cuid is refused; an unknown id is "not found"; otherwise the stored quote is returned |
| CreateActions.Snapshot | src/app/preventives/create/actions.ts:27-36 | a stored quote keeps the form, the slate and the services, with today's tax and rates and both timestamps set to now |
| CreateActions.CreatePreventive | src/app/preventives/create/actions.ts:25-43 | a database failure reports an error and stores nothing; otherwise exactly the snapshot is added |
| CreateActions.SnapshotHasLiveRates | src/app/preventives/create/actions.ts:27-36 | the rates a new quote stores are the live constants |
| CreateActions.CalculateTotalCostForMeals | src/app/preventives/create/actions.ts:79-88 | the loop computes the meal sum of the slate times the guests |
| CreateActions.CalculateCostForService | src/app/preventives/create/actions.ts:90-98 | the method computes the service's cost |
| CreateActions.CalculateTotalCostForServices | src/app/preventives/create/actions.ts:100-108 | the loop computes the sum of the services' costs |
| CreateActions.CalculateTotalBasesCost | src/app/preventives/create/actions.ts:110-118 | the rooms cost the live room rates times the nights |
| CreateActions.CalculateCosts | src/app/preventives/create/actions.ts:120-140 | the PDF's figures are the quote's costs at the live rates |
| CreateActions.DrawArrival | src/app/preventives/create/actions.ts:227-236 | the arrival section keeps the canvas ready and every line on the page, provided the header wraps into at most 39 lines |
| CreateActions.DrawRooms | src/app/preventives/create/actions.ts:238-244 | the rooms section keeps every line on the page, provided the header wraps into at most 39 lines |
| CreateActions.DrawMeals | src/app/preventives/create/actions.ts:246-276 | the meals section, one block per night, breaks pages as needed and keeps every line on a page, provided the header wraps into at most 39 lines |
| CreateActions.DrawServices | src/app/preventives/create/actions.ts:278-296 | the services section, one block per service, keeps every line on a page, provided the header wraps into at most 39 lines |
| CreateActions.DrawOptional | src/app/preventives/create/actions.ts:298-314 | the description and vans sections, drawn only when present, keep every line on a page, provided the header wraps into at most 39 lines |
| CreateActions.DrawTotals | src/app/preventives/create/actions.ts:316-331 | the totals section keeps every line on a page, provided the header wraps into at most 39 lines |
| CreateActions.DrawSignature | src/app/preventives/create/actions.ts:333-335 | the signature closes a document whose every line is on a page, provided the header wraps into at most 39 lines |
| CreateActions.NewCanvas | src/app/preventives/create/actions.ts:223-225 | the document starts with one page headed by the header run; when the header wraps into at most 39 lines, those lines are on the page |
| CreateActions.DrawSections | src/app/preventives/create/actions.ts:227-335 | the sections in order leave every line on a page, provided the header wraps into at most 39 lines |
| CreateActions.CreatePdf | src/app/preventives/create/actions.ts:223-346 | a render failure returns an error; otherwise the PDF prints the quote's costs at the live rates, every page starts with the header, and, when the header wraps into at most 39 lines, every line is on a page |
| QuoteDocument.HeaderRun | src/app/preventives/create/actions.ts:172-174 | the header draws its lines one step apart down from the top |
| QuoteDocument.Extend | src/app/preventives/create/actions.ts:142-170 | drawing adds lines to the last page only |
| QuoteDocument.PdfCanvas.constructor | src/app/preventives/create/actions.ts:223-225 | a new canvas has one empty page and its cursor at the top |
| QuoteDocument.PdfCanvas.DrawLine | src/app/preventives/create/actions.ts:142-170 | a line is drawn at the cursor, which moves down one step; headed pages stay headed |
| QuoteDocument.PdfCanvas.Gap | src/app/preventives/create/actions.ts:329 | a gap moves the cursor down and draws nothing |
| QuoteDocument.PdfCanvas.AddHeader | src/app/preventives/create/actions.ts:172-174 | the header run is drawn at the cursor |
| QuoteDocument.PdfCanvas.AddPage | src/app/preventives/create/actions.ts:208-221 | above the bottom margin nothing changes; at it, a new page headed by the header run is opened |
| QuoteDocument.PdfCanvas.OpenPage | src/app/preventives/create/actions.ts:208-221 | a new page holding exactly the header run is appended, and the cursor sits below it |
| QuoteDocument.ExtendNothing | src/app/preventives/create/actions.ts:142-170 | drawing no lines changes nothing |
| QuoteDocument.ExtendTwice | src/app/preventives/create/actions.ts:142-170 | drawing two runs is drawing their concatenation |
| QuoteDocument.NewPageKeepsHeadings | src/app/preventives/create/actions.ts:208-221 | a new page opened with the header keeps every page headed |
| QuoteDocument.NewPageOnPage | src/app/preventives/create/actions.ts:208-221 | a new page's header lines are all on the page |
| PreventiveSummary.RatesFor | src/components/preventives/summary.tsx:68-107 | a draft is priced at the live rates; a stored quote at its own tax and room rates |
| PreventiveSummary.CalculateTotalBasesCost | src/components/preventives/summary.tsx:68-85 | the rooms cost the subject's room rates times the nights |
| PreventiveSummary.CalculateTotalCostWithTax | src/components/preventives/summary.tsx:97-107 | the total is taxed at the subject's tax |
| PreventiveSummary.CalculateSummary | src/components/preventives/summary.tsx:37-111 | every figure on screen is the quote's costs at the subject's rates |
| PreventiveSummary.DraftMatchesPdf | src/components/preventives/summary.tsx:37-111 | the draft's summary shows exactly the figures its PDF will print |
| PreventiveSummary.StoredMatchesPdf | src/components/preventives/summary.tsx:37-111 | a stored quote shows the figures its PDF printed, whatever the constants are now |
| PreventiveSummary.StoredPricedBySnapshot | src/components/preventives/summary.tsx:68-107 | a stored quote's figures depend only on its own fields and rates |
| PreventiveSummary.DisplayedTax | src/components/preventives/summary.tsx:258 | the printed percentage is the tax the total was computed with |
| PreventiveSummary.DisplayedRates | src/components/preventives/summary.tsx:116-128 | the "Bases costs" block as written always lists the live constants |
| PreventiveSummary.DisplayedRatesDisagree | src/components/preventives/summary.tsx:116-128 | a stored quote with a double-room rate of 200 lists 230 while its bases total uses 200 |
| PreventiveSummary.ShownRates | src/components/preventives/summary.tsx:116-128 | the corrected block lists the room rates the quote is priced with |
| PreventiveSummary.ShownRatesExplainBases | src/components/preventives/summary.tsx:68-85 | with the corrected block, the listed room rates times the rooms and nights give the bases total |
| PreventiveSummary.ShownRatesAgreeWithLegacy | src/components/summary.tsx:27-51 | the corrected block shows what the legacy summary shows for a record with all three rates |
| LegacySummary.LegacyForm | src/context/create-preventive.tsx:32-46 | the legacy form has no rate fields |
| LegacySummary.CostPerNight | src/components/summary.tsx:27-31 | the record's nightly rate if it has one, else the constant |
| LegacySummary.CostPerDoubleRoom | src/components/summary.tsx:37-41 | the record's double-room rate if it has one, else the constant |
| LegacySummary.CostPerSingleRoom | src/components/summary.tsx:47-51 | the record's single-room rate if it has one, else the constant |
| LegacySummary.LegacyNights | src/components/summary.tsx:18 | the nights are the days from check-in to check-out |
| LegacySummary.FormShowsLiveRates | src/components/summary.tsx:27-51 | the legacy form always shows 115, 230 and 180 |
| LegacySummary.RecordShowsOwnRates | src/components/summary.tsx:27-51 | a record with all three rates shows its own rates, whatever the constants |
| PreventiveFormContext.FormContext.constructor | src/context/preventive-form.tsx:48-69 | the wizard starts on step 0 with the default form, no nights, no services and the dialog closed |
| PreventiveFormContext.FormContext.Reset | src/context/preventive-form.tsx:71-85 | "Start over" restores that initial state |
| PreventiveFormContext.Submit | src/context/preventive-form.tsx:87-135 | an invalid form is refused and nothing is stored; a database failure stores nothing; otherwise the snapshot is stored, and if the PDF renders its figures match the stored quote's, every page is headed, and the dialog opens |
| PreventiveFormContext.LoadDuplicate | src/context/preventive-form.tsx:138-191 | without an id nothing happens; a refused id leaves the form alone; otherwise the slate and services are reconciled with the catalog and the stored fields fill the form |
| PreventiveFormContext.DuplicateRevalidates | src/context/preventive-form.tsx:174-184 | a duplicated quote with a proper name passes validation as loaded, with the same fields |
| UsePreventiveForm.Advance | src/hooks/use-preventive-form.ts:8-13 | "next" moves one step forward, except on the last step |
| UsePreventiveForm.Retreat | src/hooks/use-preventive-form.ts:15-20 | "previous" moves one step back, except on the first step |
| UsePreventiveForm.NextStep | src/hooks/use-preventive-form.ts:8-13 | the context's step advances and nothing else changes |
| UsePreventiveForm.PrevStep | src/hooks/use-preventive-form.ts:15-20 | the context's step retreats and nothing else changes |
| UsePreventiveForm.MovesStayInRange | src/hooks/use-preventive-form.ts:8-20 | both moves keep the step among the four steps |
| UsePreventiveForm.MovesUndoEachOther | src/hooks/use-preventive-form.ts:8-20 | away from the ends, "previous" undoes "next" and the other way round |
| UsePreventiveForm.AdvanceTimesReach | src/hooks/use-preventive-form.ts:8-13 | pressing "next" n times reaches step + n, capped at the last step |
| UseCreatePreventive.LegacyWizard.constructor | src/context/create-preventive.tsx:27-46 | the legacy wizard starts on step 0 with its default form, no nights and no services |
| UseCreatePreventive.LegacyWizard.Next | src/hooks/use-create-preventive.ts:7-12 | the step moves forward except on the last one; nothing else changes |
| UseCreatePreventive.LegacyWizard.Previous | src/hooks/use-create-preventive.ts:14-19 | the step moves back except on the first one; nothing else changes |
| UseCreatePreventive.LegacyWizard.Reset | src/hooks/use-create-preventive.ts:21-23 | only the form returns to its defaults; the step, nights and services stay |
| Steps.StepsCoverTheWizard | src/components/preventives/steps.tsx:8 | there is one button per wizard step |
| Steps.ExactlyOneHighlighted | src/components/preventives/steps.tsx:17 | exactly one button is highlighted, the current step's |
| Steps.EnabledButtons | src/components/preventives/steps.tsx:16 | a button is enabled exactly when nothing is pending and its step is not ahead of the current one |
| Steps.ClickStep | src/components/preventives/steps.tsx:26 | clicking an enabled button goes back to that step and changes nothing else |
| ArrivalAndDeparture.GuestChoices | src/components/preventives/arrival-and-departure.tsx:208-212 | the guest choices are 2 to 32, in order |
| ArrivalAndDeparture.SelectGuests | src/components/preventives/arrival-and-departure.tsx:213-226 | choosing n guests resets the free quota and splits n into doubles and at most one single, within the room limits |
| ArrivalAndDeparture.SelectDoubleRooms | src/components/preventives/arrival-and-departure.tsx:255-289 | without guests nothing happens; more doubles than the guests fill, or a remainder larger than the single rooms, is refused and leaves the form unchanged; otherwise the doubles are set and the singles fill the rest |
| ArrivalAndDeparture.SelectSingleRooms | src/components/preventives/arrival-and-departure.tsx:311-335 | without guests nothing happens; more singles than guests is refused and leaves the form unchanged; otherwise the singles are set and the doubles are the remaining guests halved, rounded up |
| ArrivalAndDeparture.DayTypeAt | src/components/preventives/arrival-and-departure.tsx:70-100 | night 0 is the first day; the last night of a longer stay is the last day; every other night is a default day |
| ArrivalAndDeparture.DateAtIsOffset | src/components/preventives/arrival-and-departure.tsx:70-100 | night i falls on check-in plus i days |
| ArrivalAndDeparture.SlateLength | src/components/preventives/arrival-and-departure.tsx:70-100 | the slate has one night per night of the stay, and none for a backwards stay |
| ArrivalAndDeparture.Slate | src/components/preventives/arrival-and-departure.tsx:70-100 | the fresh slate has that length and night i is the i-th night, with no meals chosen |
| ArrivalAndDeparture.SlateShape | src/components/preventives/arrival-and-departure.tsx:70-100 | the fresh slate's dates rise by one day, so it is strictly ascending |
| ArrivalAndDeparture.EmptyNightsCostNothing | src/components/preventives/arrival-and-departure.tsx:70-100 | a slate with no meals chosen costs nothing |
| ArrivalAndDeparture.ArrivalStep.constructor | src/components/preventives/arrival-and-departure.tsx:38-41 | the remembered dates start as the form's dates, or today |
| ArrivalAndDeparture.ArrivalStep.ValidateAndNext | src/components/preventives/arrival-and-departure.tsx:56-110 | an invalid form stays on the step and changes nothing; a valid form with changed dates, or with no slate yet, gets a fresh slate and no services; otherwise the slate and services stay; a valid form moves to the next step and its dates are remembered |
| SelectMeal.FindDate | src/components/preventives/select-meal.tsx:34 | the index of the first night with that date, or none exactly when no night has it |
| SelectMeal.SetSlot | src/components/preventives/select-meal.tsx:40 | the chosen slot takes the value; the date, day type and other slot stay |
| SelectMeal.WithoutDate | src/components/preventives/select-meal.tsx:42-44 | filtering never adds nights |
| SelectMeal.WithoutDateMembers | src/components/preventives/select-meal.tsx:42-44 | the filter keeps exactly the nights of other dates |
| SelectMeal.InsertByDate | src/components/preventives/select-meal.tsx:46-50 | one insertion step of the sort adds exactly one night |
| SelectMeal.SortByDate | src/components/preventives/select-meal.tsx:46-50 | the sort keeps the length |
| SelectMeal.InsertByDateAdds | src/components/preventives/select-meal.tsx:46-50 | an insertion step adds the night and keeps every other night |
| SelectMeal.InsertByDateSorted | src/components/preventives/select-meal.tsx:46-50 | an insertion step keeps a sorted slate sorted |
| SelectMeal.SortByDateFacts | src/components/preventives/select-meal.tsx:46-50 | the sort is a permutation and its result is in date order |
| SelectMeal.InsertByDateAt | src/components/preventives/select-meal.tsx:46-50 | a night is inserted after the earlier nights and before the later ones |
| SelectMeal.SortSorted | src/components/preventives/select-meal.tsx:46-50 | sorting a sorted slate changes nothing |
| SelectMeal.WithoutDateUnique | src/components/preventives/select-meal.tsx:42-44 | in a slate with one night per date, the filter removes exactly that night |
| SelectMeal.WithoutDateOthers | src/components/preventives/select-meal.tsx:42-44 | a date no night has filters nothing out |
| SelectMeal.UpdateMeal | src/components/preventives/select-meal.tsx:31-51 | an unknown date changes nothing; otherwise the slate becomes the other nights plus the updated night, sorted by date, and nothing else changes |
| SelectMeal.ReplacedNightFacts | src/components/preventives/select-meal.tsx:42-50 | the new slate is sorted, holds the same nights with the one updated, costs the old cost plus the difference, and on an ordered slate it is the slate with that night replaced |
| SelectMeal.DropNight | src/components/preventives/select-meal.tsx:42-44 | removing one night of an ordered slate leaves it sorted, with that date's place between the earlier and the later nights |
| SelectMeal.UpdateInPlace | src/components/preventives/select-meal.tsx:42-50 | on an ordered slate, choosing a meal replaces that night in place |
| RenderSelectsMeals.DefaultSlot | src/components/preventives/render-selects-meals.tsx:47-54 | a card for a date with no night shows no default |
| RenderSelectsMeals.Cards | src/components/preventives/render-selects-meals.tsx:21-73 | no cards before the catalog loads; then one card per night, dated check-in plus i, with the night's day type and that day type's lunches and dinners |
| RenderSelectsMeals.CardsFollowSlate | src/components/preventives/render-selects-meals.tsx:25-45 | each card has the date and day type of the fresh slate's night at the same place |
| RenderSelectsMeals.AlignedDefaults | src/components/preventives/render-selects-meals.tsx:47-54 | on a slate laid out for the stay, each card's defaults are its own night's choices |
| RenderSelectsMeals.ChoiceShowsOnCard | src/components/preventives/render-selects-meals.tsx:47-54 | after a choice for night k, card k shows it and every other card is unchanged |
| SwitchService.WithoutId | src/components/preventives/switch-service.tsx:33-35 | switching off never adds services |
| SwitchService.WithoutIdMembers | src/components/preventives/switch-service.tsx:33-35 | switching off keeps exactly the services with other ids |
| SwitchService.WithoutAbsentId | src/components/preventives/switch-service.tsx:33-35 | switching off a service that is not listed changes nothing |
| SwitchService.UpdateService | src/components/preventives/switch-service.tsx:26-36 | switching on appends the service and switching off removes it by id; afterwards it is active exactly when switched on, and nothing else changes |
| SwitchService.OnThenOff | src/components/preventives/switch-service.tsx:28-36 | switching an inactive service on and off again restores the list |
| SwitchService.VansFor | src/components/preventives/switch-service.tsx:18-24 | one van up to 7 guests, else the least number of vans that seats everyone |
| SwitchService.VansWithinChoices | src/components/preventives/switch-service.tsx:18-24 | for any group size the preview's vans are between 1 and the van selector's maximum, and seat everyone |
| SwitchService.PreviewCost | src/components/preventives/switch-service.tsx:38-42 | the card's price is the service priced with the previewed vans |
| Confirm.UpdateVans | src/components/preventives/confirm.tsx:30-44 | with a service that needs a van, the vans become the previewed count; otherwise 0; nothing else changes |
| Confirm.ChargeMatchesPreview | src/components/preventives/confirm.tsx:30-44 | after that effect, each service is charged what its card previewed when some service needs a van, and no van charge at all otherwise |
| Confirm.FreeQuoteChoices | src/components/preventives/confirm.tsx:63-66 | the free-quote choices are 0 to 3 |
| Confirm.VanChoices | src/components/preventives/confirm.tsx:99-102 | the van choices are 0 to 5 |
| Confirm.SelectFreeQuote | src/components/preventives/confirm.tsx:67-77 | a choice is refused exactly when the guest count is set and not above it; a refusal changes nothing |
| Confirm.AcceptedFreeQuoteLeavesPayers | src/components/preventives/confirm.tsx:67-77 | an accepted free quota leaves someone paying, so the per-guest cost exists |
| Confirm.SelectVans | src/components/preventives/confirm.tsx:103 | choosing vans sets exactly the van count |
| CostInput.AcceptsIff | src/components/meals/create.tsx:190-201 | the cost filter accepts exactly an empty value, or one ending in a digit or in whitespace other than a space |
| CostInput.TypingAtEndKeepsDigits | src/components/meals/create.tsx:190-201 | typing at the end of an all-digits field keeps it all digits |
| CostInput.DigitsReadAsNumber | src/app/meals/actions.ts:52 | an all-digits cost reads as a number |
| CostInput.MiddleEditsPass | src/components/meals/create.tsx:190-201 | the filter checks only the last character, so "1a2" passes and reads as NaN |
| MealInputs.Raw | src/components/meals/create.tsx:49-56 | the dialog's fields feed the schema as they are, and an unset select parses to nothing |
| MealInputs.LoadedFields | src/components/meals/actions.tsx:68 | loading a meal fills in its enum names and a cost that reads back as its cost |
| MealInputs.MealEditor.constructor | src/components/meals/create.tsx:49-56 | the create dialog starts from the default fields |
| MealInputs.MealEditor.Clear | src/components/meals/create.tsx:58-64 | closing the dialog restores the defaults |
| MealInputs.MealEditor.Load | src/components/meals/actions.tsx:67-71 | opening the update dialog loads the meal's fields |
| MealInputs.MealEditor.EditCost | src/components/meals/create.tsx:190-201 | an accepted keystroke sets the cost; a refused one changes nothing |
| MealInputs.BlankFormRefused | src/components/meals/create.tsx:49-56 | the default fields are refused for the name and both enums |
| MealInputs.UnchangedEditKeepsMeal | src/components/meals/actions.tsx:67-71 | submitting a loaded meal unchanged passes validation, triggers no key check and keeps the meal |
| MealInputs.DayTypeLabel | src/components/meals/actions.tsx:134-138 | each day type has its own label, in both directions |
| ServiceInputs.WithCost | src/components/services/create.tsx:159-236 | setting one cost field leaves the others |
| ServiceInputs.LoadedValues | src/components/services/actions.tsx:76-85 | loading a service fills in costs that read back as its costs |
| ServiceInputs.WrittenEdit | src/components/services/create.tsx:223-236 | a keystroke ending in a space changes nothing; an accepted one sets its field and a refused one keeps it; for the van cost the flag follows the typed value's length whether or not the value was accepted |
| ServiceInputs.ServiceEditor.constructor | src/components/services/create.tsx:55-61 | the create dialog starts from the default values |
| ServiceInputs.ServiceEditor.Clear | src/components/services/create.tsx:65-71 | closing the dialog restores the defaults |
| ServiceInputs.ServiceEditor.Load | src/components/services/actions.tsx:76-85 | opening the update dialog loads the service's values |
| ServiceInputs.ServiceEditor.SetVanFlag | src/components/services/create.tsx:280-299 | the "Required van" switch sets the flag and nothing else; the edit form has the same switch (src/components/services/actions.tsx:366-385) |
| ServiceInputs.ServiceEditor.EditCost | src/components/services/create.tsx:159-236 | a keystroke on a cost field changes the values as the written handlers do |
| ServiceInputs.BlankFormRefused | src/components/services/create.tsx:55-61 | the default values are refused for the name and the category |
| ServiceInputs.UnchangedEditKeepsService | src/components/services/actions.tsx:76-85 | submitting a loaded service unchanged passes validation and keeps the service |
| ServiceInputs.RequiredVanLabel | src/components/services/actions.tsx:194 | the flag reads "Yes" exactly when set and "No" exactly when not |
| ServiceInputs.RefusedVanCostSetsFlag | src/components/services/create.tsx:223-236 | typing "a" into a blank van cost is refused but still changes the form: it sets the van flag |
| ServiceInputs.RefusedVanCostUndoesSwitch | src/components/services/create.tsx:223-236 | with the switch turned off on a van cost of "12", the refused keystroke "12a" turns the flag back on, while the intended handler changes nothing |
| ServiceInputs.IntendedEdit | src/components/services/create.tsx:223-236 | the corrected handler changes nothing on a refused keystroke; an accepted van cost sets the flag from the value it writes |
| ServiceInputs.IntendedEditKeepsFlag | src/components/services/create.tsx:223-236 | the corrected handler keeps an agreeing flag in agreement, never touches the flag on a refused keystroke, and agrees with the written one on accepted keystrokes |
| Middleware.Route | src/middleware.ts:9-36 | the sign-in page is passed without a token and redirects home with a valid one; every other page passes only with a valid token and redirects to sign-in otherwise |
| Middleware.ProtectedPagesNeedValidToken | src/middleware.ts:23-35 | no page other than sign-in is reached without a valid token, a valid token never sends a user to sign-in, and only the sign-in page redirects home |

## Left out

- The database is a set of maps. Prisma's errors (a lost connection, a
  constraint violation the checks above do not foresee) are not modelled,
  except as the `dbFails` parameter of `createPreventive`. The caught error's
  message is modelled as one fixed string.
- The cuid test on ids (`isCuid`), the clock (`now`, `today`) and a failure of
  the PDF renderer (`renderFails`) are parameters.
- The PDF's fonts, word wrapping, text, number and date formatting are not
  modelled. The number of header lines is a parameter. The document is
  modelled as the vertical positions and kinds of its lines.
- CreateActions.CreatePdf: promises that every line is on a page only when the
  header wraps into at most 39 lines. The header is the quote's name after
  a fixed prefix, with no cap on its length
  (src/app/preventives/create/actions.ts:172-174), and
  `addPage` redraws it on every page (same file, lines 208-221). A long enough
  name makes the source draw header lines below the bottom edge.
- Saving the PDF (file-saver), toasts, `window.scrollTo`, router refreshes
  and the React Query caching are not modelled.
- The JWT check is the `verifies` parameter. The cookie and the middleware's
  path `matcher` are not modelled.
- Division by zero, where JavaScript gives Infinity or NaN, is modelled as
  `None`. The other floating-point divisions are exact `real`s.
- Dates are day numbers, with no time zones. The check at
  arrival-and-departure.tsx:61-62 compares `Date` objects by reference, so
  it is true only for the same object. It is modelled as value equality.
- select-meal.tsx:40 writes into the found night object in place, which also
  changes that object inside the old slate. The model builds a new night.
  Each selector's local dropdown state is left out.
- The inputs' `maxLength={5}` limit is not modelled.
- A missing optional string and an explicit `null` are both `None`. The schema's
  `optional()` refuses `null`, so a stored row with a null description
  would fail the edit form. `MealInputs.UnchangedEditKeepsMeal` and
  `ServiceInputs.UnchangedEditKeepsService` conclude that such a row passes.
  They assume a description the forms wrote, which is never null (the forms
  write "").
- `LoadDuplicate` does not model a failure of the second catalog check after
  the first one has already replaced the slate. In the source, that failure
  leaves the new slate with the old services.
- The services total in the PDF reuses the meals total's label
  (actions.ts:287-291). Text is not modelled, so this is not shown.
- The legacy form's per-day `day` field is represented by the day type.
- `Number(s)` is modelled only for integer numerals: surrounding
  whitespace, an optional sign and decimal digits. Every other numeric
  syntax reads as NaN here: a decimal point, an exponent, hex or
  `Infinity`. The cost fields accept more than integers, because they check
  only the last character (src/components/meals/create.tsx:190-201,
  src/components/services/create.tsx:223-236). A pasted "12.5", or a "."
  typed before the last digit, is accepted (`CostInput.AcceptsIff`,
  `CostInput.MiddleEditsPass`). The source then hands `Number("12.5")`, that
  is 12.5, to the database (src/app/meals/actions.ts:52,
  src/app/services/actions.ts:51-53 and 104-106). The model instead reads
  it as NaN, and `MealActions.CreateMeal`, `MealActions.UpdateMeal`,
  `ServiceActions.CreateService` and `ServiceActions.UpdateService` return
  "Invalid database write". Whether the database would store 12.5 depends
  on the column type, which is not part of this model.
- A cost that reads as NaN cannot be stored, because Prisma refuses a
  non-finite value. The model returns the fixed "Invalid database write"
  error for it. Prisma's actual wording is not modelled. The same error is
  returned for a service whose category does not exist.
- The JSON round trip of a stored quote's slate and services is modelled as
  the identity. Dates are day numbers, so the conversion of a `Date` to a
  string and back is not modelled.
- Date formatting in the quote list (date-fns `format`) keeps the day
  number. The text is not modelled.

## Findings

| source | as written | input that shows it | evidently intended | confidence | as-written member | corrected member |
|---|---|---|---|---|---|---|
| src/components/preventives/summary.tsx:116-128 | the "Bases costs" block of a stored quote lists the live constants, while the totals under it use the quote's stored rates | a stored quote whose double-room rate was 200, with one double room for one night: the block lists 230 and the bases total is 200 | list the rates the quote is priced with, as the tax line at summary.tsx:258 and the legacy summary do | medium, not executed | PreventiveSummary.DisplayedRates | PreventiveSummary.ShownRates |
| src/components/services/create.tsx:231-235 and src/components/services/actions.tsx:327 | the van-cost handler sets `isRequiredVan` from the typed value even when it refuses the keystroke | typing "a" into a blank van cost: the cost stays "" and the service becomes van-required | set the flag only from a value the field accepts, so that a refused keystroke changes nothing, and in particular leaves a flag set with the form's own "Required van" switch (create.tsx:280-299) as it was | medium, not executed | ServiceInputs.WrittenEdit | ServiceInputs.IntendedEdit |

=== FILE: arrival_departure.dfy ===
/**
 * The first step of the wizard (`src/components/preventives/arrival-and-departure.tsx`):
 * the guest and room selectors, which keep the room split consistent with
 * the party, and "Next", which validates the form and, when the stay
 * changed, lays out a fresh slate with one empty entry per night.
 */
module ArrivalAndDeparture {
  import opened Wrappers
  import opened Entities
  import opened Schemas
  import opened PreventiveFormContext
  import Constants
  import Pricing
  import UsePreventiveForm

  /** The guest counts the selector offers: 2 to 32. */
  function GuestChoices(): (r: seq<int>)
    ensures |r| == Constants.MAX_NUMBER_OF_GUESTS - Constants.MIN_NUMBER_OF_GUESTS + 1
    ensures forall i :: 0 <= i < |r| ==> r[i] == i + Constants.MIN_NUMBER_OF_GUESTS
  {
    seq(Constants.MAX_NUMBER_OF_GUESTS - Constants.MIN_NUMBER_OF_GUESTS + 1, i => i + Constants.MIN_NUMBER_OF_GUESTS)
  }

  /** Choosing `n` guests: no free places, and the party split into `n / 2`
      doubles and `n % 2` singles, which always fits the rooms there are. */
  method SelectGuests(ctx: FormContext, n: int)
    requires n in GuestChoices()
    modifies ctx
    ensures ctx.form == old(ctx.form).(freeQuote := Some(0), numberOfGuests := Some(n),
      singleRooms := n % 2, doubleRooms := n / 2)
    ensures 2 * ctx.form.doubleRooms + ctx.form.singleRooms == n && 0 <= ctx.form.singleRooms <= 1
    ensures 0 <= ctx.form.doubleRooms <= Constants.MAX_DOUBLE_ROOMS
    ensures ctx.step == old(ctx.step) && ctx.meals == old(ctx.meals) && ctx.services == old(ctx.services)
    ensures ctx.openDialog == old(ctx.openDialog) && ctx.isPending == old(ctx.isPending)
  {
    ctx.form := ctx.form.(freeQuote := Some(0));
    ctx.form := ctx.form.(numberOfGuests := Some(n));
    ctx.form := ctx.form.(singleRooms := n % 2);
    ctx.form := ctx.form.(doubleRooms := n / 2);
  }

  /** `isSelectedNumberOfGuests`: `!!numberOfGuests`. */
  predicate HasGuests(form: DraftForm) {
    form.numberOfGuests.Some? && form.numberOfGuests.value != 0
  }

  /** How a room choice ends: applied, or the toast that refused it. */
  datatype RoomPick = Picked | NoGuests | TooManyDoubles | NotEnoughSingleRooms | TooManySingles

  /** Choosing `d` double rooms: refused without a guest count, when the
      doubles alone hold more than the party, or when the rest of the party
      would need more single rooms than there are; otherwise the rest of the
      party goes into single rooms, so the rooms hold the party exactly. */
  method SelectDoubleRooms(ctx: FormContext, d: int) returns (r: RoomPick)
    requires 0 <= d <= Constants.MAX_DOUBLE_ROOMS
    modifies ctx
    ensures !HasGuests(old(ctx.form)) ==> r == NoGuests
    ensures HasGuests(old(ctx.form)) ==> var guests := old(ctx.form).numberOfGuests.value;
      && (r == TooManyDoubles <==> 2 * d > guests)
      && (r == NotEnoughSingleRooms <==> 2 * d <= guests && guests - 2 * d > Constants.MAX_SINGLE_ROOMS)
      && (r == Picked <==> 2 * d <= guests && guests - 2 * d <= Constants.MAX_SINGLE_ROOMS)
    ensures r == Picked ==> var guests := old(ctx.form).numberOfGuests.value;
      && ctx.form == old(ctx.form).(doubleRooms := d, singleRooms := guests - 2 * d)
      && 2 * ctx.form.doubleRooms + ctx.form.singleRooms == guests
      && 0 <= ctx.form.singleRooms <= Constants.MAX_SINGLE_ROOMS
    ensures r != Picked ==> ctx.form == old(ctx.form)
    ensures ctx.step == old(ctx.step) && ctx.meals == old(ctx.meals) && ctx.services == old(ctx.services)
    ensures ctx.openDialog == old(ctx.openDialog) && ctx.isPending == old(ctx.isPending)
  {
    if !HasGuests(ctx.form) {
      return NoGuests;
    }
    var numberOfGuests := ctx.form.numberOfGuests.value;
    if d * 2 > numberOfGuests {
      return TooManyDoubles;
    }
    var i := 0;
    while i < numberOfGuests - d * 2
      invariant 0 <= i <= numberOfGuests - d * 2
    {
      i := i + 1;
    }
    if i > Constants.MAX_SINGLE_ROOMS {
      return NotEnoughSingleRooms;
    }
    ctx.form := ctx.form.(doubleRooms := d);
    ctx.form := ctx.form.(singleRooms := i);
    r := Picked;
  }

  /** Choosing `s` single rooms: refused without a guest count or when the
      singles alone hold more than the party; otherwise the fewest doubles
      that hold the rest of the party, so the rooms hold the party with at
      most one bed to spare. */
  method SelectSingleRooms(ctx: FormContext, s: int) returns (r: RoomPick)
    requires 0 <= s <= Constants.MAX_SINGLE_ROOMS
    modifies ctx
    ensures !HasGuests(old(ctx.form)) ==> r == NoGuests
    ensures HasGuests(old(ctx.form)) ==> var guests := old(ctx.form).numberOfGuests.value;
      && (r == TooManySingles <==> s > guests)
      && (r == Picked <==> s <= guests)
    ensures r == Picked ==> var guests := old(ctx.form).numberOfGuests.value;
      && ctx.form == old(ctx.form).(doubleRooms := Constants.CeilDiv(guests - s, 2), singleRooms := s)
      && guests <= 2 * ctx.form.doubleRooms + s <= guests + 1
      && (guests <= Constants.MAX_NUMBER_OF_GUESTS ==> ctx.form.doubleRooms <= Constants.MAX_DOUBLE_ROOMS)
    ensures r != Picked ==> ctx.form == old(ctx.form)
    ensures ctx.step == old(ctx.step) && ctx.meals == old(ctx.meals) && ctx.services == old(ctx.services)
    ensures ctx.openDialog == old(ctx.openDialog) && ctx.isPending == old(ctx.isPending)
  {
    if !HasGuests(ctx.form) {
      return NoGuests;
    }
    var numberOfGuests := ctx.form.numberOfGuests.value;
    if s > numberOfGuests {
      return TooManySingles;
    }
    var i := 0;
    while i * 2 < numberOfGuests - s
      invariant 0 <= i && (i == 0 || (i - 1) * 2 < numberOfGuests - s)
    {
      i := i + 1;
    }
    ctx.form := ctx.form.(doubleRooms := i);
    ctx.form := ctx.form.(singleRooms := s);
    r := Picked;
    assert i == Constants.CeilDiv(numberOfGuests - s, 2);
  }

  /** The day type of night `index` of `nights`: the first night wins over
      the last when there is only one. */
  function DayTypeAt(index: int, nights: int): (t: DayType)
    ensures index == 0 <==> t == FirstDay
    ensures t == LastDay <==> index != 0 && index == nights - 1
  {
    if index == 0 then FirstDay
    else if index == nights - 1 then LastDay
    else DefaultDay
  }

  /** The date of night `index`, computed as the source does for each day
      type. */
  function DateAt(index: int, checkIn: int, checkOut: int): int {
    match DayTypeAt(index, checkOut - checkIn)
    case FirstDay => checkIn
    case LastDay => checkOut - 1
    case DefaultDay => checkIn + index
  }

  /** Whichever branch computes it, the date of night `index` is
      `checkIn + index`. */
  lemma DateAtIsOffset(index: int, checkIn: int, checkOut: int)
    ensures DateAt(index, checkIn, checkOut) == checkIn + index
  {
  }

  /** `Array.from({ length: nights })`: a negative length gives nothing. */
  function SlateLength(checkIn: int, checkOut: int): (n: nat)
    ensures n == if checkOut - checkIn > 0 then checkOut - checkIn else 0
  {
    if checkOut - checkIn > 0 then checkOut - checkIn else 0
  }

  /** Night `index` of a fresh slate: no lunch, no dinner. */
  function NightAt(index: int, checkIn: int, checkOut: int): DailyMeal {
    DailyMeal(DateAt(index, checkIn, checkOut), DayTypeAt(index, checkOut - checkIn), None, None)
  }

  /** The slate laid out for a stay. */
  function Slate(checkIn: int, checkOut: int): (r: seq<DailyMeal>)
    ensures |r| == SlateLength(checkIn, checkOut)
    ensures forall i :: 0 <= i < |r| ==> r[i] == NightAt(i, checkIn, checkOut)
  {
    seq(SlateLength(checkIn, checkOut), i => NightAt(i, checkIn, checkOut))
  }

  /** Nights whose dates go up strictly, as a slate's do. */
  predicate StrictlyAscending(s: seq<DailyMeal>) {
    forall i, j :: 0 <= i < j < |s| ==> s[i].date < s[j].date
  }

  /** A fresh slate holds one night per date from check-in to the eve of
      check-out, in order, with the first and last nights marked, and costs
      nothing. */
  lemma SlateShape(checkIn: int, checkOut: int)
    ensures var s := Slate(checkIn, checkOut);
      && (forall i :: 0 <= i < |s| ==> s[i].date == checkIn + i && s[i].lunch.None? && s[i].dinner.None?)
      && StrictlyAscending(s)
      && (|s| > 0 ==> s[0].dayType == FirstDay)
      && (|s| > 1 ==> s[|s| - 1].dayType == LastDay)
      && (forall i :: 0 < i < |s| - 1 ==> s[i].dayType == DefaultDay)
      && Pricing.DaysCost(s) == 0
  {
    var s := Slate(checkIn, checkOut);
    forall i | 0 <= i < |s| ensures s[i].date == checkIn + i {
      DateAtIsOffset(i, checkIn, checkOut);
    }
    EmptyNightsCostNothing(s);
  }

  lemma {:induction false} EmptyNightsCostNothing(s: seq<DailyMeal>)
    requires forall i :: 0 <= i < |s| ==> s[i].lunch.None? && s[i].dinner.None?
    ensures Pricing.DaysCost(s) == 0
  {
    if s != [] {
      EmptyNightsCostNothing(s[..|s| - 1]);
    }
  }

  /** The local `prevDates` of the step: the stay the current slate was
      laid out for. */
  class ArrivalStep {
    var prevCheckIn: int
    var prevCheckOut: int

    /** `useState({ checkIn: checkIn ?? new Date(), … })`, with `today`
        standing for `new Date()`. */
    constructor (form: DraftForm, today: int)
      ensures prevCheckIn == form.checkIn.GetOr(today) && prevCheckOut == form.checkOut.GetOr(today)
    {
      prevCheckIn := form.checkIn.GetOr(today);
      prevCheckOut := form.checkOut.GetOr(today);
    }

    /** `validateAndNext`: nothing happens unless the form validates. Then,
        when there is no slate yet or a date changed, the services are
        cleared and a fresh slate is laid out; otherwise both are kept. The
        stay is remembered and the wizard moves on. */
    method ValidateAndNext(ctx: FormContext)
      requires ctx.Valid()
      modifies this, ctx
      ensures ctx.Valid()
      ensures PreventiveForm(old(ctx.form)).Invalid? ==>
        && ctx.step == old(ctx.step) && ctx.meals == old(ctx.meals) && ctx.services == old(ctx.services)
        && prevCheckIn == old(prevCheckIn) && prevCheckOut == old(prevCheckOut)
      ensures PreventiveForm(old(ctx.form)).Valid? ==> var q := PreventiveForm(old(ctx.form)).value;
        var relaid := old(ctx.meals) == [] || q.checkIn != old(prevCheckIn) || q.checkOut != old(prevCheckOut);
        && (relaid ==> ctx.meals == Slate(q.checkIn, q.checkOut) && ctx.services == [])
        && (!relaid ==> ctx.meals == old(ctx.meals) && ctx.services == old(ctx.services))
        && prevCheckIn == q.checkIn && prevCheckOut == q.checkOut
        && ctx.step == UsePreventiveForm.Advance(old(ctx.step))
      ensures ctx.form == old(ctx.form)
      ensures ctx.openDialog == old(ctx.openDialog) && ctx.isPending == old(ctx.isPending)
    {
      var parsed := PreventiveForm(ctx.form);
      if parsed.Invalid? {
        return;
      }
      var checkIn := parsed.value.checkIn;
      var checkOut := parsed.value.checkOut;
      var isDifferentDates := checkIn != prevCheckIn || checkOut != prevCheckOut;
      if |ctx.meals| == 0 || isDifferentDates {
        ctx.meals := [];
        ctx.services := [];
        var nights := checkOut - checkIn;
        var index := 0;
        while index < SlateLength(checkIn, checkOut)
          invariant 0 <= index <= SlateLength(checkIn, checkOut)
          invariant ctx.meals == Slate(checkIn, checkOut)[..index]
          invariant ctx.services == [] && ctx.form == old(ctx.form) && ctx.step == old(ctx.step)
          invariant ctx.openDialog == old(ctx.openDialog) && ctx.isPending == old(ctx.isPending)
        {
          var dayType;
          if index == 0 {
            dayType := FirstDay;
          } else if index == nights - 1 {
            dayType := LastDay;
          } else {
            dayType := DefaultDay;
          }
          var date;
          if dayType == FirstDay {
            date := checkIn;
          } else if dayType == LastDay {
            date := checkOut - 1;
          } else {
            date := checkIn + index;
          }
          ctx.meals := ctx.meals + [DailyMeal(date, dayType, None, None)];
          assert Slate(checkIn, checkOut)[..index + 1] == Slate(checkIn, checkOut)[..index] + [NightAt(index, checkIn, checkOut)];
          index := index + 1;
        }
        assert Slate(checkIn, checkOut)[..index] == Slate(checkIn, checkOut);
      }
      prevCheckIn := checkIn;
      prevCheckOut := checkOut;
      UsePreventiveForm.NextStep(ctx);
    }
  }
}

=== FILE: category_actions.dfy ===
/**
 * The service category actions (`src/app/services-categories/actions.ts`):
 * the cascading delete, which removes a category's services together with
 * it in one transaction, and create and update under the unique name.
 */
module CategoryActions {
  import opened Wrappers
  import opened Entities
  import opened Database

  const CATEGORY_NAME_TAKEN: string := "There is a service category with this name"
  const CATEGORY_NOT_FOUND: string := "Service category not found"
  const CATEGORY_EXISTS: string := "The service category already exists"

  /** The services that a cascading delete of `ids` leaves. */
  function ServicesOutside(services: map<Id, Service>, ids: set<Id>): (r: map<Id, Service>)
    ensures forall id :: id in r <==> id in services && services[id].categoryId !in ids
    ensures forall id :: id in r ==> r[id] == services[id]
  {
    map id | id in services && services[id].categoryId !in ids :: services[id]
  }

  /** `deleteServicesCategories`: refused for an empty list; otherwise the
      services of the listed categories are deleted first and then the
      categories, so no remaining service refers to a deleted category. */
  method DeleteServicesCategories(db: Db, ids: seq<Id>) returns (r: Outcome)
    requires db.Valid()
    modifies db
    ensures db.Valid()
    ensures r == (if ids == [] then Error(EMPTY_IDS) else Ok)
    ensures ids == [] ==> db.services == old(db.services) && db.categories == old(db.categories)
    ensures ids != [] ==> db.services == ServicesOutside(old(db.services), IdSet(ids))
    ensures ids != [] ==> db.categories == old(db.categories) - IdSet(ids)
    ensures forall id :: id in db.services ==> db.services[id].categoryId !in ids
    ensures db.meals == old(db.meals) && db.preventives == old(db.preventives)
  {
    if ids == [] {
      return Error(EMPTY_IDS);
    }
    var doomed := IdSet(ids);
    db.services := ServicesOutside(db.services, doomed);
    db.categories := db.categories - doomed;
    r := Ok;
  }

  /** A category can be deleted on its own (without the cascade) only when
      no service refers to it: otherwise the relation of services to their
      categories would break. */
  lemma CascadeNeeded(services: map<Id, Service>, categories: map<Id, ServiceCategory>, doomed: set<Id>)
    requires ServicesHaveCategories(services, categories)
    ensures ServicesHaveCategories(services, categories - doomed) <==>
      forall id :: id in services ==> services[id].categoryId !in doomed
  {
  }

  /** `createServiceCategory`: refused when the name is taken. */
  method CreateServiceCategory(db: Db, name: string, newId: Id) returns (r: Outcome)
    requires db.Valid() && newId !in db.categories
    modifies db
    ensures db.Valid()
    ensures r == Ok <==> FindCategory(old(db.categories), name).None?
    ensures r != Ok ==> r == Error(CATEGORY_NAME_TAKEN) && db.categories == old(db.categories)
    ensures r == Ok ==> db.categories == old(db.categories)[newId := ServiceCategory(newId, name)]
    ensures db.meals == old(db.meals) && db.services == old(db.services)
    ensures db.preventives == old(db.preventives)
  {
    var existing := FindCategory(db.categories, name);
    if existing.Some? {
      return Error(CATEGORY_NAME_TAKEN);
    }
    db.categories := db.categories[newId := ServiceCategory(newId, name)];
    r := Ok;
  }

  /** `updateServiceCategory`: "Service category not found" for an unknown
      id; a new name already borne by another category is refused; an
      unchanged name writes nothing. */
  method UpdateServiceCategory(db: Db, id: Id, name: string) returns (r: Outcome)
    requires db.Valid()
    modifies db
    ensures db.Valid()
    ensures id !in old(db.categories) ==> r == Error(CATEGORY_NOT_FOUND)
    ensures id in old(db.categories) ==>
      var changed := name != old(db.categories)[id].name;
      var found := FindCategory(old(db.categories), name);
      && (r == Error(CATEGORY_EXISTS) <==> changed && found.Some? && found.value.id != id)
      && (r.Error? <==> r == Error(CATEGORY_EXISTS))
    ensures r == Ok ==> db.categories == old(db.categories)[id := ServiceCategory(id, name)]
    ensures r != Ok ==> db.categories == old(db.categories)
    ensures db.meals == old(db.meals) && db.services == old(db.services)
    ensures db.preventives == old(db.preventives)
  {
    if id !in db.categories {
      return Error(CATEGORY_NOT_FOUND);
    }
    var current := db.categories[id];
    if name != current.name {
      var existing := FindCategory(db.categories, name);
      if existing.Some? && existing.value.id != id {
        return Error(CATEGORY_EXISTS);
      }
    }
    db.categories := db.categories[id := ServiceCategory(id, name)];
    r := Ok;
  }
}

=== FILE: confirm.dfy ===
/**
 * The last step of the wizard (`src/components/preventives/confirm.tsx`):
 * the van count follows the selected services, the free-quote selector
 * refuses a choice that leaves no paying guest, and the van selector
 * appears only when a service needs a van.
 */
module Confirm {
  import opened Wrappers
  import opened Entities
  import opened PreventiveFormContext
  import Constants
  import Pricing
  import SwitchService

  /** `services.some(item => item.isRequiredVan === true)`. */
  predicate NeedsVan(services: seq<Service>) {
    exists i :: 0 <= i < |services| && services[i].isRequiredVan
  }

  /** The effect run whenever the services change: the vans the party needs
      when a service requires one, else none. An unset guest count counts as
      one van. */
  method UpdateVans(ctx: FormContext)
    modifies ctx
    ensures NeedsVan(ctx.services) ==>
      ctx.form == old(ctx.form).(numberOfVans := Some(SwitchService.VansFor(old(ctx.form).numberOfGuests.GetOr(0))))
    ensures !NeedsVan(ctx.services) ==> ctx.form == old(ctx.form).(numberOfVans := Some(0))
    ensures ctx.step == old(ctx.step) && ctx.meals == old(ctx.meals) && ctx.services == old(ctx.services)
    ensures ctx.openDialog == old(ctx.openDialog) && ctx.isPending == old(ctx.isPending)
  {
    if NeedsVan(ctx.services) {
      var vans := 1;
      if ctx.form.numberOfGuests.Some? && ctx.form.numberOfGuests.value > 7 {
        vans := Constants.CeilDiv(ctx.form.numberOfGuests.value, 7);
      }
      ctx.form := ctx.form.(numberOfVans := Some(vans));
    } else {
      ctx.form := ctx.form.(numberOfVans := Some(0));
    }
  }

  /** After the effect, every selected service is charged what its switch
      previewed when some service needs a van; when none does, no van is
      charged at all. */
  lemma ChargeMatchesPreview(form: DraftForm, services: seq<Service>, guests: int, service: Service)
    requires form.numberOfGuests == Some(guests)
    requires NeedsVan(services)
      ==> form.numberOfVans == Some(SwitchService.VansFor(guests))
    requires !NeedsVan(services) ==> form.numberOfVans == Some(0)
    ensures NeedsVan(services) ==>
      Pricing.ServiceCost(service, guests, form.numberOfVans) == SwitchService.PreviewCost(service, guests)
    ensures !NeedsVan(services) ==>
      Pricing.ServiceCost(service, guests, form.numberOfVans) == service.costPerPerson * guests + service.groupCost
  {
  }

  /** The free-quote choices: 0 to `MAX_FREE_QUOTE`. */
  function FreeQuoteChoices(): (r: seq<int>)
    ensures |r| == Constants.MAX_FREE_QUOTE + 1 && forall i :: 0 <= i < |r| ==> r[i] == i
  {
    seq(Constants.MAX_FREE_QUOTE + 1, i => i)
  }

  /** The van choices: 0 to `MAX_NUMBER_OF_VANS`. */
  function VanChoices(): (r: seq<int>)
    ensures |r| == Constants.MAX_NUMBER_OF_VANS + 1 && forall i :: 0 <= i < |r| ==> r[i] == i
  {
    seq(Constants.MAX_NUMBER_OF_VANS + 1, i => i)
  }

  /** The van selector is shown exactly when a selected service needs a
      van. */
  predicate ShowsVanSelector(services: seq<Service>) {
    NeedsVan(services)
  }

  /** Choosing `q` free places: refused when `q` is at least the party
      (`item >= numberOfGuests`; with no guest count the comparison is false
      and the choice is taken). */
  method SelectFreeQuote(ctx: FormContext, q: int) returns (accepted: bool)
    requires q in FreeQuoteChoices()
    modifies ctx
    ensures accepted <==> !(ctx.form.numberOfGuests.Some? && q >= ctx.form.numberOfGuests.value)
    ensures accepted ==> ctx.form == old(ctx.form).(freeQuote := Some(q))
    ensures !accepted ==> ctx.form == old(ctx.form)
    ensures ctx.step == old(ctx.step) && ctx.meals == old(ctx.meals) && ctx.services == old(ctx.services)
    ensures ctx.openDialog == old(ctx.openDialog) && ctx.isPending == old(ctx.isPending)
  {
    if ctx.form.numberOfGuests.Some? && q >= ctx.form.numberOfGuests.value {
      return false;
    }
    ctx.form := ctx.form.(freeQuote := Some(q));
    accepted := true;
  }

  /** A free-quote choice the selector accepts for a known party leaves at
      least one paying guest, so the per-guest amount is defined. */
  lemma AcceptedFreeQuoteLeavesPayers(guests: int, q: int, totalWithTax: real)
    requires q in FreeQuoteChoices() && q < guests
    ensures Pricing.PerGuest(totalWithTax, guests, Some(q)).Some?
  {
    Pricing.PerGuestDefined(totalWithTax, guests, Some(q));
  }

  /** Choosing `v` vans. */
  method SelectVans(ctx: FormContext, v: int)
    requires v in VanChoices()
    modifies ctx
    ensures ctx.form == old(ctx.form).(numberOfVans := Some(v))
    ensures ctx.step == old(ctx.step) && ctx.meals == old(ctx.meals) && ctx.services == old(ctx.services)
    ensures ctx.openDialog == old(ctx.openDialog) && ctx.isPending == old(ctx.isPending)
  {
    ctx.form := ctx.form.(numberOfVans := Some(v));
  }
}

=== FILE: constants.dfy ===
/** The numeric constants of the application (`src/lib/constants.ts`). */
module Constants {

  /** Tax percentage added to every quote total. */
  const TAX: int := 20
  /** Nightly rates. `COST_PER_NIGHT` is stored and displayed but never priced. */
  const COST_PER_NIGHT: int := 115
  const COST_PER_DOUBLE_ROOM: int := 230
  const COST_PER_SINGLE_ROOM: int := 180

  const MIN_NUMBER_OF_GUESTS: int := 2
  const MAX_NUMBER_OF_GUESTS: int := 32
  const MAX_FREE_QUOTE: int := 3

  const MAX_DOUBLE_ROOMS: int := 16
  const MAX_SINGLE_ROOMS: int := 16

  const NUMBER_OF_GUESTS_PER_VAN: int := 7

  /** `Math.ceil(a / b)` for a non-negative `a` and a positive `b`. */
  function CeilDiv(a: nat, b: nat): (r: nat)
    requires b > 0
    ensures (r - 1) * b < a <= r * b
  {
    if a % b == 0 then a / b else a / b + 1
  }

  /** `Math.ceil(MAX_NUMBER_OF_GUESTS / NUMBER_OF_GUESTS_PER_VAN)`. */
  const MAX_NUMBER_OF_VANS: nat := CeilDiv(MAX_NUMBER_OF_GUESTS, NUMBER_OF_GUESTS_PER_VAN)

  /** 32 guests need five vans of seven seats, and four would not do. */
  lemma MaxVansIsFive()
    ensures MAX_NUMBER_OF_VANS == 5
    ensures (MAX_NUMBER_OF_VANS - 1) * NUMBER_OF_GUESTS_PER_VAN < MAX_NUMBER_OF_GUESTS
  {
  }

  /** The default split of `n` guests (`n / 2` doubles, `n % 2` singles)
      stays within the room maxima for every admissible guest count. */
  lemma DefaultSplitFits(n: int)
    requires MIN_NUMBER_OF_GUESTS <= n <= MAX_NUMBER_OF_GUESTS
    ensures 0 <= n / 2 <= MAX_DOUBLE_ROOMS && 0 <= n % 2 <= MAX_SINGLE_ROOMS
    ensures 2 * (n / 2) + n % 2 == n
  {
  }

  /** The free-quote selector offers choices the smallest party must refuse
      (`MIN_NUMBER_OF_GUESTS` itself is one of `0..MAX_FREE_QUOTE`), so its guard matters. */
  lemma FreeQuoteGuardReachable()
    ensures MAX_FREE_QUOTE > MIN_NUMBER_OF_GUESTS
    ensures 0 <= MIN_NUMBER_OF_GUESTS <= MAX_FREE_QUOTE
  {
  }
}

=== FILE: cost_input.dfy ===
/**
 * The `onChange` filter every cost input of the catalog forms applies
 * (the meal cost, and a service's cost per person, group cost and van
 * cost): an edit whose last character is a space is dropped, and any other
 * edit is taken exactly when `Number` of its last character is a number.
 */
module CostInput {
  import opened JsText

  /** `lastChar === " "`: the handler returns at once. */
  predicate EndsInSpace(value: string) {
    LastChar(value) == " "
  }

  /** Whether the handler writes `value` into the field. */
  predicate Accepts(value: string) {
    !EndsInSpace(value) && ToNumber(LastChar(value)) != NaN
  }

  /** The filter takes the empty value, a value ending in a digit, and a
      value ending in whitespace other than the space character; nothing
      else. */
  lemma AcceptsIff(value: string)
    ensures Accepts(value) <==>
      || value == []
      || IsDigit(value[|value| - 1])
      || (IsWhitespace(value[|value| - 1]) && value[|value| - 1] != ' ')
  {
    ToNumberOfChar(LastChar(value));
  }

  /** Typing a character at the end of a field that holds only digits: the
      field then holds only digits, and reads as a number, unless the
      character is taken and is whitespace; a refused character leaves the
      digits as they were. */
  lemma {:induction false} TypingAtEndKeepsDigits(field: string, c: char)
    requires AllDigits(field)
    ensures var edited := if Accepts(field + [c]) then field + [c] else field;
      !IsWhitespace(c) ==> AllDigits(edited) && ToNumber(edited).Finite?
  {
    var typed := field + [c];
    AcceptsIff(typed);
    var edited := if Accepts(typed) then typed else field;
    if !IsWhitespace(c) {
      assert AllDigits(edited);
      DigitsReadAsNumber(edited);
    }
  }

  /** A string of digits reads as its value. */
  lemma DigitsReadAsNumber(s: string)
    requires AllDigits(s)
    ensures ToNumber(s).Finite?
  {
    if s != [] {
      assert !IsWhitespace(s[0]) && !IsWhitespace(s[|s| - 1]);
      TrimOfTrimmed(s);
    }
  }

  /** Only the last character is looked at: an edit in the middle of the
      field such as "1a2" is taken, and reads as NaN. */
  lemma MiddleEditsPass()
    ensures Accepts("1a2") && ToNumber("1a2") == NaN
  {
    var s := "1a2";
    assert LastChar(s) == "2";
    ToNumberOfChar("2");
    assert !IsWhitespace(s[0]) && !IsWhitespace(s[2]);
    TrimOfTrimmed(s);
    assert !AllDigits(s) by { assert !IsDigit(s[1]); }
  }
}

=== FILE: create_actions.dfy ===
/**
 * The two server actions behind the wizard's submit button
 * (`src/app/preventives/create/actions.ts`): `createPreventive`, which
 * stores the quote together with the tax and nightly rates in force, and
 * `createPDF`, which prices the quote with its `calculate*` closures and
 * lays it out page by page.
 */
module CreateActions {
  import opened Wrappers
  import opened Entities
  import opened Database
  import opened Pricing
  import opened QuoteDocument
  import Constants

  /** What a failed database write reports; the exact Prisma error is not
      modelled. */
  const DB_FAILURE: string := "Database error"

  /** The record `createPreventive` stores: the form, the slate and the
      services as given, and the rates in force at creation time. */
  function Snapshot(id: Id, form: QuoteForm, meals: seq<DailyMeal>, services: seq<Service>, now: int): (p: Preventive)
    ensures p.id == id && FormOf(p) == form && p.meals == meals && p.services == services
    ensures p.tax == Constants.TAX && p.costPerNight == Constants.COST_PER_NIGHT
    ensures p.costPerDoubleRoom == Constants.COST_PER_DOUBLE_ROOM
    ensures p.costPerSingleRoom == Constants.COST_PER_SINGLE_ROOM
    ensures p.createdAt == now && p.updatedAt == now
  {
    Preventive(id, form.name, form.checkIn, form.checkOut, form.numberOfGuests, form.doubleRooms,
      form.singleRooms, form.freeQuote, form.description, form.numberOfVans, meals, services,
      Constants.TAX, Constants.COST_PER_NIGHT, Constants.COST_PER_DOUBLE_ROOM,
      Constants.COST_PER_SINGLE_ROOM, now, now)
  }

  /** `createPreventive`: one new record, or an error and no change when the
      database write fails (`dbFails`). */
  method CreatePreventive(db: Db, form: QuoteForm, meals: seq<DailyMeal>, services: seq<Service>,
                          newId: Id, now: int, dbFails: bool) returns (r: Outcome)
    requires db.Valid() && newId !in db.preventives
    modifies db
    ensures db.Valid()
    ensures r == (if dbFails then Error(DB_FAILURE) else Ok)
    ensures !dbFails ==> db.preventives == old(db.preventives)[newId := Snapshot(newId, form, meals, services, now)]
    ensures dbFails ==> db.preventives == old(db.preventives)
    ensures db.meals == old(db.meals) && db.services == old(db.services)
    ensures db.categories == old(db.categories)
  {
    if dbFails {
      return Error(DB_FAILURE);
    }
    db.preventives := db.preventives[newId := Snapshot(newId, form, meals, services, now)];
    r := Ok;
  }

  /** The rates a stored record carries are the live ones at creation. */
  function SnapshotRates(p: Preventive): Rates {
    Rates(p.tax, p.costPerDoubleRoom, p.costPerSingleRoom)
  }

  lemma SnapshotHasLiveRates(id: Id, form: QuoteForm, meals: seq<DailyMeal>, services: seq<Service>, now: int)
    ensures SnapshotRates(Snapshot(id, form, meals, services, now)) == LIVE_RATES
  {
  }

  /** `calculateTotalCostForMeals`. */
  method CalculateTotalCostForMeals(meals: seq<DailyMeal>, numberOfGuests: int) returns (total: int)
    ensures total == MealsCost(meals, numberOfGuests)
  {
    var cost := 0;
    var i := 0;
    while i < |meals|
      invariant 0 <= i <= |meals|
      invariant cost == DaysCost(meals[..i])
    {
      var item := meals[i];
      cost := cost + (if item.lunch.Some? then item.lunch.value.cost else 0);
      cost := cost + (if item.dinner.Some? then item.dinner.value.cost else 0);
      assert meals[..i + 1][..i] == meals[..i];
      i := i + 1;
    }
    assert meals[..i] == meals;
    total := cost * numberOfGuests;
  }

  /** `calculateCostForService`. */
  method CalculateCostForService(service: Service, numberOfGuests: int, numberOfVans: Option<int>) returns (cost: int)
    ensures cost == ServiceCost(service, numberOfGuests, numberOfVans)
  {
    cost := service.costPerPerson * numberOfGuests + service.groupCost
      + service.vanCost * (if numberOfVans.Some? then numberOfVans.value else 0);
  }

  /** `calculateTotalCostForServices`. */
  method CalculateTotalCostForServices(services: seq<Service>, numberOfGuests: int, numberOfVans: Option<int>)
    returns (cost: int)
    ensures cost == ServicesCost(services, numberOfGuests, numberOfVans)
  {
    cost := 0;
    var i := 0;
    while i < |services|
      invariant 0 <= i <= |services|
      invariant cost == ServicesCost(services[..i], numberOfGuests, numberOfVans)
    {
      var itemCost := CalculateCostForService(services[i], numberOfGuests, numberOfVans);
      cost := cost + itemCost;
      assert services[..i + 1][..i] == services[..i];
      i := i + 1;
    }
    assert services[..i] == services;
  }

  /** `calculateTotalBasesCost`, with the live room rates. */
  method CalculateTotalBasesCost(doubleRooms: int, singleRooms: int, nights: int) returns (cost: int)
    ensures cost == BasesCost(doubleRooms, singleRooms, LIVE_RATES, nights)
  {
    cost := 0;
    cost := cost + doubleRooms * Constants.COST_PER_DOUBLE_ROOM;
    cost := cost + singleRooms * Constants.COST_PER_SINGLE_ROOM;
    cost := cost * nights;
  }

  /** The `calculate*` closures of `createPDF`, each evaluated once: the
      figures the PDF prints are those of the pricing model at live rates. */
  method CalculateCosts(form: QuoteForm, meals: seq<DailyMeal>, services: seq<Service>) returns (c: Costs)
    ensures c == QuoteCosts(StayOf(form), meals, services, LIVE_RATES)
  {
    var nights := Nights(form.checkIn, form.checkOut);
    var bases := CalculateTotalBasesCost(form.doubleRooms, form.singleRooms, nights);
    var mealsCost := CalculateTotalCostForMeals(meals, form.numberOfGuests);
    var servicesCost := CalculateTotalCostForServices(services, form.numberOfGuests, form.numberOfVans);
    var total := 0;
    total := total + bases;
    total := total + mealsCost;
    total := total + servicesCost;
    var withTax := total as real + (total * Constants.TAX) as real / 100.0;
    var paying := form.numberOfGuests - (if form.freeQuote.Some? then form.freeQuote.value else 0);
    var perGuest := if paying == 0 then None else Some(withTax / paying as real);
    c := Costs(bases, mealsCost, servicesCost, total, withTax, perGuest);
  }

  /** What the layout needs to hold on entry to each section. */
  ghost predicate Ready(c: PdfCanvas)
    reads c
  {
    c.Valid() && LastPage(c.pages) != [] && Headed(c.pages, c.headerLines)
  }

  /** "Arrival and departure": a title, five lines, a gap. */
  method DrawArrival(c: PdfCanvas)
    requires Ready(c)
    modifies c
    ensures Ready(c)
    ensures old(c.Safe()) ==> c.Safe()
  {
    c.DrawLine(Title);
    var k := 0;
    while k < 5
      invariant 0 <= k <= 5 && Ready(c)
      invariant old(c.Safe()) ==> (c.headerLines <= 39 && OnPage(c.pages)
        && c.currentY > 2 * MARGIN_Y - LINE_STEP * (k + 1))
    {
      c.DrawLine(Text);
      k := k + 1;
    }
    c.Gap(LINE_STEP);
    c.AddPage();
  }

  /** "Rooms": a title, the two room counts, a gap. */
  method DrawRooms(c: PdfCanvas)
    requires Ready(c)
    modifies c
    ensures Ready(c)
    ensures old(c.Safe()) ==> c.Safe()
  {
    c.DrawLine(Title);
    c.DrawLine(Text);
    c.DrawLine(Text);
    c.Gap(LINE_STEP);
    c.AddPage();
  }

  /** "Meals": a title, then either the notice that there are no nights or
      three lines per night, each night followed by `addPage`, and the meal
      total. */
  method DrawMeals(c: PdfCanvas, days: nat)
    requires Ready(c)
    modifies c
    ensures Ready(c)
    ensures old(c.Safe()) ==> c.Safe()
  {
    c.DrawLine(Title);
    if days == 0 {
      c.DrawLine(Text);
    } else {
      var i := 0;
      while i < days
        invariant 0 <= i <= days && Ready(c)
        invariant old(c.Safe()) ==> (c.headerLines <= 39 && OnPage(c.pages)
          && c.currentY > 2 * MARGIN_Y - (if i == 0 then LINE_STEP else 0))
      {
        c.DrawLine(Text);
        c.DrawLine(Text);
        c.DrawLine(Text);
        c.AddPage();
        i := i + 1;
      }
      c.DrawLine(Text);
    }
    c.Gap(LINE_STEP);
    c.AddPage();
  }

  /** "Services": a title, then either "No services were selected" or one
      line per service, each followed by `addPage`, and the services
      total. */
  method DrawServices(c: PdfCanvas, count: nat)
    requires Ready(c)
    modifies c
    ensures Ready(c)
    ensures old(c.Safe()) ==> c.Safe()
  {
    c.DrawLine(Title);
    if count == 0 {
      c.DrawLine(Text);
    } else {
      var i := 0;
      while i < count
        invariant 0 <= i <= count && Ready(c)
        invariant old(c.Safe()) ==> (c.headerLines <= 39 && OnPage(c.pages)
          && c.currentY > 2 * MARGIN_Y - (if i == 0 then LINE_STEP else 0))
      {
        c.DrawLine(Text);
        c.AddPage();
        i := i + 1;
      }
      c.DrawLine(Text);
    }
    c.Gap(LINE_STEP);
    c.AddPage();
  }

  /** The optional "Description" and "Number of vans" sections: a title, one
      line, a gap. */
  method DrawOptional(c: PdfCanvas, present: bool)
    requires Ready(c)
    modifies c
    ensures Ready(c)
    ensures old(c.Safe()) ==> c.Safe()
  {
    if present {
      c.DrawLine(Title);
      c.DrawLine(Text);
      c.Gap(LINE_STEP);
      c.AddPage();
    }
  }

  /** "Total cost": a title, three lines, then a gap of 120 points to leave
      room for the signature. */
  method DrawTotals(c: PdfCanvas)
    requires Ready(c)
    modifies c
    ensures Ready(c)
    ensures old(c.Safe()) ==> c.Safe()
  {
    c.DrawLine(Title);
    var k := 0;
    while k < 3
      invariant 0 <= k <= 3 && Ready(c)
      invariant old(c.Safe()) ==> (c.headerLines <= 39 && OnPage(c.pages)
        && c.currentY > 2 * MARGIN_Y - LINE_STEP * (k + 1))
    {
      c.DrawLine(Text);
      k := k + 1;
    }
    c.Gap(120);
    c.AddPage();
  }

  /** The signature line and the footer. */
  method DrawSignature(c: PdfCanvas)
    requires Ready(c)
    modifies c
    ensures Ready(c)
    ensures old(c.Safe()) ==> OnPage(c.pages)
  {
    c.DrawLine(Title);
    c.Gap(LINE_STEP);
    c.DrawLine(Footer);
  }

  /** What `createPDF` returns: the document, or an error when pdf-lib
      fails (`renderFails`). */
  datatype PdfResult = Pdf(costs: Costs, pages: seq<seq<DrawnLine>>) | PdfError

  /** The canvas after `PDFDocument.create()`, the first page, its heading
      and the gap below it. */
  method NewCanvas(headerLines: nat) returns (c: PdfCanvas)
    requires headerLines >= 1
    ensures fresh(c) && Ready(c) && c.headerLines == headerLines
    ensures |c.pages| == 1
    ensures headerLines <= 39 ==> c.Safe()
  {
    c := new PdfCanvas(headerLines);
    c.AddHeader();
    assert c.pages == [HeaderRun(PAGE_TOP, headerLines)] by {
      var empty: seq<seq<DrawnLine>> := [[]];
      assert empty[..0] == [];
      assert LastPage(empty) + HeaderRun(PAGE_TOP, headerLines) == HeaderRun(PAGE_TOP, headerLines);
    }
    FirstPage(headerLines);
    c.Gap(LINE_STEP);
  }

  /** The first page, holding only the heading, is headed and, for a heading
      that fits, on the page. */
  lemma FirstPage(headerLines: nat)
    ensures Headed([HeaderRun(PAGE_TOP, headerLines)], headerLines)
    ensures headerLines <= 39 ==> OnPage([HeaderRun(PAGE_TOP, headerLines)])
  {
    var none: seq<seq<DrawnLine>> := [];
    NewPageKeepsHeadings(none, headerLines);
    if headerLines <= 39 {
      NewPageOnPage(none, headerLines);
    }
    assert none + [HeaderRun(PAGE_TOP, headerLines)] == [HeaderRun(PAGE_TOP, headerLines)];
  }

  /** The sections of the quote, in the order `createPDF` draws them. */
  method DrawSections(c: PdfCanvas, days: nat, serviceCount: nat, hasDescription: bool, hasVans: bool)
    requires Ready(c)
    modifies c
    ensures Ready(c)
    ensures old(c.Safe()) ==> OnPage(c.pages)
  {
    DrawArrival(c);
    DrawRooms(c);
    DrawMeals(c, days);
    DrawServices(c, serviceCount);
    DrawOptional(c, hasDescription);
    DrawOptional(c, hasVans);
    DrawTotals(c);
    DrawSignature(c);
  }

  /** `createPDF`. The heading wraps into `headerLines` lines, as measured by
      the font. Every page opens with the heading; when the heading takes at
      most 39 lines, no line falls below the bottom edge of its page. The
      meals section has one entry per day of the slate. */
  method CreatePdf(form: QuoteForm, meals: seq<DailyMeal>, services: seq<Service>,
                   headerLines: nat, renderFails: bool) returns (r: PdfResult)
    requires headerLines >= 1
    ensures r.Pdf? <==> !renderFails
    ensures r.Pdf? ==> r.costs == QuoteCosts(StayOf(form), meals, services, LIVE_RATES)
    ensures r.Pdf? ==> |r.pages| >= 1 && Headed(r.pages, headerLines)
    ensures r.Pdf? && headerLines <= 39 ==> OnPage(r.pages)
  {
    if renderFails {
      return PdfError;
    }
    var costs := CalculateCosts(form, meals, services);
    var c := NewCanvas(headerLines);
    DrawSections(c, |meals|, |services|,
      form.description.Some? && form.description.value != "",
      form.numberOfVans.Some? && form.numberOfVans.value != 0);
    r := Pdf(costs, c.pages);
  }
}

=== FILE: database.dfy ===
/**
 * The database the server actions read and write, as four tables from id
 * to record. The unique indexes of the schema (`name_dayType_mealType` on
 * meals, `name_categoryId` on services, `name` on categories) and the
 * relation from a service to its category are part of `Valid()`.
 */
module Database {
  import opened Wrappers
  import opened Entities

  /** What a server action returns: `{ error: undefined }` or an error message. */
  datatype Outcome = Ok | Error(message: string)

  const EMPTY_IDS: string := "The 'ids' array must not be empty"
  /** The message of a write the database refuses: a service whose category
      does not exist, or a cost that is not a number. The exact wording of
      Prisma's errors is not modelled. */
  const WRITE_REFUSED: string := "Invalid database write"

  /** The ids named by a `{ id: { in: ids } }` filter. */
  function IdSet(ids: seq<Id>): (r: set<Id>)
    ensures forall id :: id in r <==> id in ids
  {
    set id | id in ids
  }

  predicate MealTableValid(m: map<Id, Meal>) {
    && (forall id :: id in m ==> m[id].id == id)
    && (forall a, b :: a in m && b in m && KeyOfMeal(m[a]) == KeyOfMeal(m[b]) ==> a == b)
  }

  predicate ServiceTableValid(m: map<Id, Service>) {
    && (forall id :: id in m ==> m[id].id == id)
    && (forall a, b :: a in m && b in m && KeyOfService(m[a]) == KeyOfService(m[b]) ==> a == b)
  }

  predicate CategoryTableValid(m: map<Id, ServiceCategory>) {
    && (forall id :: id in m ==> m[id].id == id)
    && (forall a, b :: a in m && b in m && m[a].name == m[b].name ==> a == b)
  }

  /** Every service belongs to a category that exists. */
  predicate ServicesHaveCategories(services: map<Id, Service>, categories: map<Id, ServiceCategory>) {
    forall id :: id in services ==> services[id].categoryId in categories
  }

  predicate PreventiveTableValid(m: map<Id, Preventive>) {
    forall id :: id in m ==> m[id].id == id
  }

  class Db {
    var meals: map<Id, Meal>
    var services: map<Id, Service>
    var categories: map<Id, ServiceCategory>
    var preventives: map<Id, Preventive>

    ghost predicate Valid()
      reads this
    {
      && MealTableValid(meals)
      && ServiceTableValid(services)
      && CategoryTableValid(categories)
      && ServicesHaveCategories(services, categories)
      && PreventiveTableValid(preventives)
    }

    constructor ()
      ensures Valid()
      ensures meals == map[] && services == map[] && categories == map[] && preventives == map[]
    {
      meals := map[];
      services := map[];
      categories := map[];
      preventives := map[];
    }
  }

  /** `findUnique({ where: { name_dayType_mealType } })`. */
  function FindMeal(m: map<Id, Meal>, k: MealKey): (r: Option<Meal>)
    requires MealTableValid(m)
    ensures r.Some? <==> exists id :: id in m && KeyOfMeal(m[id]) == k
    ensures r.Some? ==> r.value.id in m && m[r.value.id] == r.value && KeyOfMeal(r.value) == k
  {
    if exists id :: id in m && KeyOfMeal(m[id]) == k then
      var id :| id in m && KeyOfMeal(m[id]) == k;
      Some(m[id])
    else None
  }

  /** `findUnique({ where: { name_categoryId } })`. */
  function FindService(m: map<Id, Service>, k: ServiceKey): (r: Option<Service>)
    requires ServiceTableValid(m)
    ensures r.Some? <==> exists id :: id in m && KeyOfService(m[id]) == k
    ensures r.Some? ==> r.value.id in m && m[r.value.id] == r.value && KeyOfService(r.value) == k
  {
    if exists id :: id in m && KeyOfService(m[id]) == k then
      var id :| id in m && KeyOfService(m[id]) == k;
      Some(m[id])
    else None
  }

  /** `findUnique({ where: { name } })` on the categories. */
  function FindCategory(m: map<Id, ServiceCategory>, name: string): (r: Option<ServiceCategory>)
    requires CategoryTableValid(m)
    ensures r.Some? <==> exists id :: id in m && m[id].name == name
    ensures r.Some? ==> r.value.id in m && m[r.value.id] == r.value && r.value.name == name
  {
    if exists id :: id in m && m[id].name == name then
      var id :| id in m && m[id].name == name;
      Some(m[id])
    else None
  }

  /** The records of a table, each once, in the order the database returns
      them (any order: `findMany` without `orderBy`). */
  method FindMany<V(==)>(m: map<Id, V>) returns (rows: seq<V>)
    ensures |rows| == |m.Keys|
    ensures forall id :: id in m ==> m[id] in rows
    ensures forall v :: v in rows ==> v in m.Values
  {
    rows := [];
    var remaining := m.Keys;
    while remaining != {}
      invariant remaining <= m.Keys
      invariant |rows| + |remaining| == |m.Keys|
      invariant forall id :: id in m && id !in remaining ==> m[id] in rows
      invariant forall v :: v in rows ==> v in m.Values
      decreases |remaining|
    {
      var id :| id in remaining;
      rows := rows + [m[id]];
      remaining := remaining - {id};
    }
  }
}

=== FILE: entities.dfy ===
/**
 * The records the application stores and passes around: catalog meals,
 * services and service categories, the per-night meal slate of a quote,
 * the quote form and the stored quote ("preventive"). Dates are whole day
 * numbers; money is a whole number of currency units.
 */
module Entities {
  import opened Wrappers

  /** Database identifiers (cuid strings). */
  type Id = string

  /** Prisma enum `DayType`: `first_day`, `default_day`, `last_day`. */
  datatype DayType = FirstDay | DefaultDay | LastDay

  /** Prisma enum `MealType`: `lunch`, `dinner`. */
  datatype MealType = Lunch | Dinner

  datatype Meal = Meal(
    id: Id,
    name: string,
    dayType: DayType,
    mealType: MealType,
    cost: int,
    description: Option<string>)

  datatype Service = Service(
    id: Id,
    name: string,
    description: Option<string>,
    costPerPerson: int,
    groupCost: int,
    vanCost: int,
    isRequiredVan: bool,
    categoryId: Id)

  datatype ServiceCategory = ServiceCategory(id: Id, name: string)

  /** The unique key `name_dayType_mealType` of the meal table. */
  datatype MealKey = MealKey(name: string, dayType: DayType, mealType: MealType)

  /** The unique key `name_categoryId` of the service table. */
  datatype ServiceKey = ServiceKey(name: string, categoryId: Id)

  function KeyOfMeal(m: Meal): MealKey {
    MealKey(m.name, m.dayType, m.mealType)
  }

  function KeyOfService(s: Service): ServiceKey {
    ServiceKey(s.name, s.categoryId)
  }

  /** One night of a quote (`IMeal`): its date, its classification and the
      meals chosen for it (`null` when none). */
  datatype DailyMeal = DailyMeal(
    date: int,
    dayType: DayType,
    lunch: Option<Meal>,
    dinner: Option<Meal>)

  /** The slot of a night named by a meal type (`mealObj[mealType]`). */
  function Slot(d: DailyMeal, t: MealType): Option<Meal> {
    match t
    case Lunch => d.lunch
    case Dinner => d.dinner
  }

  /** The quote form while it is being filled in: the react-hook-form state,
      where the dates and the guest count start undefined. */
  datatype DraftForm = DraftForm(
    name: string,
    checkIn: Option<int>,
    checkOut: Option<int>,
    numberOfGuests: Option<int>,
    doubleRooms: int,
    singleRooms: int,
    freeQuote: Option<int>,
    description: Option<string>,
    numberOfVans: Option<int>)

  /** The quote form after `PreventiveForm` has accepted it (`TPreventiveForm`). */
  datatype QuoteForm = QuoteForm(
    name: string,
    checkIn: int,
    checkOut: int,
    numberOfGuests: int,
    doubleRooms: int,
    singleRooms: int,
    freeQuote: Option<int>,
    description: Option<string>,
    numberOfVans: Option<int>)

  /** A stored quote: the form fields, the serialised slate and services, and
      the tax and nightly rates in force when it was created. */
  datatype Preventive = Preventive(
    id: Id,
    name: string,
    checkIn: int,
    checkOut: int,
    numberOfGuests: int,
    doubleRooms: int,
    singleRooms: int,
    freeQuote: Option<int>,
    description: Option<string>,
    numberOfVans: Option<int>,
    meals: seq<DailyMeal>,
    services: seq<Service>,
    tax: int,
    costPerNight: int,
    costPerDoubleRoom: int,
    costPerSingleRoom: int,
    createdAt: int,
    updatedAt: int)

  /** The form fields of a stored quote. */
  function FormOf(p: Preventive): QuoteForm {
    QuoteForm(p.name, p.checkIn, p.checkOut, p.numberOfGuests, p.doubleRooms,
      p.singleRooms, p.freeQuote, p.description, p.numberOfVans)
  }

  /** `differenceInDays(checkOut, checkIn)` on day numbers. */
  function Nights(checkIn: int, checkOut: int): int {
    checkOut - checkIn
  }
}

=== FILE: form_context.dfy ===
/**
 * The wizard's shared state (`src/context/preventive-form.tsx`): the step,
 * the quote form, the slate of nights, the selected services and the
 * success dialog; `reset`, the submit mutation (store the quote, then build
 * its PDF) and the load of a quote to duplicate.
 */
module PreventiveFormContext {
  import opened Wrappers
  import opened Entities
  import opened Database
  import opened Pricing
  import opened Schemas
  import QuoteDocument
  import CreateActions
  import PreventiveActions
  import MealActions
  import ServiceActions
  import PreventiveSummary

  /** The form's `defaultValues`, which `reset` restores. */
  const DEFAULT_FORM: DraftForm := DraftForm("", None, None, None, 0, 0, Some(0), Some(""), Some(0))

  /** The number of the last step ("Confirm"). */
  const LAST_STEP: int := 3

  class FormContext {
    var step: int
    var form: DraftForm
    var meals: seq<DailyMeal>
    var services: seq<Service>
    var openDialog: bool
    /** Whether a submission is under way (`isPending` of the mutation). */
    var isPending: bool

    ghost predicate Valid()
      reads this
    {
      0 <= step <= LAST_STEP
    }

    constructor ()
      ensures Valid()
      ensures step == 0 && form == DEFAULT_FORM && meals == [] && services == []
      ensures !openDialog && !isPending
    {
      step := 0;
      form := DEFAULT_FORM;
      meals := [];
      services := [];
      openDialog := false;
      isPending := false;
    }

    /** `reset` ("Start Over"): the initial state again. */
    method Reset()
      modifies this
      ensures Valid()
      ensures step == 0 && form == DEFAULT_FORM && meals == [] && services == []
      ensures !openDialog && isPending == old(isPending)
    {
      meals := [];
      services := [];
      form := DEFAULT_FORM;
      step := 0;
      openDialog := false;
    }
  }

  /** How a submission ends. */
  datatype SubmitOutcome =
    | Refused(issues: seq<Issue>)
    | PersistFailed(message: string)
    | RenderFailed
    | Submitted(costs: Costs, pages: seq<seq<QuoteDocument.DrawnLine>>)

  /** The submit button: `handleSubmit` validates the form and only then
      runs the mutation, which stores the quote and, only if that worked,
      builds the PDF from the same values, slate and services. A PDF failure
      leaves the stored quote in place. The dialog opens only when both
      steps worked. */
  method Submit(ctx: FormContext, db: Db, newId: Id, now: int, dbFails: bool,
                headerLines: nat, renderFails: bool) returns (r: SubmitOutcome)
    requires db.Valid() && newId !in db.preventives && headerLines >= 1
    modifies ctx, db
    ensures db.Valid()
    ensures PreventiveForm(old(ctx.form)).Invalid? ==>
      r == Refused(PreventiveForm(old(ctx.form)).issues) && db.preventives == old(db.preventives)
    ensures PreventiveForm(old(ctx.form)).Valid? && dbFails ==>
      r == PersistFailed(CreateActions.DB_FAILURE) && db.preventives == old(db.preventives)
    ensures PreventiveForm(old(ctx.form)).Valid? && !dbFails ==>
      db.preventives == old(db.preventives)[newId :=
        CreateActions.Snapshot(newId, PreventiveForm(old(ctx.form)).value, old(ctx.meals), old(ctx.services), now)]
    ensures r.Submitted? <==> PreventiveForm(old(ctx.form)).Valid? && !dbFails && !renderFails
    ensures PreventiveForm(old(ctx.form)).Valid? && !dbFails && renderFails ==> r == RenderFailed
    ensures r.Submitted? ==> QuoteDocument.Headed(r.pages, headerLines)
    ensures r.Submitted? ==> var p := db.preventives[newId];
      r.costs == QuoteCosts(StayOf(PreventiveSummary.FormFor(PreventiveSummary.Stored(p))), p.meals, p.services,
        PreventiveSummary.RatesFor(PreventiveSummary.Stored(p)))
    ensures ctx.openDialog == (old(ctx.openDialog) || r.Submitted?)
    ensures ctx.step == old(ctx.step) && ctx.form == old(ctx.form)
    ensures ctx.meals == old(ctx.meals) && ctx.services == old(ctx.services)
    ensures ctx.isPending == old(ctx.isPending)
    ensures db.meals == old(db.meals) && db.services == old(db.services) && db.categories == old(db.categories)
  {
    var parsed := PreventiveForm(ctx.form);
    if parsed.Invalid? {
      return Refused(parsed.issues);
    }
    var values := parsed.value;
    var stored := CreateActions.CreatePreventive(db, values, ctx.meals, ctx.services, newId, now, dbFails);
    if stored.Error? {
      return PersistFailed(stored.message);
    }
    var pdf := CreateActions.CreatePdf(values, ctx.meals, ctx.services, headerLines, renderFails);
    if pdf.PdfError? {
      return RenderFailed;
    }
    PreventiveSummary.StoredMatchesPdf(newId, values, ctx.meals, ctx.services, now);
    ctx.openDialog := true;
    r := Submitted(pdf.costs, pdf.pages);
  }

  /** The query that loads the quote to duplicate (`?id=`): nothing without
      an id; an error for an id `getPreventive` refuses; otherwise the slate
      and services reconciled with today's catalog, and the stored form
      fields copied verbatim. */
  method LoadDuplicate(ctx: FormContext, db: Db, id: Option<Id>, isCuid: bool) returns (r: Outcome)
    requires db.Valid()
    modifies ctx
    ensures id.None? ==> r == Ok
    ensures r.Error? || id.None? ==>
      ctx.meals == old(ctx.meals) && ctx.services == old(ctx.services) && ctx.form == old(ctx.form)
    ensures id.Some? ==> var found := PreventiveActions.GetPreventive(db.preventives, id.value, isCuid);
      && (found.LookupError? ==> r == Error(found.message))
      && (found.Found? ==> (
            && r == Ok
            && ctx.meals == MealActions.CheckedSlate(db.meals, found.preventive.meals)
            && ctx.services == ServiceActions.KeptServices(db.services, found.preventive.services)
            && ctx.form == DraftOf(FormOf(found.preventive))))
    ensures ctx.step == old(ctx.step) && ctx.openDialog == old(ctx.openDialog)
    ensures ctx.isPending == old(ctx.isPending)
  {
    if id.None? {
      return Ok;
    }
    var found := PreventiveActions.GetPreventive(db.preventives, id.value, isCuid);
    if found.LookupError? {
      return Error(found.message);
    }
    var preventive := found.preventive;
    var newMeals := MealActions.CheckAndSetMeals(db, preventive.meals);
    ctx.meals := newMeals;
    var newServices := ServiceActions.CheckAndSetServices(db, preventive.services);
    ctx.services := newServices;
    ctx.form := DraftOf(FormOf(preventive));
    r := Ok;
  }

  /** A duplicated quote whose name is not blank passes validation as it
      was loaded, and would be stored with the same form fields. */
  lemma DuplicateRevalidates(p: Preventive)
    requires p.name != "" && p.name == JsText.Trim(p.name)
    ensures PreventiveForm(DraftOf(FormOf(p))) == Valid(FormOf(p))
  {
  }
}

=== FILE: js_text.dfy ===
/**
 * The few JavaScript string and number built-ins the application relies on:
 * `String.prototype.trim` (used by every zod `.transform(trim)`), `Number(s)`
 * (the cost keystroke filter and the string-to-number conversion of costs),
 * `String(n)` (costs loaded back into edit forms) and `value.slice(-1)`.
 */
module JsText {
  import opened Wrappers

  /** ECMAScript WhiteSpace and LineTerminator code points: what `trim` strips
      and what `Number` ignores around a numeral. */
  predicate IsWhitespace(c: char) {
    || c == '\t' || c == '\n' || c == '\U{000B}' || c == '\U{000C}' || c == '\r'
    || c == ' ' || c == '\U{00A0}' || c == '\U{1680}'
    || ('\U{2000}' <= c <= '\U{200A}')
    || c == '\U{2028}' || c == '\U{2029}' || c == '\U{202F}' || c == '\U{205F}'
    || c == '\U{3000}' || c == '\U{FEFF}'
  }

  predicate IsDigit(c: char) {
    '0' <= c <= '9'
  }

  predicate AllDigits(s: string) {
    forall i :: 0 <= i < |s| ==> IsDigit(s[i])
  }

  function TrimStart(s: string): string {
    if s != [] && IsWhitespace(s[0]) then TrimStart(s[1..]) else s
  }

  function TrimEnd(s: string): string {
    if s != [] && IsWhitespace(s[|s| - 1]) then TrimEnd(s[..|s| - 1]) else s
  }

  /** `trimStart` drops exactly the leading whitespace. */
  lemma {:induction false} TrimStartSpec(s: string)
    ensures var r := TrimStart(s);
      && |r| <= |s| && r == s[|s| - |r|..]
      && (r == [] || !IsWhitespace(r[0]))
      && (forall i :: 0 <= i < |s| - |r| ==> IsWhitespace(s[i]))
  {
    if s != [] && IsWhitespace(s[0]) {
      var tail := s[1..];
      TrimStartSpec(tail);
      var r := TrimStart(tail);
      assert TrimStart(s) == r;
      assert r == s[|s| - |r|..] by {
        assert tail[|tail| - |r|..] == s[|s| - |r|..];
      }
      forall i | 0 <= i < |s| - |r| ensures IsWhitespace(s[i]) {
        if i > 0 {
          assert s[i] == tail[i - 1];
        }
      }
    }
  }

  /** `trimEnd` drops exactly the trailing whitespace. */
  lemma {:induction false} TrimEndSpec(s: string)
    ensures var r := TrimEnd(s);
      && |r| <= |s| && r == s[..|r|]
      && (r == [] || !IsWhitespace(r[|r| - 1]))
      && (forall i :: |r| <= i < |s| ==> IsWhitespace(s[i]))
  {
    if s != [] && IsWhitespace(s[|s| - 1]) {
      TrimEndSpec(s[..|s| - 1]);
    }
  }

  /** `s.trim()`. */
  function Trim(s: string): string {
    TrimEnd(TrimStart(s))
  }

  /** `trim` removes exactly a whitespace prefix and a whitespace suffix, and
      leaves no whitespace at either end. */
  lemma TrimIsSlice(s: string)
    ensures exists i, j :: (0 <= i <= j <= |s| && Trim(s) == s[i..j]
      && (forall k :: 0 <= k < i ==> IsWhitespace(s[k]))
      && (forall k :: j <= k < |s| ==> IsWhitespace(s[k])))
    ensures Trim(s) == [] || (!IsWhitespace(Trim(s)[0]) && !IsWhitespace(Trim(s)[|Trim(s)| - 1]))
  {
    var t := TrimStart(s);
    var r := TrimEnd(t);
    TrimStartSpec(s);
    TrimEndSpec(t);
    var i := |s| - |t|;
    var j := i + |r|;
    assert r == s[i..j];
    forall k | j <= k < |s| ensures IsWhitespace(s[k]) {
      assert s[k] == t[k - i];
    }
  }

  /** A string with no whitespace at either end is its own trim. */
  lemma TrimOfTrimmed(s: string)
    requires s == [] || (!IsWhitespace(s[0]) && !IsWhitespace(s[|s| - 1]))
    ensures Trim(s) == s
  {
  }

  /** Trimming twice is trimming once. */
  lemma TrimIdempotent(s: string)
    ensures Trim(Trim(s)) == Trim(s)
  {
    TrimIsSlice(s);
    TrimOfTrimmed(Trim(s));
  }

  /** `trim` yields "" exactly for the strings made only of whitespace. */
  lemma TrimEmptyIffWhitespace(s: string)
    ensures Trim(s) == [] <==> forall k :: 0 <= k < |s| ==> IsWhitespace(s[k])
  {
    TrimIsSlice(s);
    var i, j :| 0 <= i <= j <= |s| && Trim(s) == s[i..j]
      && (forall k :: 0 <= k < i ==> IsWhitespace(s[k]))
      && (forall k :: j <= k < |s| ==> IsWhitespace(s[k]));
    if Trim(s) != [] {
      assert Trim(s)[0] == s[i];
    }
  }

  /** The numeric value of a string of decimal digits. */
  function DigitsValue(s: string): nat
    requires AllDigits(s)
  {
    if s == [] then 0 else DigitsValue(s[..|s| - 1]) * 10 + (s[|s| - 1] as int - '0' as int)
  }

  /** What `Number(s)` yields. */
  datatype JsNumber = Finite(value: int) | NaN

  /**
   * `Number(s)` for the numerals this application produces: surrounding
   * whitespace is ignored, the empty (or all-whitespace) string is 0, and an
   * optionally signed run of decimal digits is its value. Every other string
   * reads as NaN here.
   */
  function ToNumber(s: string): JsNumber {
    var t := Trim(s);
    if t == [] then Finite(0)
    else if AllDigits(t) then Finite(DigitsValue(t))
    else if (t[0] == '-' || t[0] == '+') && |t| > 1 && AllDigits(t[1..]) then
      Finite(if t[0] == '-' then -(DigitsValue(t[1..]) as int) else DigitsValue(t[1..]))
    else NaN
  }

  /** `Number(v)` of an optional string field: `Number(undefined)` is NaN. */
  function OptionalToNumber(v: Option<string>): (r: JsNumber)
    ensures v.Some? ==> r == ToNumber(v.value)
    ensures v.None? ==> r == NaN
  {
    match v
    case Some(s) => ToNumber(s)
    case None => NaN
  }

  /** `value.slice(-1)`: the last character, or "" for the empty string. */
  function LastChar(s: string): (r: string)
    ensures |r| <= 1
  {
    if s == [] then [] else [s[|s| - 1]]
  }

  /** `Number` of a string of at most one character is a number exactly for
      the empty string, a digit, or a whitespace character. */
  lemma ToNumberOfChar(c: string)
    requires |c| <= 1
    ensures ToNumber(c) != NaN <==> c == [] || IsDigit(c[0]) || IsWhitespace(c[0])
  {
    if c != [] && !IsWhitespace(c[0]) {
      TrimOfTrimmed(c);
    } else if c != [] {
      assert c[1..] == [];
      assert TrimStart(c) == TrimStart(c[1..]) == [];
      assert Trim(c) == [];
    }
  }

  function DigitChar(d: nat): (c: char)
    requires d < 10
    ensures IsDigit(c) && c as int - '0' as int == d
  {
    ('0' as int + d) as char
  }

  /** `String(n)` for a non-negative integer. */
  function NatToString(n: nat): (s: string)
    ensures |s| >= 1 && AllDigits(s)
  {
    if n < 10 then [DigitChar(n)] else NatToString(n / 10) + [DigitChar(n % 10)]
  }

  /** `String(n)` for an integer. */
  function IntToString(n: int): string {
    if n < 0 then "-" + NatToString(-n) else NatToString(n)
  }

  lemma {:induction false} DigitsValueOfNatToString(n: nat)
    ensures DigitsValue(NatToString(n)) == n
  {
    var s := NatToString(n);
    if n >= 10 {
      DigitsValueOfNatToString(n / 10);
      assert s[..|s| - 1] == NatToString(n / 10);
    }
  }

  /** `Number(String(n)) == n`: a cost written into a form as a string reads
      back as the same number. */
  lemma {:induction false} ToNumberOfIntToString(n: int)
    ensures ToNumber(IntToString(n)) == Finite(n)
  {
    var s := IntToString(n);
    var m: nat := if n < 0 then -n else n;
    var digits := NatToString(m);
    DigitsValueOfNatToString(m);
    assert !IsWhitespace(s[0]) && !IsWhitespace(s[|s| - 1]) by {
      assert IsDigit(digits[0]) && IsDigit(digits[|digits| - 1]);
      assert s[|s| - 1] == digits[|digits| - 1];
    }
    TrimOfTrimmed(s);
    if n < 0 {
      assert s[1..] == digits;
      assert !IsDigit(s[0]);
    }
  }
}

=== FILE: legacy_summary.dfy ===
/**
 * The legacy summary (`src/components/summary.tsx`), kept from the first
 * version of the wizard: it lists the nightly rates and the stay. A rate
 * field is shown when the object carries it (`"cost_per_night" in
 * preventive`), and the live constant otherwise.
 */
module LegacySummary {
  import opened Wrappers
  import Constants
  import Entities

  /** What the legacy summary reads. A rate is `None` when the object has no
      such field, as the legacy form has none. */
  datatype LegacySubject = LegacyRecord(
    checkIn: int,
    checkOut: int,
    costPerNight: Option<int>,
    costPerDoubleRoom: Option<int>,
    costPerSingleRoom: Option<int>)

  /** The legacy form: the stay dates and no rate fields. */
  function LegacyForm(checkIn: int, checkOut: int): (s: LegacySubject)
    ensures s.costPerNight.None? && s.costPerDoubleRoom.None? && s.costPerSingleRoom.None?
  {
    LegacyRecord(checkIn, checkOut, None, None, None)
  }

  /** "Cost per night". */
  function CostPerNight(s: LegacySubject): (r: int)
    ensures s.costPerNight.Some? ==> r == s.costPerNight.value
    ensures s.costPerNight.None? ==> r == Constants.COST_PER_NIGHT
  {
    s.costPerNight.GetOr(Constants.COST_PER_NIGHT)
  }

  /** "Cost per double room". */
  function CostPerDoubleRoom(s: LegacySubject): (r: int)
    ensures s.costPerDoubleRoom.Some? ==> r == s.costPerDoubleRoom.value
    ensures s.costPerDoubleRoom.None? ==> r == Constants.COST_PER_DOUBLE_ROOM
  {
    s.costPerDoubleRoom.GetOr(Constants.COST_PER_DOUBLE_ROOM)
  }

  /** "Cost per single room". */
  function CostPerSingleRoom(s: LegacySubject): (r: int)
    ensures s.costPerSingleRoom.Some? ==> r == s.costPerSingleRoom.value
    ensures s.costPerSingleRoom.None? ==> r == Constants.COST_PER_SINGLE_ROOM
  {
    s.costPerSingleRoom.GetOr(Constants.COST_PER_SINGLE_ROOM)
  }

  /** "Number of nights": the days from check-in to check-out. */
  function LegacyNights(s: LegacySubject): (n: int)
    ensures n == Entities.Nights(s.checkIn, s.checkOut)
    ensures s.checkIn + n == s.checkOut
  {
    s.checkOut - s.checkIn
  }

  /** The legacy form always shows today's rates. */
  lemma FormShowsLiveRates(checkIn: int, checkOut: int)
    ensures CostPerNight(LegacyForm(checkIn, checkOut)) == 115
    ensures CostPerDoubleRoom(LegacyForm(checkIn, checkOut)) == 230
    ensures CostPerSingleRoom(LegacyForm(checkIn, checkOut)) == 180
  {
  }

  /** A record's display depends on its own rates only: records that carry
      all three rates and agree on them show the same rates, whatever the
      constants are. */
  lemma RecordShowsOwnRates(s: LegacySubject, t: LegacySubject)
    requires s.costPerNight.Some? && s.costPerDoubleRoom.Some? && s.costPerSingleRoom.Some?
    requires s.costPerNight == t.costPerNight && s.costPerDoubleRoom == t.costPerDoubleRoom
    requires s.costPerSingleRoom == t.costPerSingleRoom
    ensures CostPerNight(s) == CostPerNight(t) == s.costPerNight.value
    ensures CostPerDoubleRoom(s) == CostPerDoubleRoom(t) == s.costPerDoubleRoom.value
    ensures CostPerSingleRoom(s) == CostPerSingleRoom(t) == s.costPerSingleRoom.value
  {
  }
}

=== FILE: legacy_wizard.dfy ===
/**
 * The first version of the wizard's navigation
 * (`src/hooks/use-create-preventive.ts`) over its own context: the same
 * guarded "next" and "previous", and a `reset` that only restores the
 * form's default values.
 */
module UseCreatePreventive {
  import opened Wrappers
  import opened Entities

  /** The legacy form, whose room and quote fields are strings. */
  datatype LegacyForm = LegacyForm(
    name: string,
    checkIn: Option<int>,
    checkOut: Option<int>,
    numberOfGuests: Option<string>,
    doubleRooms: string,
    singleRooms: string,
    freeQuote: string,
    description: string,
    numberOfVans: string)

  /** The legacy form's `defaultValues`. */
  const LEGACY_DEFAULTS: LegacyForm := LegacyForm("", None, None, None, "0", "0", "0", "", "0")

  const LEGACY_LAST_STEP: int := 3

  /** The legacy context: the step, the form, the slate and the services. */
  class LegacyWizard {
    var step: int
    var form: LegacyForm
    var meals: seq<DailyMeal>
    var services: seq<Service>

    ghost predicate Valid()
      reads this
    {
      0 <= step <= LEGACY_LAST_STEP
    }

    constructor ()
      ensures Valid() && step == 0 && form == LEGACY_DEFAULTS && meals == [] && services == []
    {
      step := 0;
      form := LEGACY_DEFAULTS;
      meals := [];
      services := [];
    }

    /** `next`. */
    method Next()
      requires Valid()
      modifies this
      ensures Valid()
      ensures old(step) < LEGACY_LAST_STEP ==> step == old(step) + 1
      ensures old(step) == LEGACY_LAST_STEP ==> step == old(step)
      ensures form == old(form) && meals == old(meals) && services == old(services)
    {
      if step < LEGACY_LAST_STEP {
        step := step + 1;
      }
    }

    /** `previous`. */
    method Previous()
      requires Valid()
      modifies this
      ensures Valid()
      ensures old(step) > 0 ==> step == old(step) - 1
      ensures old(step) == 0 ==> step == old(step)
      ensures form == old(form) && meals == old(meals) && services == old(services)
    {
      if step > 0 {
        step := step - 1;
      }
    }

    /** `reset`: `form.reset()`; the step, the slate and the services stay
        as they are. */
    method Reset()
      modifies this
      ensures form == LEGACY_DEFAULTS
      ensures step == old(step) && meals == old(meals) && services == old(services)
    {
      form := LEGACY_DEFAULTS;
    }
  }
}

=== FILE: meal_actions.dfy ===
/**
 * The meal catalog's server actions (`src/app/meals/actions.ts`): delete,
 * create and update against the meal table, the grouping of the catalog by
 * day type and meal type, and the reconciliation of a duplicated quote's
 * meals with the current catalog.
 */
module MealActions {
  import opened Wrappers
  import opened JsText
  import opened Entities
  import opened Schemas
  import opened Database

  const MEAL_EXISTS: string := "The meal already exists"
  const MEAL_NOT_FOUND: string := "Meal not found"

  method DeleteMeals(db: Db, ids: seq<Id>) returns (r: Outcome)
    requires db.Valid()
    modifies db
    ensures db.Valid()
    ensures r == (if ids == [] then Error(EMPTY_IDS) else Ok)
    ensures ids == [] ==> db.meals == old(db.meals)
    ensures ids != [] ==> db.meals == old(db.meals) - IdSet(ids)
    ensures db.services == old(db.services) && db.categories == old(db.categories)
    ensures db.preventives == old(db.preventives)
  {
    if ids == [] {
      return Error(EMPTY_IDS);
    }
    db.meals := db.meals - IdSet(ids);
    r := Ok;
  }

  /** The record `db.meal.create` stores for an accepted form. */
  function NewMeal(id: Id, form: MealValues, cost: int): (m: Meal)
    ensures m.id == id && KeyOfMeal(m) == MealKey(form.name, form.dayType, form.mealType)
  {
    Meal(id, form.name, form.dayType, form.mealType, cost, form.description)
  }

  /** `createMeal`: refused when a meal with the same name, day type and
      meal type exists; the cost string is stored as `Number(cost)`. */
  method CreateMeal(db: Db, form: MealValues, newId: Id) returns (r: Outcome)
    requires db.Valid() && newId !in db.meals
    modifies db
    ensures db.Valid()
    ensures r == Error(MEAL_EXISTS) <==>
      FindMeal(old(db.meals), MealKey(form.name, form.dayType, form.mealType)).Some?
    ensures r == Ok <==>
      FindMeal(old(db.meals), MealKey(form.name, form.dayType, form.mealType)).None?
      && OptionalToNumber(form.cost).Finite?
    ensures r == Ok ==> db.meals == old(db.meals)[newId := NewMeal(newId, form, OptionalToNumber(form.cost).value)]
    ensures r != Ok ==> db.meals == old(db.meals)
    ensures db.services == old(db.services) && db.categories == old(db.categories)
    ensures db.preventives == old(db.preventives)
  {
    var existing := FindMeal(db.meals, MealKey(form.name, form.dayType, form.mealType));
    if existing.Some? {
      return Error(MEAL_EXISTS);
    }
    var cost := OptionalToNumber(form.cost);
    if cost.NaN? {
      return Error(WRITE_REFUSED);
    }
    InsertKeepsKeysUnique(db.meals, NewMeal(newId, form, cost.value));
    db.meals := db.meals[newId := NewMeal(newId, form, cost.value)];
    r := Ok;
  }

  /** `updatedData`: the submitted fields whose value is not `===` the
      stored one. The cost is submitted as a string and stored as a number,
      so it is always part of the patch when it is submitted. */
  datatype MealPatch = MealPatch(
    name: Option<string>,
    dayType: Option<DayType>,
    mealType: Option<MealType>,
    cost: Option<string>,
    description: Option<string>)

  function MealPatchOf(form: MealValues, current: Meal): (p: MealPatch)
    ensures p.name.Some? <==> form.name != current.name
    ensures p.dayType.Some? <==> form.dayType != current.dayType
    ensures p.mealType.Some? <==> form.mealType != current.mealType
    ensures p.cost == form.cost
    ensures p.description.Some? <==> form.description.Some? && form.description != current.description
    ensures p.name.GetOr(current.name) == form.name
    ensures p.dayType.GetOr(current.dayType) == form.dayType
    ensures p.mealType.GetOr(current.mealType) == form.mealType
    ensures p.description.GetOr(current.description.GetOr([])) == form.description.GetOr(current.description.GetOr([]))
  {
    MealPatch(
      if form.name != current.name then Some(form.name) else None,
      if form.dayType != current.dayType then Some(form.dayType) else None,
      if form.mealType != current.mealType then Some(form.mealType) else None,
      form.cost,
      if form.description.Some? && form.description != current.description then form.description else None)
  }

  /** Whether the patch touches the unique key. */
  predicate KeyChanged(p: MealPatch) {
    p.name.Some? || p.dayType.Some? || p.mealType.Some?
  }

  /** The key the conflict check looks up: the new value of each key field,
      or the current one. */
  function TargetKey(p: MealPatch, current: Meal): MealKey {
    MealKey(p.name.GetOr(current.name), p.dayType.GetOr(current.dayType), p.mealType.GetOr(current.mealType))
  }

  /** The record after `db.meal.update({ data: { ...updatedData, cost } })`. */
  function PatchedMeal(current: Meal, p: MealPatch, cost: int): Meal {
    Meal(current.id, p.name.GetOr(current.name), p.dayType.GetOr(current.dayType),
      p.mealType.GetOr(current.mealType), cost,
      if p.description.Some? then p.description else current.description)
  }

  /** The key the update checks is exactly the submitted key, and applying
      the patch leaves the record holding the submitted values. */
  lemma {:induction false} PatchAppliesForm(form: MealValues, current: Meal, cost: int)
    ensures TargetKey(MealPatchOf(form, current), current) == MealKey(form.name, form.dayType, form.mealType)
    ensures var m := PatchedMeal(current, MealPatchOf(form, current), cost);
      m.id == current.id && KeyOfMeal(m) == MealKey(form.name, form.dayType, form.mealType)
      && m.cost == cost
      && m.description == (if form.description.Some? then form.description else current.description)
  {
    var p := MealPatchOf(form, current);
    if form.description.Some? && form.description == current.description {
      assert p.description == None;
    }
  }

  /** Skipping the conflict check when no key field changed is safe: in a
      table with unique keys the only meal with the unchanged key is the
      meal being updated. */
  lemma SkippedCheckIsSafe(m: map<Id, Meal>, id: Id, p: MealPatch)
    requires MealTableValid(m) && id in m && !KeyChanged(p)
    ensures TargetKey(p, m[id]) == KeyOfMeal(m[id])
    ensures FindMeal(m, TargetKey(p, m[id])) == Some(m[id])
  {
  }

  /** `updateMeal`: "Meal not found" for an unknown id; when the patch
      touches the key, refused if another meal already has the new key;
      otherwise the patch is written. */
  method UpdateMeal(db: Db, id: Id, form: MealValues) returns (r: Outcome)
    requires db.Valid()
    modifies db
    ensures db.Valid()
    ensures id !in old(db.meals) ==> r == Error(MEAL_NOT_FOUND) && db.meals == old(db.meals)
    ensures id in old(db.meals) ==>
      var current := old(db.meals)[id];
      var p := MealPatchOf(form, current);
      var found := FindMeal(old(db.meals), TargetKey(p, current));
      var conflict := KeyChanged(p) && found.Some? && found.value.id != id;
      && (r == Error(MEAL_EXISTS) <==> conflict)
      && (r == Ok <==> !conflict && OptionalToNumber(p.cost).Finite?)
      && (r == Ok ==> db.meals == old(db.meals)[id := PatchedMeal(current, p, OptionalToNumber(p.cost).value)])
      && (r != Ok ==> db.meals == old(db.meals))
    ensures db.services == old(db.services) && db.categories == old(db.categories)
    ensures db.preventives == old(db.preventives)
  {
    if id !in db.meals {
      return Error(MEAL_NOT_FOUND);
    }
    var current := db.meals[id];
    var p := MealPatchOf(form, current);
    if KeyChanged(p) {
      var existing := FindMeal(db.meals, TargetKey(p, current));
      if existing.Some? && existing.value.id != id {
        return Error(MEAL_EXISTS);
      }
    }
    var cost := OptionalToNumber(p.cost);
    if cost.NaN? {
      return Error(WRITE_REFUSED);
    }
    var updated := PatchedMeal(current, p, cost.value);
    if !KeyChanged(p) {
      SkippedCheckIsSafe(db.meals, id, p);
    }
    UpdateKeepsKeysUnique(db.meals, id, updated);
    db.meals := db.meals[id := updated];
    r := Ok;
  }

  /** Inserting a meal under a fresh id keeps the keys unique as long as no
      meal has its key yet. */
  lemma InsertKeepsKeysUnique(m: map<Id, Meal>, meal: Meal)
    requires MealTableValid(m) && meal.id !in m
    requires FindMeal(m, KeyOfMeal(meal)).None?
    ensures MealTableValid(m[meal.id := meal])
  {
  }

  /** Overwriting a meal keeps the keys unique as long as no other meal
      already has the new key. */
  lemma UpdateKeepsKeysUnique(m: map<Id, Meal>, id: Id, updated: Meal)
    requires MealTableValid(m) && id in m && updated.id == id
    requires FindMeal(m, KeyOfMeal(updated)).Some? ==> FindMeal(m, KeyOfMeal(updated)).value.id == id
    ensures MealTableValid(m[id := updated])
  {
  }

  /** One menu of `IGetMealsByGroup`. */
  datatype Menu = Menu(lunches: seq<Meal>, dinners: seq<Meal>)

  /** `IGetMealsByGroup`: a menu per day type. */
  datatype MealsByGroup = MealsByGroup(firstDay: Menu, defaultDay: Menu, lastDay: Menu)

  /** The meals of the catalog with the given day and meal type, in
      catalog order (what `_.groupBy` twice, or `[]`, gives). */
  function Bucket(rows: seq<Meal>, d: DayType, t: MealType): (r: seq<Meal>)
    ensures |r| <= |rows|
  {
    if rows == [] then []
    else
      var last := rows[|rows| - 1];
      Bucket(rows[..|rows| - 1], d, t) + (if last.dayType == d && last.mealType == t then [last] else [])
  }

  function MenuOf(rows: seq<Meal>, d: DayType): Menu {
    Menu(Bucket(rows, d, Lunch), Bucket(rows, d, Dinner))
  }

  function GroupMeals(rows: seq<Meal>): MealsByGroup {
    MealsByGroup(MenuOf(rows, FirstDay), MenuOf(rows, DefaultDay), MenuOf(rows, LastDay))
  }

  /** The menu of a day type (`data[dayType]`). */
  function MenuFor(g: MealsByGroup, d: DayType): Menu {
    match d
    case FirstDay => g.firstDay
    case DefaultDay => g.defaultDay
    case LastDay => g.lastDay
  }

  /** The options of a menu for a meal type (`lunches` or `dinners`). */
  function Options(menu: Menu, t: MealType): seq<Meal> {
    match t
    case Lunch => menu.lunches
    case Dinner => menu.dinners
  }

  /** A meal is in exactly the bucket of its own day and meal type. */
  lemma {:induction false} BucketMembers(rows: seq<Meal>, d: DayType, t: MealType, m: Meal)
    ensures m in Bucket(rows, d, t) <==> m in rows && m.dayType == d && m.mealType == t
  {
    if rows != [] {
      BucketMembers(rows[..|rows| - 1], d, t, m);
      assert rows == rows[..|rows| - 1] + [rows[|rows| - 1]];
    }
  }

  /** Grouping keeps catalog order: the buckets of two consecutive runs of
      rows are the concatenation of their buckets. */
  lemma {:induction false} BucketAppend(a: seq<Meal>, b: seq<Meal>, d: DayType, t: MealType)
    ensures Bucket(a + b, d, t) == Bucket(a, d, t) + Bucket(b, d, t)
  {
    if b != [] {
      assert (a + b)[..|a + b| - 1] == a + b[..|b| - 1];
      BucketAppend(a, b[..|b| - 1], d, t);
    } else {
      assert a + b == a;
    }
  }

  /** How many meals a grouping files, over its six lists. */
  function GroupSize(g: MealsByGroup): int {
    |g.firstDay.lunches| + |g.firstDay.dinners| + |g.defaultDay.lunches| + |g.defaultDay.dinners|
      + |g.lastDay.lunches| + |g.lastDay.dinners|
  }

  /** The six buckets hold every catalog row exactly once between them. */
  lemma {:induction false} BucketsPartition(rows: seq<Meal>)
    ensures GroupSize(GroupMeals(rows)) == |rows|
  {
    if rows != [] {
      BucketsPartition(rows[..|rows| - 1]);
    }
  }

  /** The list a grouping offers for a day type and meal type is exactly the
      meals of the catalog with that day type and meal type. */
  lemma GroupMembers(rows: seq<Meal>, d: DayType, t: MealType, m: Meal)
    ensures m in Options(MenuFor(GroupMeals(rows), d), t) <==> m in rows && m.dayType == d && m.mealType == t
  {
    assert Options(MenuFor(GroupMeals(rows), d), t) == Bucket(rows, d, t);
    BucketMembers(rows, d, t, m);
  }

  /** Grouping the rows of a table files every record of the table. */
  lemma CatalogMembers(table: map<Id, Meal>, rows: seq<Meal>, d: DayType, t: MealType, m: Meal)
    requires forall id :: id in table ==> table[id] in rows
    requires forall v :: v in rows ==> v in table.Values
    ensures m in Options(MenuFor(GroupMeals(rows), d), t) <==> m in table.Values && m.dayType == d && m.mealType == t
  {
    GroupMembers(rows, d, t, m);
    if m in table.Values {
      var id :| id in table && table[id] == m;
    }
  }

  /** `getMealsByGroup`: every catalog meal, filed under its day type and
      meal type; a missing group is an empty list. */
  method GetMealsByGroup(db: Db) returns (g: MealsByGroup)
    ensures FiledByType(g, db.meals)
    ensures GroupSize(g) == |db.meals.Keys|
  {
    var table := db.meals;
    var rows := FindMany(table);
    g := GroupMeals(rows);
    CatalogGrouping(table, rows, g);
  }

  /** Each list of the grouping holds exactly the table's meals of its day
      type and meal type. */
  ghost predicate FiledByType(g: MealsByGroup, table: map<Id, Meal>) {
    forall d, t, m :: m in Options(MenuFor(g, d), t) <==> m in table.Values && m.dayType == d && m.mealType == t
  }

  /** Grouping the rows of a table files each record under its own types,
      and all of them. */
  lemma CatalogGrouping(table: map<Id, Meal>, rows: seq<Meal>, g: MealsByGroup)
    requires forall id :: id in table ==> table[id] in rows
    requires forall v :: v in rows ==> v in table.Values
    requires |rows| == |table.Keys| && g == GroupMeals(rows)
    ensures FiledByType(g, table)
    ensures GroupSize(g) == |table.Keys|
  {
    forall d, t, m
      ensures m in Options(MenuFor(g, d), t) <==> m in table.Values && m.dayType == d && m.mealType == t
    {
      CatalogMembers(table, rows, d, t, m);
    }
    BucketsPartition(rows);
  }

  /** `checkAndSetMeals` on one slot: a chosen meal is replaced by the
      catalog meal with the same key, or by `null` when there is none. */
  function CheckedSlot(m: map<Id, Meal>, slot: Option<Meal>): (r: Option<Meal>)
    requires MealTableValid(m)
    ensures slot.None? ==> r.None?
    ensures slot.Some? ==> r == FindMeal(m, KeyOfMeal(slot.value))
  {
    match slot
    case None => None
    case Some(meal) => FindMeal(m, KeyOfMeal(meal))
  }

  function CheckedDay(m: map<Id, Meal>, d: DailyMeal): (r: DailyMeal)
    requires MealTableValid(m)
    ensures r.date == d.date && r.dayType == d.dayType
  {
    d.(lunch := CheckedSlot(m, d.lunch), dinner := CheckedSlot(m, d.dinner))
  }

  function CheckedSlate(m: map<Id, Meal>, s: seq<DailyMeal>): (r: seq<DailyMeal>)
    requires MealTableValid(m)
    ensures |r| == |s|
  {
    seq(|s|, i requires 0 <= i < |s| => CheckedDay(m, s[i]))
  }

  /** The reconciled slate keeps every night, its date and its day type, and
      each meal it keeps is the catalog's current record for the same key. */
  lemma CheckedSlateShape(m: map<Id, Meal>, s: seq<DailyMeal>, i: nat)
    requires MealTableValid(m) && i < |s|
    ensures var r := CheckedSlate(m, s);
      && r[i].date == s[i].date && r[i].dayType == s[i].dayType
      && (r[i].lunch.Some? ==> (s[i].lunch.Some? && r[i].lunch.value.id in m
          && m[r[i].lunch.value.id] == r[i].lunch.value && KeyOfMeal(r[i].lunch.value) == KeyOfMeal(s[i].lunch.value)))
      && (r[i].dinner.Some? ==> (s[i].dinner.Some? && r[i].dinner.value.id in m
          && m[r[i].dinner.value.id] == r[i].dinner.value && KeyOfMeal(r[i].dinner.value) == KeyOfMeal(s[i].dinner.value)))
  {
  }

  /** Reconciling an already reconciled slate changes nothing. */
  lemma CheckedSlateIdempotent(m: map<Id, Meal>, s: seq<DailyMeal>)
    requires MealTableValid(m)
    ensures CheckedSlate(m, CheckedSlate(m, s)) == CheckedSlate(m, s)
  {
    var r := CheckedSlate(m, s);
    forall i | 0 <= i < |s| ensures CheckedDay(m, r[i]) == r[i] {
      CheckedSlotIdempotent(m, s[i].lunch);
      CheckedSlotIdempotent(m, s[i].dinner);
    }
  }

  lemma CheckedSlotIdempotent(m: map<Id, Meal>, slot: Option<Meal>)
    requires MealTableValid(m)
    ensures CheckedSlot(m, CheckedSlot(m, slot)) == CheckedSlot(m, slot)
  {
    if CheckedSlot(m, slot).Some? {
      var found := CheckedSlot(m, slot).value;
      assert FindMeal(m, KeyOfMeal(found)) == Some(found);
    }
  }

  /** `checkAndSetMeals`: the lookups of `Promise.all`, one night after the
      other. */
  method CheckAndSetMeals(db: Db, meals: seq<DailyMeal>) returns (newMeals: seq<DailyMeal>)
    requires db.Valid()
    ensures newMeals == CheckedSlate(db.meals, meals)
  {
    newMeals := [];
    var i := 0;
    while i < |meals|
      invariant 0 <= i <= |meals|
      invariant |newMeals| == i
      invariant forall j :: 0 <= j < i ==> newMeals[j] == CheckedDay(db.meals, meals[j])
    {
      var item := meals[i];
      var obj := item;
      if item.lunch.Some? {
        obj := obj.(lunch := FindMeal(db.meals, KeyOfMeal(item.lunch.value)));
      }
      if item.dinner.Some? {
        obj := obj.(dinner := FindMeal(db.meals, KeyOfMeal(item.dinner.value)));
      }
      newMeals := newMeals + [obj];
      i := i + 1;
    }
  }
}

=== FILE: meal_inputs.dfy ===
/**
 * The meal forms of the catalog: the create form
 * (`src/components/meals/create.tsx`), which starts blank, and the edit
 * form with the view dialog (`src/components/meals/actions.tsx`), which is
 * loaded from the stored meal. Both filter cost keystrokes.
 */
module MealInputs {
  import opened Wrappers
  import opened JsText
  import opened Entities
  import opened Schemas
  import CostInput
  import MealActions

  /** The form's values as they stand: the select fields are unset until a
      choice is made, and the cost is kept as typed. */
  datatype MealFields = MealFields(
    name: string,
    dayType: Option<string>,
    mealType: Option<string>,
    cost: string,
    description: Option<string>)

  /** The create form's `defaultValues`. */
  const MEAL_DEFAULTS: MealFields := MealFields("", None, None, "", Some(""))

  /** The values `MealForm` is run on. An unset select is outside its enum,
      as "" is. */
  function Raw(f: MealFields): (r: RawMealForm)
    ensures r.name == f.name && r.cost == Some(f.cost) && r.description == f.description
    ensures f.dayType.None? ==> ParseDayType(r.dayType).None?
    ensures f.mealType.None? ==> ParseMealType(r.mealType).None?
  {
    RawMealForm(f.name, f.dayType.GetOr(""), f.mealType.GetOr(""), Some(f.cost), f.description)
  }

  /** `form.reset({ ...meal, cost: String(meal.cost) })`. */
  function LoadedFields(meal: Meal): (f: MealFields)
    ensures f.dayType == Some(DayTypeName(meal.dayType)) && f.mealType == Some(MealTypeName(meal.mealType))
    ensures ToNumber(f.cost) == Finite(meal.cost)
  {
    ToNumberOfIntToString(meal.cost);
    MealFields(meal.name, Some(DayTypeName(meal.dayType)), Some(MealTypeName(meal.mealType)),
      IntToString(meal.cost), meal.description)
  }

  class MealEditor {
    var fields: MealFields

    /** The create form. */
    constructor ()
      ensures fields == MEAL_DEFAULTS
    {
      fields := MEAL_DEFAULTS;
    }

    /** `form.reset()` when the create dialog closes. */
    method Clear()
      modifies this
      ensures fields == MEAL_DEFAULTS
    {
      fields := MEAL_DEFAULTS;
    }

    /** The edit form's effect when its dialog opens. */
    method Load(meal: Meal)
      modifies this
      ensures fields == LoadedFields(meal)
    {
      fields := LoadedFields(meal);
    }

    /** The cost input's `onChange`. */
    method EditCost(value: string)
      modifies this
      ensures CostInput.Accepts(value) ==> fields == old(fields).(cost := value)
      ensures !CostInput.Accepts(value) ==> fields == old(fields)
    {
      var lastChar := LastChar(value);
      if lastChar == " " {
        return;
      }
      if ToNumber(lastChar) != NaN {
        fields := fields.(cost := value);
      }
    }
  }

  /** The blank create form is refused: its name is empty and no day or meal
      type is chosen. */
  lemma BlankFormRefused()
    ensures MealForm(Raw(MEAL_DEFAULTS)) == Invalid([NameEmpty, DayTypeInvalid, MealTypeInvalid])
  {
  }

  /** Opening the edit form of a stored meal (whose name was trimmed when it
      was saved) and submitting it untouched: the form is accepted, the
      update changes no key field, and writing the patch back yields the
      stored meal unchanged. */
  lemma UnchangedEditKeepsMeal(meal: Meal)
    requires meal.name != "" && meal.name == Trim(meal.name)
    ensures var parsed := MealForm(Raw(LoadedFields(meal)));
      && parsed.Valid?
      && OptionalToNumber(parsed.value.cost) == Finite(meal.cost)
      && var patch := MealActions.MealPatchOf(parsed.value, meal);
         && !MealActions.KeyChanged(patch)
         && MealActions.PatchedMeal(meal, patch, meal.cost) == meal
  {
    var f := LoadedFields(meal);
    DayTypeNameRoundTrip(meal.dayType, f.dayType.value);
    MealTypeNameRoundTrip(meal.mealType, f.mealType.value);
    var parsed := MealForm(Raw(f));
    assert parsed.value.name == meal.name;
    var patch := MealActions.MealPatchOf(parsed.value, meal);
    assert patch.description == None;
  }

  /** The "Day type" line of the view dialog. */
  function DayTypeLabel(d: DayType): (text: string)
    ensures d == FirstDay <==> text == "First day"
    ensures d == LastDay <==> text == "Last day"
    ensures d == DefaultDay <==> text == "Default day"
  {
    match d
    case FirstDay => "First day"
    case LastDay => "Last day"
    case DefaultDay => "Default day"
  }
}

=== FILE: middleware.dfy ===
/**
 * The request middleware of `src/middleware.ts`: where a request goes,
 * given whether it carries a `token` cookie, its path, and whether the
 * token verifies (the JWT check is an input here).
 */
module Middleware {
  import opened Wrappers

  const SIGN_IN: string := "/sign-in"
  const HOME: string := "/"

  /** What the middleware returns: pass the request on, or redirect it. */
  datatype Response = Next | Redirect(location: string)

  /** `None` when the middleware returns nothing at all. */
  function Route(hasToken: bool, pathname: string, verifies: bool): (r: Option<Response>)
    ensures r == None <==> !hasToken && pathname == SIGN_IN
    ensures r == Some(Redirect(HOME)) <==> hasToken && pathname == SIGN_IN && verifies
    ensures r == Some(Redirect(SIGN_IN)) <==> pathname != SIGN_IN && (!hasToken || !verifies)
    ensures r == Some(Next) <==> hasToken && (pathname == SIGN_IN) != verifies
  {
    if hasToken && pathname == SIGN_IN then
      if verifies then Some(Redirect(HOME)) else Some(Next)
    else if hasToken && pathname != SIGN_IN then
      if verifies then Some(Next) else Some(Redirect(SIGN_IN))
    else if !hasToken && pathname != SIGN_IN then
      Some(Redirect(SIGN_IN))
    else None
  }

  /** Access control: a request for any page but the sign-in page reaches it
      only with a token that verifies, and a signed-in user never sees the
      sign-in page. */
  lemma ProtectedPagesNeedValidToken(hasToken: bool, pathname: string, verifies: bool)
    ensures pathname != SIGN_IN ==>
      (Route(hasToken, pathname, verifies) == Some(Next) <==> hasToken && verifies)
    ensures hasToken && verifies ==> Route(hasToken, pathname, verifies) != Some(Redirect(SIGN_IN))
    ensures Route(hasToken, pathname, verifies) != Some(Redirect(HOME)) || pathname == SIGN_IN
  {
  }
}

=== FILE: preventive_actions.dfy ===
/**
 * The stored quotes' server actions (`src/app/preventives/actions.ts` and
 * `src/app/preventives/[id]/actions.ts`): the list for the table, ordered
 * by last update, the guarded bulk delete, and the lookup by id used to
 * duplicate a quote.
 */
module PreventiveActions {
  import opened Wrappers
  import opened Entities
  import opened Database

  const INVALID_ID: string := "Invalid ID"
  const PREVENTIVE_NOT_FOUND: string := "Preventive not found"

  method DeletePreventives(db: Db, ids: seq<Id>) returns (r: Outcome)
    requires db.Valid()
    modifies db
    ensures db.Valid()
    ensures r == (if ids == [] then Error(EMPTY_IDS) else Ok)
    ensures ids == [] ==> db.preventives == old(db.preventives)
    ensures ids != [] ==> db.preventives == old(db.preventives) - IdSet(ids)
    ensures db.meals == old(db.meals) && db.services == old(db.services)
    ensures db.categories == old(db.categories)
  {
    if ids == [] {
      return Error(EMPTY_IDS);
    }
    db.preventives := db.preventives - IdSet(ids);
    r := Ok;
  }

  /** `format(new Date(day), "MM/dd/yyyy")`; the rendering of the string is
      not modelled, only which day it shows. */
  datatype FormattedDate = FormattedDate(day: int)

  /** A row of the quotes table: every field of the record, with the two
      stay dates and the creation date formatted. */
  datatype PreventiveRow = PreventiveRow(
    id: Id,
    name: string,
    checkIn: FormattedDate,
    checkOut: FormattedDate,
    numberOfGuests: int,
    doubleRooms: int,
    singleRooms: int,
    freeQuote: Option<int>,
    description: Option<string>,
    numberOfVans: Option<int>,
    meals: seq<DailyMeal>,
    services: seq<Service>,
    tax: int,
    costPerNight: int,
    costPerDoubleRoom: int,
    costPerSingleRoom: int,
    createdAt: FormattedDate,
    updatedAt: int)

  function RowOf(p: Preventive): (r: PreventiveRow)
    ensures r.id == p.id && r.updatedAt == p.updatedAt
    ensures r.checkIn.day == p.checkIn && r.checkOut.day == p.checkOut && r.createdAt.day == p.createdAt
  {
    PreventiveRow(p.id, p.name, FormattedDate(p.checkIn), FormattedDate(p.checkOut), p.numberOfGuests,
      p.doubleRooms, p.singleRooms, p.freeQuote, p.description, p.numberOfVans, p.meals, p.services,
      p.tax, p.costPerNight, p.costPerDoubleRoom, p.costPerSingleRoom, FormattedDate(p.createdAt), p.updatedAt)
  }

  /** The row keeps every other field of the record unchanged: the record
      can be read back from its row. */
  function RecordOf(r: PreventiveRow): Preventive {
    Preventive(r.id, r.name, r.checkIn.day, r.checkOut.day, r.numberOfGuests, r.doubleRooms,
      r.singleRooms, r.freeQuote, r.description, r.numberOfVans, r.meals, r.services, r.tax,
      r.costPerNight, r.costPerDoubleRoom, r.costPerSingleRoom, r.createdAt.day, r.updatedAt)
  }

  lemma RowRoundTrip(p: Preventive)
    ensures RecordOf(RowOf(p)) == p
  {
  }

  /** Ordered by `updatedAt`, most recent first. */
  predicate NewestFirst(s: seq<Preventive>) {
    forall i, j :: 0 <= i < j < |s| ==> s[i].updatedAt >= s[j].updatedAt
  }

  /** Places `p` before the first record updated no later than it. */
  function InsertNewestFirst(s: seq<Preventive>, p: Preventive): (r: seq<Preventive>)
    ensures |r| == |s| + 1
  {
    if s == [] || p.updatedAt >= s[0].updatedAt then [p] + s
    else [s[0]] + InsertNewestFirst(s[1..], p)
  }

  /** Inserting adds `p` and keeps every record already there. */
  lemma {:induction false} InsertAddsOne(s: seq<Preventive>, p: Preventive)
    ensures multiset(InsertNewestFirst(s, p)) == multiset(s) + multiset{p}
  {
    if s != [] && p.updatedAt < s[0].updatedAt {
      InsertAddsOne(s[1..], p);
      assert s == [s[0]] + s[1..];
    }
  }

  lemma {:induction false} InsertMembers(s: seq<Preventive>, p: Preventive, x: Preventive)
    ensures x in InsertNewestFirst(s, p) <==> x in s || x == p
  {
    if s != [] && p.updatedAt < s[0].updatedAt {
      InsertMembers(s[1..], p, x);
      assert s == [s[0]] + s[1..];
    }
  }

  /** Inserting into a list ordered newest first keeps it so ordered. */
  lemma {:induction false} InsertKeepsOrder(s: seq<Preventive>, p: Preventive)
    requires NewestFirst(s)
    ensures NewestFirst(InsertNewestFirst(s, p))
  {
    if s != [] && p.updatedAt < s[0].updatedAt {
      InsertKeepsOrder(s[1..], p);
      var rest := InsertNewestFirst(s[1..], p);
      forall j | 0 <= j < |rest| ensures s[0].updatedAt >= rest[j].updatedAt {
        InsertMembers(s[1..], p, rest[j]);
        if rest[j] != p {
          var k :| 0 <= k < |s[1..]| && s[1..][k] == rest[j];
          assert s[k + 1] == rest[j];
        }
      }
      assert InsertNewestFirst(s, p) == [s[0]] + rest;
    }
  }

  /** The database's `orderBy: { updatedAt: "desc" }`, as an insertion sort:
      the same records, most recently updated first. */
  method SortNewestFirst(records: seq<Preventive>) returns (sorted: seq<Preventive>)
    ensures NewestFirst(sorted)
    ensures multiset(sorted) == multiset(records)
  {
    sorted := [];
    var i := 0;
    while i < |records|
      invariant 0 <= i <= |records|
      invariant NewestFirst(sorted)
      invariant multiset(sorted) == multiset(records[..i])
    {
      InsertKeepsOrder(sorted, records[i]);
      InsertAddsOne(sorted, records[i]);
      sorted := InsertNewestFirst(sorted, records[i]);
      assert records[..i + 1] == records[..i] + [records[i]];
      i := i + 1;
    }
    assert records[..i] == records;
  }

  /** `getPreventives`: one row per stored quote, most recently updated
      first (quotes updated at the same time come in any order). */
  method GetPreventives(db: Db) returns (rows: seq<PreventiveRow>)
    requires db.Valid()
    ensures |rows| == |db.preventives.Keys|
    ensures forall id :: id in db.preventives ==> RowOf(db.preventives[id]) in rows
    ensures forall r :: r in rows ==> RecordOf(r) in db.preventives.Values
    ensures forall i, j :: 0 <= i < j < |rows| ==> rows[i].updatedAt >= rows[j].updatedAt
  {
    var records := FindMany(db.preventives);
    var sorted := SortNewestFirst(records);
    assert |sorted| == |records| by {
      assert |multiset(sorted)| == |multiset(records)|;
    }
    rows := seq(|sorted|, k requires 0 <= k < |sorted| => RowOf(sorted[k]));
    forall id | id in db.preventives ensures RowOf(db.preventives[id]) in rows {
      var p := db.preventives[id];
      assert p in multiset(sorted);
      var k :| 0 <= k < |sorted| && sorted[k] == p;
      assert rows[k] == RowOf(p);
    }
    forall r | r in rows ensures RecordOf(r) in db.preventives.Values {
      var k :| 0 <= k < |rows| && rows[k] == r;
      RowRoundTrip(sorted[k]);
      assert sorted[k] in multiset(records);
    }
  }

  /** What `getPreventive` returns. */
  datatype Lookup = Found(preventive: Preventive) | LookupError(message: string)

  /** `getPreventive`: an id that is not a cuid is refused before the
      database is asked (`isCuid` is taken as an input); an unknown id is
      "not found"; the stored slate and services are returned as they were
      serialised. */
  function GetPreventive(table: map<Id, Preventive>, id: Id, isCuid: bool): (r: Lookup)
    ensures !isCuid ==> r == LookupError(INVALID_ID)
    ensures isCuid ==> (r.Found? <==> id in table)
    ensures r.Found? ==> r.preventive == table[id]
    ensures isCuid && id !in table ==> r == LookupError(PREVENTIVE_NOT_FOUND)
  {
    if !isCuid then LookupError(INVALID_ID)
    else if id !in table then LookupError(PREVENTIVE_NOT_FOUND)
    else Found(table[id])
  }
}

=== FILE: preventive_summary.dfy ===
/**
 * The on-screen summary of a quote (`src/components/preventives/summary.tsx`),
 * shown for the draft on the wizard's last step and for a stored quote on
 * its own page. Its `calculate*` functions price the quote like the PDF
 * does, except that a stored quote is priced with the tax and room rates it
 * was stored with.
 */
module PreventiveSummary {
  import opened Wrappers
  import opened Entities
  import opened Pricing
  import Constants
  import CreateActions
  import LegacySummary

  /** What the summary is shown for: the draft form, which has no rate
      fields, or a stored quote, which has them (`"tax" in preventive`). */
  datatype Subject = Draft(form: QuoteForm) | Stored(record: Preventive)

  function FormFor(s: Subject): QuoteForm {
    match s
    case Draft(form) => form
    case Stored(record) => FormOf(record)
  }

  /** The rates the summary prices with: the stored snapshot when there is
      one, the live constants otherwise. */
  function RatesFor(s: Subject): (r: Rates)
    ensures s.Draft? ==> r == LIVE_RATES
    ensures s.Stored? ==> r.tax == s.record.tax
    ensures s.Stored? ==> r.costPerDoubleRoom == s.record.costPerDoubleRoom
    ensures s.Stored? ==> r.costPerSingleRoom == s.record.costPerSingleRoom
  {
    match s
    case Draft(_) => LIVE_RATES
    case Stored(record) => CreateActions.SnapshotRates(record)
  }

  /** `calculateTotalBasesCost`: each room rate from the record when it has
      one, else from the constants. */
  method CalculateTotalBasesCost(s: Subject) returns (cost: int)
    ensures cost == BasesCost(FormFor(s).doubleRooms, FormFor(s).singleRooms, RatesFor(s),
      Nights(FormFor(s).checkIn, FormFor(s).checkOut))
  {
    var form := FormFor(s);
    var nights := Nights(form.checkIn, form.checkOut);
    cost := 0;
    if s.Stored? {
      cost := cost + form.doubleRooms * s.record.costPerDoubleRoom;
    } else {
      cost := cost + form.doubleRooms * Constants.COST_PER_DOUBLE_ROOM;
    }
    if s.Stored? {
      cost := cost + form.singleRooms * s.record.costPerSingleRoom;
    } else {
      cost := cost + form.singleRooms * Constants.COST_PER_SINGLE_ROOM;
    }
    cost := cost * nights;
  }

  /** `calculateTotalCostWithTax`: the record's tax when it has one, else
      `TAX`. */
  method CalculateTotalCostWithTax(s: Subject, total: int) returns (cost: real)
    ensures cost == WithTax(total, RatesFor(s).tax)
  {
    cost := total as real;
    if s.Stored? {
      cost := cost + (total * s.record.tax) as real / 100.0;
    } else {
      cost := cost + (total * Constants.TAX) as real / 100.0;
    }
  }

  /** Every figure of the summary. The meal and service sums are the same
      loops as the PDF generator's. */
  method CalculateSummary(s: Subject, meals: seq<DailyMeal>, services: seq<Service>) returns (c: Costs)
    ensures c == QuoteCosts(StayOf(FormFor(s)), meals, services, RatesFor(s))
  {
    var form := FormFor(s);
    var bases := CalculateTotalBasesCost(s);
    var mealsCost := CreateActions.CalculateTotalCostForMeals(meals, form.numberOfGuests);
    var servicesCost := CreateActions.CalculateTotalCostForServices(services, form.numberOfGuests, form.numberOfVans);
    var total := 0;
    total := total + bases;
    total := total + mealsCost;
    total := total + servicesCost;
    var withTax := CalculateTotalCostWithTax(s, total);
    var paying := form.numberOfGuests - (if form.freeQuote.Some? then form.freeQuote.value else 0);
    var perGuest := if paying == 0 then None else Some(withTax / paying as real);
    c := Costs(bases, mealsCost, servicesCost, total, withTax, perGuest);
  }

  /** The draft's summary, on the wizard's last step, shows exactly the
      figures the PDF will print for it. */
  lemma DraftMatchesPdf(form: QuoteForm, meals: seq<DailyMeal>, services: seq<Service>)
    ensures QuoteCosts(StayOf(FormFor(Draft(form))), meals, services, RatesFor(Draft(form)))
         == QuoteCosts(StayOf(form), meals, services, LIVE_RATES)
  {
  }

  /** A quote stored by `createPreventive` and shown later, with the slate
      and services it was stored with, shows the figures its PDF printed,
      whatever the live rates have become since. */
  lemma StoredMatchesPdf(id: Id, form: QuoteForm, meals: seq<DailyMeal>, services: seq<Service>, now: int)
    ensures var p := CreateActions.Snapshot(id, form, meals, services, now);
      QuoteCosts(StayOf(FormFor(Stored(p))), p.meals, p.services, RatesFor(Stored(p)))
        == QuoteCosts(StayOf(form), meals, services, LIVE_RATES)
  {
    CreateActions.SnapshotHasLiveRates(id, form, meals, services, now);
  }

  /** A stored quote's figures depend on its own rates only: two records
      that agree on everything the pricing reads are priced alike. */
  lemma StoredPricedBySnapshot(p: Preventive, q: Preventive)
    requires FormOf(p) == FormOf(q) && p.meals == q.meals && p.services == q.services
    requires p.tax == q.tax && p.costPerDoubleRoom == q.costPerDoubleRoom
    requires p.costPerSingleRoom == q.costPerSingleRoom
    ensures QuoteCosts(StayOf(FormFor(Stored(p))), p.meals, p.services, RatesFor(Stored(p)))
         == QuoteCosts(StayOf(FormFor(Stored(q))), q.meals, q.services, RatesFor(Stored(q)))
  {
  }

  /** The percentage printed beside "Total with ... services": the record's
      tax when it has one, else `TAX`. */
  function DisplayedTax(s: Subject): (t: int)
    ensures t == RatesFor(s).tax
  {
    if s.Stored? then s.record.tax else Constants.TAX
  }

  /** The three rates of the "Bases costs" block. */
  datatype BaseRates = BaseRates(perNight: int, doubleRoom: int, singleRoom: int)

  /** The "Bases costs" block as written: always the live constants. */
  function DisplayedRates(s: Subject): (r: BaseRates)
    ensures r == BaseRates(Constants.COST_PER_NIGHT, Constants.COST_PER_DOUBLE_ROOM, Constants.COST_PER_SINGLE_ROOM)
  {
    BaseRates(Constants.COST_PER_NIGHT, Constants.COST_PER_DOUBLE_ROOM, Constants.COST_PER_SINGLE_ROOM)
  }

  /** A stored quote whose double-room rate was 200 shows 230 in the block,
      while its "Total cost for bases" is computed with 200: one double room
      for one night is listed at 230 and totalled at 200. */
  lemma DisplayedRatesDisagree()
    ensures var p := Preventive("q1", "Trip", 10, 11, 2, 1, 0, None, None, None, [], [], 20, 115, 200, 180, 0, 0);
      && DisplayedRates(Stored(p)).doubleRoom == 230
      && BasesCost(FormOf(p).doubleRooms, FormOf(p).singleRooms, RatesFor(Stored(p)),
                   Nights(FormOf(p).checkIn, FormOf(p).checkOut)) == 200
  {
  }

  /** The "Bases costs" block as intended: the rates the quote is priced
      with, and for a stored quote its stored nightly rate too. */
  function ShownRates(s: Subject): (r: BaseRates)
    ensures s.Draft? ==> r == DisplayedRates(s)
    ensures r.doubleRoom == RatesFor(s).costPerDoubleRoom && r.singleRoom == RatesFor(s).costPerSingleRoom
  {
    match s
    case Draft(_) => DisplayedRates(s)
    case Stored(p) => BaseRates(p.costPerNight, p.costPerDoubleRoom, p.costPerSingleRoom)
  }

  /** With the corrected block, the listed room rates always account for the
      "Total cost for bases" line. */
  lemma ShownRatesExplainBases(s: Subject)
    ensures var f := FormFor(s);
      BasesCost(f.doubleRooms, f.singleRooms, RatesFor(s), Nights(f.checkIn, f.checkOut))
        == (f.doubleRooms * ShownRates(s).doubleRoom + f.singleRooms * ShownRates(s).singleRoom)
           * Nights(f.checkIn, f.checkOut)
  {
  }

  /** The corrected block shows for a stored quote what the legacy summary
      shows for a record that carries all three rates. */
  lemma ShownRatesAgreeWithLegacy(p: Preventive)
    ensures var legacy := LegacySummary.LegacyRecord(p.checkIn, p.checkOut,
        Some(p.costPerNight), Some(p.costPerDoubleRoom), Some(p.costPerSingleRoom));
      && ShownRates(Stored(p)).perNight == LegacySummary.CostPerNight(legacy)
      && ShownRates(Stored(p)).doubleRoom == LegacySummary.CostPerDoubleRoom(legacy)
      && ShownRates(Stored(p)).singleRoom == LegacySummary.CostPerSingleRoom(legacy)
  {
  }
}

=== FILE: pricing.dfy ===
/**
 * The cost model shared by the PDF generator and the on-screen summary:
 * bases (rooms x nights), meals, services, total, total with tax, and the
 * amount each paying guest owes. Both callers compute these with loops that
 * accumulate `let cost`; their loops are proved equal to the functions here.
 */
module Pricing {
  import opened Wrappers
  import opened Entities
  import Constants

  /** The tax percentage and nightly room rates a quote is priced with. */
  datatype Rates = Rates(tax: int, costPerDoubleRoom: int, costPerSingleRoom: int)

  /** The rates in force today. */
  const LIVE_RATES: Rates := Rates(Constants.TAX, Constants.COST_PER_DOUBLE_ROOM, Constants.COST_PER_SINGLE_ROOM)

  /** The fields of a quote that pricing reads. */
  datatype Stay = Stay(
    checkIn: int,
    checkOut: int,
    numberOfGuests: int,
    doubleRooms: int,
    singleRooms: int,
    freeQuote: Option<int>,
    numberOfVans: Option<int>)

  function StayOf(q: QuoteForm): (s: Stay)
    ensures s.checkIn == q.checkIn && s.checkOut == q.checkOut
    ensures s.numberOfGuests == q.numberOfGuests && s.freeQuote == q.freeQuote
    ensures s.doubleRooms == q.doubleRooms && s.singleRooms == q.singleRooms
    ensures s.numberOfVans == q.numberOfVans
  {
    Stay(q.checkIn, q.checkOut, q.numberOfGuests, q.doubleRooms, q.singleRooms, q.freeQuote, q.numberOfVans)
  }

  /** `item.lunch?.cost ?? 0`, and likewise for dinner. */
  function SlotCost(m: Option<Meal>): int {
    match m
    case Some(meal) => meal.cost
    case None => 0
  }

  /** What one night's meals cost one guest. */
  function DayCost(d: DailyMeal): int {
    SlotCost(d.lunch) + SlotCost(d.dinner)
  }

  /** The meals of every night, for one guest, summed in slate order. */
  function DaysCost(s: seq<DailyMeal>): int {
    if s == [] then 0 else DaysCost(s[..|s| - 1]) + DayCost(s[|s| - 1])
  }

  /** Meals cost: every night's lunch and dinner, for every guest. */
  function MealsCost(s: seq<DailyMeal>, guests: int): int {
    DaysCost(s) * guests
  }

  /** `costPerPerson * guests + groupCost + vanCost * (numberOfVans ?? 0)`. */
  function ServiceCost(svc: Service, guests: int, vans: Option<int>): (r: int)
    ensures vans == None ==> r == svc.costPerPerson * guests + svc.groupCost
    ensures svc.vanCost == 0 ==> r == svc.costPerPerson * guests + svc.groupCost
  {
    svc.costPerPerson * guests + svc.groupCost + svc.vanCost * vans.GetOr(0)
  }

  /** The per-service costs of the selected services, summed in list order. */
  function ServicesCost(list: seq<Service>, guests: int, vans: Option<int>): int {
    if list == [] then 0 else ServicesCost(list[..|list| - 1], guests, vans) + ServiceCost(list[|list| - 1], guests, vans)
  }

  /** Bases cost: the nightly rate of every room, times the nights. The
      per-night rate `COST_PER_NIGHT` plays no part. */
  function BasesCost(doubleRooms: int, singleRooms: int, rates: Rates, nights: int): int {
    (doubleRooms * rates.costPerDoubleRoom + singleRooms * rates.costPerSingleRoom) * nights
  }

  /** `cost + (cost * tax) / 100`, in exact arithmetic. */
  function WithTax(total: int, tax: int): (r: real)
    ensures r * 100.0 == (total * (100 + tax)) as real
  {
    total as real + (total * tax) as real / 100.0
  }

  /** `totalWithTax / (guests - (freeQuote ?? 0))`; `None` where JavaScript
      would divide by zero. */
  function PerGuest(totalWithTax: real, guests: int, freeQuote: Option<int>): (r: Option<real>)
    ensures r.Some? <==> guests != freeQuote.GetOr(0)
    ensures r.Some? ==> r.value * (guests - freeQuote.GetOr(0)) as real == totalWithTax
  {
    var paying := guests - freeQuote.GetOr(0);
    if paying == 0 then None else Some(totalWithTax / paying as real)
  }

  /** The full breakdown of a quote. */
  datatype Costs = Costs(
    bases: int,
    meals: int,
    services: int,
    total: int,
    totalWithTax: real,
    perGuest: Option<real>)

  function QuoteCosts(stay: Stay, meals: seq<DailyMeal>, services: seq<Service>, rates: Rates): (c: Costs)
    ensures c.total == c.bases + c.meals + c.services
    ensures c.totalWithTax * 100.0 == (c.total * (100 + rates.tax)) as real
    ensures c.perGuest.Some? <==> stay.numberOfGuests != stay.freeQuote.GetOr(0)
    ensures c.perGuest.Some? ==>
      c.perGuest.value * (stay.numberOfGuests - stay.freeQuote.GetOr(0)) as real == c.totalWithTax
  {
    var bases := BasesCost(stay.doubleRooms, stay.singleRooms, rates, Nights(stay.checkIn, stay.checkOut));
    var mealsCost := MealsCost(meals, stay.numberOfGuests);
    var servicesCost := ServicesCost(services, stay.numberOfGuests, stay.numberOfVans);
    var total := bases + mealsCost + servicesCost;
    var withTax := WithTax(total, rates.tax);
    Costs(bases, mealsCost, servicesCost, total, withTax, PerGuest(withTax, stay.numberOfGuests, stay.freeQuote))
  }

  /** Meal costs add up over consecutive stretches of nights. */
  lemma {:induction false} DaysCostAppend(a: seq<DailyMeal>, b: seq<DailyMeal>)
    ensures DaysCost(a + b) == DaysCost(a) + DaysCost(b)
  {
    if b != [] {
      assert (a + b)[..|a + b| - 1] == a + b[..|b| - 1];
      DaysCostAppend(a, b[..|b| - 1]);
    } else {
      assert a + b == a;
    }
  }

  /** A night between two stretches adds exactly its own cost. */
  lemma DaysCostSplice(before: seq<DailyMeal>, d: DailyMeal, after: seq<DailyMeal>)
    ensures DaysCost(before + [d] + after) == DaysCost(before) + DayCost(d) + DaysCost(after)
  {
    DaysCostAppend(before + [d], after);
    DaysCostAppend(before, [d]);
    assert DaysCost([d]) == DayCost(d) by { assert [d][..0] == []; }
  }

  /** Replacing night `k` changes the meals cost by exactly the difference of
      the two nights' costs; the other nights contribute as before. */
  lemma DaysCostUpdate(s: seq<DailyMeal>, k: nat, d: DailyMeal)
    requires k < |s|
    ensures DaysCost(s[k := d]) == DaysCost(s) - DayCost(s[k]) + DayCost(d)
  {
    var before, after := s[..k], s[k + 1..];
    assert s == before + [s[k]] + after;
    assert s[k := d] == before + [d] + after;
    DaysCostSplice(before, s[k], after);
    DaysCostSplice(before, d, after);
  }

  /** Dropping a night between two stretches removes exactly its cost. */
  lemma DaysCostDrop(before: seq<DailyMeal>, d: DailyMeal, after: seq<DailyMeal>)
    ensures DaysCost(before + [d] + after) == DaysCost(before + after) + DayCost(d)
  {
    DaysCostSplice(before, d, after);
    DaysCostAppend(before, after);
  }

  /** The meals cost does not depend on the order of the nights: any
      reordering of the slate (such as re-sorting it by date) costs the same. */
  lemma {:induction false} DaysCostPermutation(a: seq<DailyMeal>, b: seq<DailyMeal>)
    requires multiset(a) == multiset(b)
    ensures DaysCost(a) == DaysCost(b)
    decreases |a|
  {
    if a != [] {
      var x := a[|a| - 1];
      assert x in multiset(b) by { assert x in multiset(a); }
      var k :| 0 <= k < |b| && b[k] == x;
      var b' := b[..k] + b[k + 1..];
      assert b == b[..k] + [b[k]] + b[k + 1..];
      assert a == a[..|a| - 1] + [x];
      assert multiset(b) == multiset(b') + multiset{x} by {
        assert multiset(b) == multiset(b[..k]) + multiset{b[k]} + multiset(b[k + 1..]);
      }
      assert multiset(a) == multiset(a[..|a| - 1]) + multiset{x};
      assert multiset(a[..|a| - 1]) == multiset(a) - multiset{x};
      assert multiset(b') == multiset(b) - multiset{x};
      DaysCostPermutation(a[..|a| - 1], b');
      DaysCostDrop(b[..k], x, b[k + 1..]);
    } else {
      assert |b| == |multiset(b)| == 0;
    }
  }

  /** Service costs add up over consecutive parts of the list. */
  lemma {:induction false} ServicesCostAppend(a: seq<Service>, b: seq<Service>, guests: int, vans: Option<int>)
    ensures ServicesCost(a + b, guests, vans) == ServicesCost(a, guests, vans) + ServicesCost(b, guests, vans)
  {
    if b != [] {
      assert (a + b)[..|a + b| - 1] == a + b[..|b| - 1];
      ServicesCostAppend(a, b[..|b| - 1], guests, vans);
    } else {
      assert a + b == a;
    }
  }

  /** At today's 20% tax, every total is charged six fifths of itself. */
  lemma LiveTaxIsSixFifths(total: int)
    ensures WithTax(total, Constants.TAX) * 5.0 == (total * 6) as real
  {
  }

  /** For any tax that does not take back more than the total, a larger
      total never costs less once taxed. */
  lemma WithTaxMonotone(a: int, b: int, tax: int)
    requires a <= b && tax >= -100
    ensures WithTax(a, tax) <= WithTax(b, tax)
  {
    assert (b - a) * (100 + tax) >= 0;
    assert b * (100 + tax) - a * (100 + tax) == (b - a) * (100 + tax);
  }

  /** A quote whose free places are fewer than its guests always has a
      per-guest amount, and it is positive when the total with tax is. */
  lemma PerGuestDefined(totalWithTax: real, guests: int, freeQuote: Option<int>)
    requires 0 <= freeQuote.GetOr(0) < guests
    ensures PerGuest(totalWithTax, guests, freeQuote).Some?
    ensures totalWithTax > 0.0 ==> PerGuest(totalWithTax, guests, freeQuote).value > 0.0
  {
  }
}

=== FILE: quote_document.dfy ===
/**
 * The layout of the quote PDF built by `createPDF`
 * (`src/app/preventives/create/actions.ts`): a cursor `currentY` that every
 * title or text line lowers by 16 points, and the page-break rule of
 * `addPage`, which opens a new page (and repeats the heading) only once the
 * cursor has reached twice the bottom margin. Fonts, word wrapping and the
 * text itself are not modelled: the number of lines the wrapped heading
 * takes is an input, and each drawn line records its height and its kind.
 */
module QuoteDocument {

  const PAGE_HEIGHT: int := 800
  const MARGIN_Y: int := 50
  /** Where the cursor starts on a new page (`height - 50`). */
  const PAGE_TOP: int := PAGE_HEIGHT - 50
  /** The drop of the cursor per drawn line (`currentYMargin`). */
  const LINE_STEP: int := 16

  datatype LineKind = Header | Title | Text | Footer

  datatype DrawnLine = DrawnLine(y: int, kind: LineKind)

  /** The lines of the wrapped heading drawn from cursor `top`. */
  function HeaderRun(top: int, count: nat): (r: seq<DrawnLine>)
    ensures |r| == count
    ensures forall i :: 0 <= i < count ==> r[i] == DrawnLine(top - LINE_STEP * (i + 1), Header)
  {
    seq(count, i requires 0 <= i < count => DrawnLine(top - LINE_STEP * (i + 1), Header))
  }

  /** Lines of a page go down the page in drawing order. */
  predicate Descending(page: seq<DrawnLine>) {
    forall i, j :: 0 <= i < j < |page| ==> page[i].y > page[j].y
  }

  /** Every page opens with the whole heading, drawn from the top. */
  predicate Headed(pages: seq<seq<DrawnLine>>, headerLines: nat) {
    forall p :: 0 <= p < |pages| ==>
      |pages[p]| >= headerLines && pages[p][..headerLines] == HeaderRun(PAGE_TOP, headerLines)
  }

  /** Every line lands above the bottom edge of its page. */
  predicate OnPage(pages: seq<seq<DrawnLine>>) {
    forall p, i :: 0 <= p < |pages| && 0 <= i < |pages[p]| ==> pages[p][i].y > 0
  }

  function LastPage(pages: seq<seq<DrawnLine>>): seq<DrawnLine>
    requires pages != []
  {
    pages[|pages| - 1]
  }

  /** `pages` with `line` drawn at the end of the last page. */
  function Extend(pages: seq<seq<DrawnLine>>, lines: seq<DrawnLine>): (r: seq<seq<DrawnLine>>)
    requires pages != []
    ensures |r| == |pages| && r[..|r| - 1] == pages[..|pages| - 1]
    ensures LastPage(r) == LastPage(pages) + lines
  {
    pages[..|pages| - 1] + [LastPage(pages) + lines]
  }

  class PdfCanvas {
    var currentY: int
    var pages: seq<seq<DrawnLine>>
    /** How many lines `addWrappedText` splits the heading into. */
    const headerLines: nat

    ghost predicate Valid()
      reads this
    {
      && headerLines >= 1
      && |pages| >= 1
      && (forall p :: 0 <= p < |pages| ==> Descending(pages[p]))
      && (forall p :: 0 <= p < |pages| - 1 ==> pages[p] != [])
      && (LastPage(pages) == [] ==> currentY == PAGE_TOP)
      && (LastPage(pages) != [] ==> currentY <= LastPage(pages)[|LastPage(pages)| - 1].y)
    }

    /** The cursor sits at least where `addPage` leaves it, the heading fits
        on a page, and nothing drawn so far is off the page. */
    ghost predicate Safe()
      reads this
    {
      headerLines <= 39 && currentY > 2 * MARGIN_Y && OnPage(pages)
    }

    /** `PDFDocument.create()` and the first `addPage`. */
    constructor (headerLines: nat)
      requires headerLines >= 1
      ensures Valid()
      ensures this.headerLines == headerLines
      ensures pages == [[]] && currentY == PAGE_TOP
    {
      this.headerLines := headerLines;
      pages := [[]];
      currentY := PAGE_TOP;
    }

    /** `page.drawText(…, { y: (currentY -= currentYMargin) })`. */
    method DrawLine(kind: LineKind)
      requires Valid()
      requires LastPage(pages) != [] || kind == Header
      modifies this
      ensures Valid()
      ensures currentY == old(currentY) - LINE_STEP
      ensures pages == Extend(old(pages), [DrawnLine(currentY, kind)])
      ensures old(Headed(pages, headerLines)) ==> Headed(pages, headerLines)
      ensures old(OnPage(pages)) && currentY > 0 ==> OnPage(pages)
    {
      currentY := currentY - LINE_STEP;
      var before := pages;
      pages := Extend(pages, [DrawnLine(currentY, kind)]);
      if Headed(before, headerLines) {
        var last := |pages| - 1;
        assert pages[last][..headerLines] == before[last][..headerLines];
      }
    }

    /** `currentY = currentY - d`: a blank gap. */
    method Gap(d: nat)
      requires Valid() && LastPage(pages) != []
      modifies this
      ensures Valid()
      ensures currentY == old(currentY) - d && pages == old(pages)
    {
      currentY := currentY - d;
    }

    /** `addHeader`: the heading, one line per wrapped line. */
    method AddHeader()
      requires Valid()
      modifies this
      ensures Valid()
      ensures currentY == old(currentY) - LINE_STEP * headerLines
      ensures pages == Extend(old(pages), HeaderRun(old(currentY), headerLines))
    {
      var i := 0;
      ExtendNothing(pages);
      while i < headerLines
        invariant 0 <= i <= headerLines
        invariant Valid()
        invariant currentY == old(currentY) - LINE_STEP * i
        invariant pages == Extend(old(pages), HeaderRun(old(currentY), i))
      {
        DrawLine(Header);
        assert HeaderRun(old(currentY), i + 1) == HeaderRun(old(currentY), i) + [DrawnLine(currentY, Header)];
        ExtendTwice(old(pages), HeaderRun(old(currentY), i), [DrawnLine(currentY, Header)]);
        i := i + 1;
      }
    }

    /** `addPage`: a new page, with the heading and a gap, once the cursor
        is at or below twice the bottom margin; otherwise nothing. */
    method AddPage()
      requires Valid() && LastPage(pages) != []
      modifies this
      ensures Valid() && LastPage(pages) != []
      ensures old(currentY) > 2 * MARGIN_Y ==> currentY == old(currentY) && pages == old(pages)
      ensures old(currentY) <= 2 * MARGIN_Y ==>
        && pages == old(pages) + [HeaderRun(PAGE_TOP, headerLines)]
        && currentY == PAGE_TOP - LINE_STEP * (headerLines + 1)
      ensures old(Headed(pages, headerLines)) ==> Headed(pages, headerLines)
      ensures old(OnPage(pages)) && headerLines <= 39 ==> OnPage(pages)
      ensures headerLines <= 39 ==> currentY > 2 * MARGIN_Y
    {
      if currentY <= 2 * MARGIN_Y {
        ghost var before := pages;
        OpenPage();
        if Headed(before, headerLines) {
          NewPageKeepsHeadings(before, headerLines);
        }
        if headerLines <= 39 && OnPage(before) {
          NewPageOnPage(before, headerLines);
        }
        currentY := currentY - LINE_STEP;
      }
    }

    /** `doc.addPage(…)`, the cursor back at the top, and the heading. */
    method OpenPage()
      requires Valid() && LastPage(pages) != []
      modifies this
      ensures Valid()
      ensures pages == old(pages) + [HeaderRun(PAGE_TOP, headerLines)]
      ensures currentY == PAGE_TOP - LINE_STEP * headerLines
    {
      ghost var before := pages;
      pages := pages + [[]];
      currentY := PAGE_TOP;
      forall p | 0 <= p < |pages| ensures Descending(pages[p]) && (p < |pages| - 1 ==> pages[p] != []) {
        if p < |before| {
          assert pages[p] == before[p];
        }
      }
      assert Valid();
      AddHeader();
      assert pages == before + [HeaderRun(PAGE_TOP, headerLines)] by {
        var grown: seq<seq<DrawnLine>> := before + [[]];
        assert grown[..|grown| - 1] == before;
        assert LastPage(grown) + HeaderRun(PAGE_TOP, headerLines) == HeaderRun(PAGE_TOP, headerLines);
      }
    }
  }

  lemma ExtendNothing(pages: seq<seq<DrawnLine>>)
    requires pages != []
    ensures Extend(pages, []) == pages
  {
    assert LastPage(pages) + [] == LastPage(pages);
  }

  lemma ExtendTwice(pages: seq<seq<DrawnLine>>, a: seq<DrawnLine>, b: seq<DrawnLine>)
    requires pages != []
    ensures Extend(Extend(pages, a), b) == Extend(pages, a + b)
  {
    assert LastPage(pages) + a + b == LastPage(pages) + (a + b);
  }

  /** A page that holds just the heading keeps every page headed. */
  lemma NewPageKeepsHeadings(pages: seq<seq<DrawnLine>>, headerLines: nat)
    requires Headed(pages, headerLines)
    ensures Headed(pages + [HeaderRun(PAGE_TOP, headerLines)], headerLines)
  {
    var r: seq<seq<DrawnLine>> := pages + [HeaderRun(PAGE_TOP, headerLines)];
    forall p | 0 <= p < |r|
      ensures |r[p]| >= headerLines && r[p][..headerLines] == HeaderRun(PAGE_TOP, headerLines)
    {
      if p < |pages| {
        assert r[p] == pages[p];
      } else {
        assert r[p][..headerLines] == r[p];
      }
    }
  }

  /** A heading of at most 39 lines fits above the bottom edge. */
  lemma NewPageOnPage(pages: seq<seq<DrawnLine>>, headerLines: nat)
    requires OnPage(pages) && headerLines <= 39
    ensures OnPage(pages + [HeaderRun(PAGE_TOP, headerLines)])
  {
    var r: seq<seq<DrawnLine>> := pages + [HeaderRun(PAGE_TOP, headerLines)];
    forall p: int, i: int | 0 <= p < |r| && 0 <= i < |r[p]| ensures r[p][i].y > 0 {
      if p < |pages| {
        assert r[p] == pages[p];
      }
    }
  }
}

=== FILE: render_selects_meals.dfy ===
/**
 * The meal step's cards (`src/components/preventives/render-selects-meals.tsx`):
 * one card per night of the stay, with the night's date and day type, the
 * catalog's lunches and dinners for that day type, and the meals already
 * chosen for that date as the selectors' defaults.
 */
module RenderSelectsMeals {
  import opened Wrappers
  import opened Entities
  import MealActions
  import ArrivalAndDeparture
  import SelectMeal

  /** What one card shows. */
  datatype MealCard = MealCard(
    date: int,
    dayType: DayType,
    lunches: seq<Meal>,
    dinners: seq<Meal>,
    defaultLunch: Option<Meal>,
    defaultDinner: Option<Meal>)

  /** The default of a card's selector for a meal type. */
  function CardDefault(c: MealCard, t: MealType): Option<Meal> {
    match t
    case Lunch => c.defaultLunch
    case Dinner => c.defaultDinner
  }

  /** `searchMeal?.[mealType] ?? null`: the slot of the first night with
      that date, else nothing. */
  function DefaultSlot(meals: seq<DailyMeal>, date: int, t: MealType): (r: Option<Meal>)
    ensures SelectMeal.FindDate(meals, date).None? ==> r.None?
  {
    match SelectMeal.FindDate(meals, date)
    case None => None
    case Some(k) => Slot(meals[k], t)
  }

  /** The card of night `index`. */
  function CardAt(g: MealActions.MealsByGroup, index: int, checkIn: int, checkOut: int,
                  meals: seq<DailyMeal>): MealCard
  {
    var dayType := ArrivalAndDeparture.DayTypeAt(index, checkOut - checkIn);
    var date := ArrivalAndDeparture.DateAt(index, checkIn, checkOut);
    var menu := MealActions.MenuFor(g, dayType);
    MealCard(date, dayType, MealActions.Options(menu, Lunch), MealActions.Options(menu, Dinner),
      DefaultSlot(meals, date, Lunch), DefaultSlot(meals, date, Dinner))
  }

  /** `RenderSelectsMeals`: nothing while the grouped catalog is absent,
      else one card per night. */
  function Cards(data: Option<MealActions.MealsByGroup>, checkIn: int, checkOut: int,
                 meals: seq<DailyMeal>): (r: Option<seq<MealCard>>)
    ensures r.None? <==> data.None?
    ensures r.Some? ==> |r.value| == ArrivalAndDeparture.SlateLength(checkIn, checkOut)
    ensures r.Some? ==> forall i :: 0 <= i < |r.value| ==>
      && r.value[i].date == checkIn + i
      && r.value[i].dayType == ArrivalAndDeparture.DayTypeAt(i, checkOut - checkIn)
      && r.value[i].lunches == MealActions.MenuFor(data.value, r.value[i].dayType).lunches
      && r.value[i].dinners == MealActions.MenuFor(data.value, r.value[i].dayType).dinners
  {
    if data.None? then None
    else
      var cards := seq(ArrivalAndDeparture.SlateLength(checkIn, checkOut),
                       i => CardAt(data.value, i, checkIn, checkOut, meals));
      assert forall i :: 0 <= i < |cards| ==> cards[i].date == checkIn + i by {
        forall i | 0 <= i < |cards| ensures cards[i].date == checkIn + i {
          ArrivalAndDeparture.DateAtIsOffset(i, checkIn, checkOut);
        }
      }
      Some(cards)
  }

  /** The cards describe the nights the arrival step lays out: the same
      dates and day types, in the same order. */
  lemma CardsFollowSlate(g: MealActions.MealsByGroup, checkIn: int, checkOut: int, meals: seq<DailyMeal>)
    ensures var cards := Cards(Some(g), checkIn, checkOut, meals).value;
      var slate := ArrivalAndDeparture.Slate(checkIn, checkOut);
      && |cards| == |slate|
      && forall i :: 0 <= i < |cards| ==> cards[i].date == slate[i].date && cards[i].dayType == slate[i].dayType
  {
    var slate := ArrivalAndDeparture.Slate(checkIn, checkOut);
    ArrivalAndDeparture.SlateShape(checkIn, checkOut);
  }

  /** Meals with one night per date of the stay, in order, as the arrival
      step lays them out and as choosing a meal keeps them. */
  predicate Aligned(meals: seq<DailyMeal>, checkIn: int, checkOut: int) {
    && |meals| == ArrivalAndDeparture.SlateLength(checkIn, checkOut)
    && forall i :: 0 <= i < |meals| ==> meals[i].date == checkIn + i
  }

  /** On aligned meals, card `i` offers as defaults night `i`'s own
      choices. */
  lemma AlignedDefaults(g: MealActions.MealsByGroup, checkIn: int, checkOut: int, meals: seq<DailyMeal>)
    requires Aligned(meals, checkIn, checkOut)
    ensures var cards := Cards(Some(g), checkIn, checkOut, meals).value;
      forall i :: 0 <= i < |cards| ==>
        cards[i].defaultLunch == meals[i].lunch && cards[i].defaultDinner == meals[i].dinner
  {
    var cards := Cards(Some(g), checkIn, checkOut, meals).value;
    forall i | 0 <= i < |cards|
      ensures cards[i].defaultLunch == meals[i].lunch && cards[i].defaultDinner == meals[i].dinner
    {
      ArrivalAndDeparture.DateAtIsOffset(i, checkIn, checkOut);
      var found := SelectMeal.FindDate(meals, checkIn + i);
      assert found.Some? by { assert meals[i].date == checkIn + i; }
      assert found.value == i by { assert meals[found.value].date == checkIn + found.value; }
    }
  }

  /** Choosing a meal on card `k` and rendering again: the meals stay
      aligned, card `k`'s selector shows the choice, its other selector and
      every other card keep their defaults. */
  lemma ChoiceShowsOnCard(g: MealActions.MealsByGroup, checkIn: int, checkOut: int, meals: seq<DailyMeal>,
                          k: nat, t: MealType, value: Option<Meal>)
    requires Aligned(meals, checkIn, checkOut) && k < |meals|
    ensures var after := SelectMeal.SortByDate(SelectMeal.WithoutDate(meals, meals[k].date)
                                               + [SelectMeal.SetSlot(meals[k], t, value)]);
      var before := Cards(Some(g), checkIn, checkOut, meals).value;
      var cards := Cards(Some(g), checkIn, checkOut, after).value;
      && Aligned(after, checkIn, checkOut)
      && CardDefault(cards[k], t) == value
      && (t == Lunch ==> cards[k].defaultDinner == before[k].defaultDinner)
      && (t == Dinner ==> cards[k].defaultLunch == before[k].defaultLunch)
      && forall i :: 0 <= i < |cards| && i != k ==> cards[i] == before[i]
  {
    assert ArrivalAndDeparture.StrictlyAscending(meals);
    var updated := SelectMeal.SetSlot(meals[k], t, value);
    SelectMeal.UpdateInPlace(meals, k, updated);
    var after := meals[k := updated];
    assert Aligned(after, checkIn, checkOut);
    var before := Cards(Some(g), checkIn, checkOut, meals).value;
    var cards := Cards(Some(g), checkIn, checkOut, after).value;
    AlignedDefaults(g, checkIn, checkOut, meals);
    AlignedDefaults(g, checkIn, checkOut, after);
    forall i | 0 <= i < |cards| && i != k ensures cards[i] == before[i] {
      assert after[i] == meals[i];
      assert cards[i].defaultLunch == before[i].defaultLunch;
      assert cards[i].defaultDinner == before[i].defaultDinner;
    }
    assert CardDefault(cards[k], t) == value by {
      assert cards[k].defaultLunch == updated.lunch && cards[k].defaultDinner == updated.dinner;
    }
  }
}

=== FILE: schemas.dfy ===
/**
 * The zod validators of `src/lib/schemas.ts`. Every name field is checked
 * for length at least one on the RAW input and only then trimmed, so a name
 * made only of whitespace passes and becomes "".
 */
module Schemas {
  import opened Wrappers
  import opened JsText
  import opened Entities

  /** The field a validation issue is reported on. */
  datatype Issue =
    | NameEmpty
    | UsernameEmpty
    | PasswordEmpty
    | CheckInRequired
    | CheckOutRequired
    | NumberOfGuestsRequired
    | DayTypeInvalid
    | MealTypeInvalid
    | CategoryIdRequired

  /** What `safeParse` yields: the transformed value, or every issue found. */
  datatype Parsed<T> = Valid(value: T) | Invalid(issues: seq<Issue>)

  /** `z.string().min(1).transform(trim)`: the issues of the raw name, and
      the trimmed name. */
  function NameIssues(raw: string): (r: seq<Issue>)
    ensures r == [] <==> |raw| >= 1
  {
    if |raw| >= 1 then [] else [NameEmpty]
  }

  /** Issues of one optional required field. */
  function Required<T>(v: Option<T>, issue: Issue): (r: seq<Issue>)
    ensures r == [] <==> v.Some?
  {
    if v.Some? then [] else [issue]
  }

  datatype LoginValues = LoginValues(username: string, password: string)

  function LoginForm(username: string, password: string): (r: Parsed<LoginValues>)
    ensures r.Valid? <==> username != [] && password != []
    ensures r.Valid? ==> r.value == LoginValues(username, password)
    ensures r.Invalid? ==> ((UsernameEmpty in r.issues <==> username == [])
      && (PasswordEmpty in r.issues <==> password == []))
  {
    var issues := (if |username| >= 1 then [] else [UsernameEmpty])
      + (if |password| >= 1 then [] else [PasswordEmpty]);
    if issues == [] then Valid(LoginValues(username, password)) else Invalid(issues)
  }

  /** `PreventiveForm`: the name is length-checked and then trimmed; the two
      dates and the guest count are required; the room counts always hold a
      number in the form; nothing relates one field to another. */
  function PreventiveForm(d: DraftForm): (r: Parsed<QuoteForm>)
    ensures r.Valid? <==> |d.name| >= 1 && d.checkIn.Some? && d.checkOut.Some? && d.numberOfGuests.Some?
    ensures r.Valid? ==> r.value == QuoteForm(Trim(d.name), d.checkIn.value, d.checkOut.value,
      d.numberOfGuests.value, d.doubleRooms, d.singleRooms, d.freeQuote, d.description, d.numberOfVans)
    ensures r.Invalid? ==> ((NameEmpty in r.issues <==> d.name == [])
      && (CheckInRequired in r.issues <==> d.checkIn.None?)
      && (CheckOutRequired in r.issues <==> d.checkOut.None?)
      && (NumberOfGuestsRequired in r.issues <==> d.numberOfGuests.None?))
  {
    var issues := NameIssues(d.name) + Required(d.checkIn, CheckInRequired)
      + Required(d.checkOut, CheckOutRequired) + Required(d.numberOfGuests, NumberOfGuestsRequired);
    if issues == [] then
      Valid(QuoteForm(Trim(d.name), d.checkIn.value, d.checkOut.value, d.numberOfGuests.value,
        d.doubleRooms, d.singleRooms, d.freeQuote, d.description, d.numberOfVans))
    else Invalid(issues)
  }

  /** A name of blanks passes the length check and is stored as "". */
  lemma WhitespaceNameAccepted(d: DraftForm)
    requires d.name != [] && forall k :: 0 <= k < |d.name| ==> IsWhitespace(d.name[k])
    requires d.checkIn.Some? && d.checkOut.Some? && d.numberOfGuests.Some?
    ensures PreventiveForm(d).Valid? && PreventiveForm(d).value.name == ""
  {
    TrimEmptyIffWhitespace(d.name);
  }

  /** The accepted quote name never has whitespace at either end, and
      validating an accepted form again changes nothing. */
  lemma PreventiveFormIdempotent(d: DraftForm)
    requires PreventiveForm(d).Valid?
    requires PreventiveForm(d).value.name != ""
    ensures var q := PreventiveForm(d).value;
      PreventiveForm(DraftOf(q)) == Valid(q)
  {
    TrimIdempotent(d.name);
  }

  /** A quote accepted with a blank name reads back with name "" and is then
      refused: re-submitting it unchanged fails on the name. */
  lemma BlankNameRefusedOnResubmit(d: DraftForm)
    requires PreventiveForm(d).Valid? && PreventiveForm(d).value.name == ""
    ensures PreventiveForm(DraftOf(PreventiveForm(d).value)).Invalid?
    ensures NameEmpty in PreventiveForm(DraftOf(PreventiveForm(d).value)).issues
  {
  }

  /** The form a parsed quote reads back as. */
  function DraftOf(q: QuoteForm): (d: DraftForm)
    ensures d.checkIn == Some(q.checkIn) && d.checkOut == Some(q.checkOut)
    ensures d.numberOfGuests == Some(q.numberOfGuests) && d.name == q.name
  {
    DraftForm(q.name, Some(q.checkIn), Some(q.checkOut), Some(q.numberOfGuests),
      q.doubleRooms, q.singleRooms, q.freeQuote, q.description, q.numberOfVans)
  }

  /** `z.enum(["first_day", "default_day", "last_day"])`. */
  function ParseDayType(s: string): (r: Option<DayType>)
    ensures r.Some? <==> s in {"first_day", "default_day", "last_day"}
  {
    if s == "first_day" then Some(FirstDay)
    else if s == "default_day" then Some(DefaultDay)
    else if s == "last_day" then Some(LastDay)
    else None
  }

  /** The database spelling of a day type. */
  function DayTypeName(d: DayType): string {
    match d
    case FirstDay => "first_day"
    case DefaultDay => "default_day"
    case LastDay => "last_day"
  }

  /** `z.enum(["lunch", "dinner"])`. */
  function ParseMealType(s: string): (r: Option<MealType>)
    ensures r.Some? <==> s in {"lunch", "dinner"}
  {
    if s == "lunch" then Some(Lunch) else if s == "dinner" then Some(Dinner) else None
  }

  function MealTypeName(t: MealType): string {
    match t
    case Lunch => "lunch"
    case Dinner => "dinner"
  }

  /** The enum spellings and the day types are in one-to-one correspondence. */
  lemma DayTypeNameRoundTrip(d: DayType, s: string)
    ensures ParseDayType(DayTypeName(d)) == Some(d)
    ensures ParseDayType(s).Some? ==> DayTypeName(ParseDayType(s).value) == s
  {
  }

  lemma MealTypeNameRoundTrip(t: MealType, s: string)
    ensures ParseMealType(MealTypeName(t)) == Some(t)
    ensures ParseMealType(s).Some? ==> MealTypeName(ParseMealType(s).value) == s
  {
  }

  /** The meal form as submitted. */
  datatype RawMealForm = RawMealForm(
    name: string, dayType: string, mealType: string, cost: Option<string>, description: Option<string>)

  /** `TMealForm`: the accepted meal form. Its cost is still a string. */
  datatype MealValues = MealValues(
    name: string, dayType: DayType, mealType: MealType, cost: Option<string>, description: Option<string>)

  function MealForm(f: RawMealForm): (r: Parsed<MealValues>)
    ensures r.Valid? <==> |f.name| >= 1 && ParseDayType(f.dayType).Some? && ParseMealType(f.mealType).Some?
    ensures r.Valid? ==> (r.value.name == Trim(f.name) && r.value.cost == f.cost
      && DayTypeName(r.value.dayType) == f.dayType && MealTypeName(r.value.mealType) == f.mealType
      && r.value.description == f.description)
  {
    var dayType := ParseDayType(f.dayType);
    var mealType := ParseMealType(f.mealType);
    var issues := NameIssues(f.name) + (if dayType.Some? then [] else [DayTypeInvalid])
      + (if mealType.Some? then [] else [MealTypeInvalid]);
    if issues == [] then
      DayTypeNameRoundTrip(dayType.value, f.dayType);
      MealTypeNameRoundTrip(mealType.value, f.mealType);
      Valid(MealValues(Trim(f.name), dayType.value, mealType.value, f.cost, f.description))
    else Invalid(issues)
  }

  /** The service form as submitted. */
  datatype RawServiceForm = RawServiceForm(
    name: string,
    costPerPerson: Option<string>,
    groupCost: Option<string>,
    isRequiredVan: Option<bool>,
    vanCost: Option<string>,
    description: Option<string>,
    categoryId: Option<Id>)

  /** `TServiceForm`: the accepted service form. */
  datatype ServiceValues = ServiceValues(
    name: string,
    costPerPerson: Option<string>,
    groupCost: Option<string>,
    isRequiredVan: Option<bool>,
    vanCost: Option<string>,
    description: Option<string>,
    categoryId: Id)

  function ServiceForm(f: RawServiceForm): (r: Parsed<ServiceValues>)
    ensures r.Valid? <==> |f.name| >= 1 && f.categoryId.Some?
    ensures r.Valid? ==> r.value == ServiceValues(Trim(f.name), f.costPerPerson, f.groupCost,
      f.isRequiredVan, f.vanCost, f.description, f.categoryId.value)
    ensures r.Invalid? ==> (CategoryIdRequired in r.issues <==> f.categoryId.None?)
  {
    var issues := NameIssues(f.name) + Required(f.categoryId, CategoryIdRequired);
    if issues == [] then
      Valid(ServiceValues(Trim(f.name), f.costPerPerson, f.groupCost, f.isRequiredVan,
        f.vanCost, f.description, f.categoryId.value))
    else Invalid(issues)
  }

  function ServiceCategoryForm(name: string): (r: Parsed<string>)
    ensures r.Valid? <==> name != []
    ensures r.Valid? ==> r.value == Trim(name)
    ensures r.Invalid? ==> r.issues == [NameEmpty]
  {
    if |name| >= 1 then Valid(Trim(name)) else Invalid([NameEmpty])
  }
}

=== FILE: select_meal.dfy ===
/**
 * Choosing a lunch or dinner for one night
 * (`src/components/preventives/select-meal.tsx`): the night with the given
 * date gets the choice in the named slot, every entry with that date is
 * dropped, the updated night is put back, and the slate is sorted by date.
 */
module SelectMeal {
  import opened Wrappers
  import opened Entities
  import opened PreventiveFormContext
  import Pricing
  import ArrivalAndDeparture

  /** `meals.find(item => isEqual(item.date, date))`, as an index: the first
      night with that date. */
  function FindDate(s: seq<DailyMeal>, date: int): (r: Option<nat>)
    ensures r.None? <==> forall i :: 0 <= i < |s| ==> s[i].date != date
    ensures r.Some? ==> r.value < |s| && s[r.value].date == date
    ensures r.Some? ==> forall i :: 0 <= i < r.value ==> s[i].date != date
  {
    if s == [] then None
    else if s[0].date == date then Some(0)
    else match FindDate(s[1..], date)
      case None => None
      case Some(k) => Some(k + 1)
  }

  /** `mealObj[mealType] = value`. */
  function SetSlot(d: DailyMeal, t: MealType, value: Option<Meal>): (r: DailyMeal)
    ensures Slot(r, t) == value && r.date == d.date && r.dayType == d.dayType
    ensures t == Lunch ==> r.dinner == d.dinner
    ensures t == Dinner ==> r.lunch == d.lunch
  {
    match t
    case Lunch => d.(lunch := value)
    case Dinner => d.(dinner := value)
  }

  /** `meals.filter(item => !isEqual(item.date, date))`. */
  function WithoutDate(s: seq<DailyMeal>, date: int): (r: seq<DailyMeal>)
    ensures |r| <= |s|
  {
    if s == [] then []
    else WithoutDate(s[..|s| - 1], date) + (if s[|s| - 1].date != date then [s[|s| - 1]] else [])
  }

  /** The filter keeps exactly the nights of other dates. */
  lemma {:induction false} WithoutDateMembers(s: seq<DailyMeal>, date: int, x: DailyMeal)
    ensures x in WithoutDate(s, date) <==> x in s && x.date != date
  {
    if s != [] {
      WithoutDateMembers(s[..|s| - 1], date, x);
      assert s == s[..|s| - 1] + [s[|s| - 1]];
    }
  }

  /** Ascending by date (ties allowed). */
  predicate SortedByDate(s: seq<DailyMeal>) {
    forall i, j :: 0 <= i < j < |s| ==> s[i].date <= s[j].date
  }

  /** `x` placed after every night not later than it: one step of the
      stable sort by `getTime(a.date) - getTime(b.date)`. */
  function InsertByDate(s: seq<DailyMeal>, x: DailyMeal): (r: seq<DailyMeal>)
    ensures |r| == |s| + 1
  {
    if s == [] || s[|s| - 1].date <= x.date then s + [x]
    else InsertByDate(s[..|s| - 1], x) + [s[|s| - 1]]
  }

  /** `Array.prototype.sort` with the date comparator, which is stable. */
  function SortByDate(s: seq<DailyMeal>): (r: seq<DailyMeal>)
    ensures |r| == |s|
  {
    if s == [] then [] else InsertByDate(SortByDate(s[..|s| - 1]), s[|s| - 1])
  }

  /** An insertion step adds `x` to the nights and keeps every other. */
  lemma {:induction false} InsertByDateAdds(s: seq<DailyMeal>, x: DailyMeal)
    ensures multiset(InsertByDate(s, x)) == multiset(s) + multiset{x}
  {
    if s != [] && s[|s| - 1].date > x.date {
      var init := s[..|s| - 1];
      InsertByDateAdds(init, x);
      assert s == init + [s[|s| - 1]];
    }
  }

  /** An insertion step keeps a sorted slate sorted. */
  lemma {:induction false} InsertByDateSorted(s: seq<DailyMeal>, x: DailyMeal)
    requires SortedByDate(s)
    ensures SortedByDate(InsertByDate(s, x))
  {
    if s != [] && s[|s| - 1].date > x.date {
      var init := s[..|s| - 1];
      var last := s[|s| - 1];
      assert SortedByDate(init);
      InsertByDateSorted(init, x);
      InsertByDateAdds(init, x);
      var r := InsertByDate(init, x);
      forall i | 0 <= i < |r| ensures r[i].date <= last.date {
        assert r[i] in multiset(r);
        if r[i] != x {
          var k :| 0 <= k < |init| && init[k] == r[i];
        }
      }
      var grown := r + [last];
      assert InsertByDate(s, x) == grown;
      forall i, j | 0 <= i < j < |grown| ensures grown[i].date <= grown[j].date {
        if j < |r| {
          assert grown[i] == r[i] && grown[j] == r[j];
        }
      }
    }
  }

  /** The sort yields the same nights, in date order. */
  lemma {:induction false} SortByDateFacts(s: seq<DailyMeal>)
    ensures multiset(SortByDate(s)) == multiset(s)
    ensures SortedByDate(SortByDate(s))
  {
    if s != [] {
      var init := s[..|s| - 1];
      SortByDateFacts(init);
      InsertByDateAdds(SortByDate(init), s[|s| - 1]);
      InsertByDateSorted(SortByDate(init), s[|s| - 1]);
      assert s == init + [s[|s| - 1]];
    }
  }

  /** Inserting at its place among nights that are earlier before it and
      later after it. */
  lemma {:induction false} InsertByDateAt(s: seq<DailyMeal>, x: DailyMeal, k: nat)
    requires k <= |s|
    requires forall i :: 0 <= i < k ==> s[i].date <= x.date
    requires forall i :: k <= i < |s| ==> s[i].date > x.date
    ensures InsertByDate(s, x) == s[..k] + [x] + s[k..]
  {
    if s != [] && s[|s| - 1].date > x.date {
      var init := s[..|s| - 1];
      InsertByDateAt(init, x, k);
      assert s[k..] == init[k..] + [s[|s| - 1]];
      assert init[..k] == s[..k];
    } else if s != [] {
      assert k == |s|;
    }
  }

  /** Sorting a sorted slate changes nothing. */
  lemma {:induction false} SortSorted(s: seq<DailyMeal>)
    requires SortedByDate(s)
    ensures SortByDate(s) == s
  {
    if s != [] {
      var init := s[..|s| - 1];
      SortSorted(init);
      assert s == init + [s[|s| - 1]];
    }
  }

  /** In a slate with one night per date, dropping a date removes exactly
      its night. */
  lemma {:induction false} WithoutDateUnique(s: seq<DailyMeal>, k: nat)
    requires ArrivalAndDeparture.StrictlyAscending(s) && k < |s|
    ensures WithoutDate(s, s[k].date) == s[..k] + s[k + 1..]
  {
    var n := |s|;
    var init := s[..n - 1];
    var d := s[k].date;
    assert WithoutDate(s, d) == WithoutDate(init, d) + (if s[n - 1].date != d then [s[n - 1]] else []);
    if k < n - 1 {
      assert ArrivalAndDeparture.StrictlyAscending(init) by {
        forall i, j | 0 <= i < j < |init| ensures init[i].date < init[j].date {
          assert init[i] == s[i] && init[j] == s[j];
        }
      }
      assert init[k] == s[k];
      WithoutDateUnique(init, k);
      assert s[n - 1].date != d;
      assert init[..k] == s[..k];
      assert s[k + 1..] == init[k + 1..] + [s[n - 1]];
    } else {
      assert forall i :: 0 <= i < |init| ==> init[i].date != d by {
        forall i | 0 <= i < |init| ensures init[i].date != d {
          assert init[i] == s[i];
        }
      }
      WithoutDateOthers(init, d);
      assert init == s[..k];
    }
  }

  lemma {:induction false} WithoutDateOthers(s: seq<DailyMeal>, date: int)
    requires forall i :: 0 <= i < |s| ==> s[i].date != date
    ensures WithoutDate(s, date) == s
  {
    if s != [] {
      WithoutDateOthers(s[..|s| - 1], date);
    }
  }

  /** `updateMeal(value)` of the selector for `date` and `mealType`. */
  method UpdateMeal(ctx: FormContext, date: int, mealType: MealType, value: Option<Meal>)
    modifies ctx
    ensures FindDate(old(ctx.meals), date).None? ==> ctx.meals == old(ctx.meals)
    ensures FindDate(old(ctx.meals), date).Some? ==>
      var k := FindDate(old(ctx.meals), date).value;
      && k < |old(ctx.meals)| && old(ctx.meals)[k].date == date
      && ctx.meals == SortByDate(WithoutDate(old(ctx.meals), date) + [SetSlot(old(ctx.meals)[k], mealType, value)])
    ensures ctx.step == old(ctx.step) && ctx.form == old(ctx.form) && ctx.services == old(ctx.services)
    ensures ctx.openDialog == old(ctx.openDialog) && ctx.isPending == old(ctx.isPending)
  {
    var found := FindDate(ctx.meals, date);
    if found.None? {
      return;
    }
    var mealObj := SetSlot(ctx.meals[found.value], mealType, value);
    var filteredMeals := WithoutDate(ctx.meals, date);
    ctx.meals := SortByDate(filteredMeals + [mealObj]);
  }

  /** What sorting the filtered slate with the updated night appended
      yields: a sorted slate of the same nights, costing the same; and, on a
      slate with one night per date in order, the slate with that night
      replaced. */
  lemma ReplacedNightFacts(s: seq<DailyMeal>, k: nat, updated: DailyMeal)
    requires k < |s| && updated.date == s[k].date
    ensures var r := SortByDate(WithoutDate(s, s[k].date) + [updated]);
      && SortedByDate(r)
      && multiset(r) == multiset(WithoutDate(s, s[k].date)) + multiset{updated}
      && Pricing.DaysCost(r) == Pricing.DaysCost(WithoutDate(s, s[k].date)) + Pricing.DayCost(updated)
      && (ArrivalAndDeparture.StrictlyAscending(s) ==>
            && r == s[k := updated]
            && Pricing.DaysCost(r) == Pricing.DaysCost(s) - Pricing.DayCost(s[k]) + Pricing.DayCost(updated))
  {
    var filtered := WithoutDate(s, s[k].date);
    var r := SortByDate(filtered + [updated]);
    SortByDateFacts(filtered + [updated]);
    Pricing.DaysCostPermutation(r, filtered + [updated]);
    Pricing.DaysCostAppend(filtered, [updated]);
    assert Pricing.DaysCost([updated]) == Pricing.DayCost(updated) by { assert [updated][..0] == []; }
    if ArrivalAndDeparture.StrictlyAscending(s) {
      UpdateInPlace(s, k, updated);
      Pricing.DaysCostUpdate(s, k, updated);
    }
  }

  /** Removing night `k` of a slate with strictly ascending dates leaves a
      sorted slate whose first `k` nights come before the removed date and
      whose others come after it. */
  lemma DropNight(s: seq<DailyMeal>, k: nat)
    requires ArrivalAndDeparture.StrictlyAscending(s) && k < |s|
    ensures var t := s[..k] + s[k + 1..];
      && SortedByDate(t)
      && (forall i :: 0 <= i < k ==> t[i].date <= s[k].date)
      && (forall i :: k <= i < |t| ==> t[i].date > s[k].date)
  {
    var t := s[..k] + s[k + 1..];
    forall i | 0 <= i < |t| ensures t[i] == s[if i < k then i else i + 1] {
    }
  }

  /** On a slate with one night per date in order, as the arrival step lays
      out, choosing a meal for night `k` replaces that one night in place:
      the slate keeps its length, its order and every other night. */
  lemma UpdateInPlace(s: seq<DailyMeal>, k: nat, updated: DailyMeal)
    requires ArrivalAndDeparture.StrictlyAscending(s) && k < |s| && updated.date == s[k].date
    ensures SortByDate(WithoutDate(s, s[k].date) + [updated]) == s[k := updated]
  {
    var t := s[..k] + s[k + 1..];
    WithoutDateUnique(s, k);
    DropNight(s, k);
    SortSorted(t);
    calc {
      SortByDate(WithoutDate(s, s[k].date) + [updated]);
      SortByDate(t + [updated]);
      { assert (t + [updated])[..|t|] == t; }
      InsertByDate(SortByDate(t), updated);
      InsertByDate(t, updated);
      { InsertByDateAt(t, updated, k); }
      t[..k] + [updated] + t[k..];
      { SplicedAt(s, k, updated); }
      s[k := updated];
    }
  }

  /** Splicing a night in where one was cut out is replacing it. */
  lemma SplicedAt(s: seq<DailyMeal>, k: nat, updated: DailyMeal)
    requires k < |s|
    ensures var t := s[..k] + s[k + 1..];
      t[..k] + [updated] + t[k..] == s[k := updated]
  {
    var t := s[..k] + s[k + 1..];
    assert t[..k] == s[..k] && t[k..] == s[k + 1..];
  }
}

=== FILE: service_actions.dfy ===
/**
 * The service catalog's server actions (`src/app/services/actions.ts`):
 * delete, create and update against the service table, and the filtering of
 * a duplicated quote's services down to those the catalog still has.
 */
module ServiceActions {
  import opened Wrappers
  import opened JsText
  import opened Entities
  import opened Schemas
  import opened Database

  const SERVICE_NAME_TAKEN: string := "There is a service with this name"
  const SERVICE_EXISTS: string := "The service already exists"
  const SERVICE_NOT_FOUND: string := "Service not found"

  method DeleteServices(db: Db, ids: seq<Id>) returns (r: Outcome)
    requires db.Valid()
    modifies db
    ensures db.Valid()
    ensures r == (if ids == [] then Error(EMPTY_IDS) else Ok)
    ensures ids == [] ==> db.services == old(db.services)
    ensures ids != [] ==> db.services == old(db.services) - IdSet(ids)
    ensures db.meals == old(db.meals) && db.categories == old(db.categories)
    ensures db.preventives == old(db.preventives)
  {
    if ids == [] {
      return Error(EMPTY_IDS);
    }
    db.services := db.services - IdSet(ids);
    r := Ok;
  }

  /** The three cost strings of a form all read as numbers. */
  predicate CostsAreNumbers(costPerPerson: Option<string>, groupCost: Option<string>, vanCost: Option<string>) {
    OptionalToNumber(costPerPerson).Finite? && OptionalToNumber(groupCost).Finite?
      && OptionalToNumber(vanCost).Finite?
  }

  /** The record `db.service.create` stores for an accepted form; an absent
      `isRequiredVan` takes the column default, `false`. */
  function NewService(id: Id, form: ServiceValues): (s: Service)
    requires CostsAreNumbers(form.costPerPerson, form.groupCost, form.vanCost)
    ensures s.id == id && KeyOfService(s) == ServiceKey(form.name, form.categoryId)
    ensures s.costPerPerson == OptionalToNumber(form.costPerPerson).value
    ensures s.groupCost == OptionalToNumber(form.groupCost).value
    ensures s.vanCost == OptionalToNumber(form.vanCost).value
  {
    Service(id, form.name, form.description, OptionalToNumber(form.costPerPerson).value,
      OptionalToNumber(form.groupCost).value, OptionalToNumber(form.vanCost).value,
      form.isRequiredVan.GetOr(false), form.categoryId)
  }

  /** `createService`: refused when a service with the same name exists in
      the same category; the database refuses an unknown category or a cost
      that is not a number. */
  method CreateService(db: Db, form: ServiceValues, newId: Id) returns (r: Outcome)
    requires db.Valid() && newId !in db.services
    modifies db
    ensures db.Valid()
    ensures r == Error(SERVICE_NAME_TAKEN) <==>
      FindService(old(db.services), ServiceKey(form.name, form.categoryId)).Some?
    ensures r == Ok <==>
      && FindService(old(db.services), ServiceKey(form.name, form.categoryId)).None?
      && form.categoryId in old(db.categories)
      && CostsAreNumbers(form.costPerPerson, form.groupCost, form.vanCost)
    ensures r == Ok ==> db.services == old(db.services)[newId := NewService(newId, form)]
    ensures r != Ok ==> db.services == old(db.services)
    ensures db.meals == old(db.meals) && db.categories == old(db.categories)
    ensures db.preventives == old(db.preventives)
  {
    var existing := FindService(db.services, ServiceKey(form.name, form.categoryId));
    if existing.Some? {
      return Error(SERVICE_NAME_TAKEN);
    }
    if form.categoryId !in db.categories || !CostsAreNumbers(form.costPerPerson, form.groupCost, form.vanCost) {
      return Error(WRITE_REFUSED);
    }
    var created := NewService(newId, form);
    InsertKeepsServiceKeysUnique(db.services, created);
    db.services := db.services[newId := created];
    r := Ok;
  }

  /** Inserting a service under a fresh id keeps the keys unique as long as
      no service has its key yet. */
  lemma InsertKeepsServiceKeysUnique(m: map<Id, Service>, s: Service)
    requires ServiceTableValid(m) && s.id !in m
    requires FindService(m, KeyOfService(s)).None?
    ensures ServiceTableValid(m[s.id := s])
  {
  }

  /** `updatedData` of `updateService`: the submitted fields that are not
      `===` the stored ones. The costs are submitted as strings and stored as
      numbers, so the three of them are always in it. */
  datatype ServicePatch = ServicePatch(
    name: Option<string>,
    costPerPerson: Option<string>,
    groupCost: Option<string>,
    isRequiredVan: Option<bool>,
    vanCost: Option<string>,
    description: Option<string>,
    categoryId: Option<Id>)

  function ServicePatchOf(form: ServiceValues, current: Service): (p: ServicePatch)
    ensures p.name.Some? <==> form.name != current.name
    ensures p.categoryId.Some? <==> form.categoryId != current.categoryId
    ensures p.costPerPerson == form.costPerPerson && p.groupCost == form.groupCost
    ensures p.vanCost == form.vanCost
    ensures p.isRequiredVan.Some? <==> form.isRequiredVan.Some? && form.isRequiredVan.value != current.isRequiredVan
    ensures p.description.Some? <==> form.description.Some? && form.description != current.description
    ensures p.name.GetOr(current.name) == form.name
    ensures p.categoryId.GetOr(current.categoryId) == form.categoryId
  {
    ServicePatch(
      if form.name != current.name then Some(form.name) else None,
      form.costPerPerson,
      form.groupCost,
      if form.isRequiredVan.Some? && form.isRequiredVan.value != current.isRequiredVan then form.isRequiredVan else None,
      form.vanCost,
      if form.description.Some? && form.description != current.description then form.description else None,
      if form.categoryId != current.categoryId then Some(form.categoryId) else None)
  }

  predicate ServiceKeyChanged(p: ServicePatch) {
    p.name.Some? || p.categoryId.Some?
  }

  function ServiceTargetKey(p: ServicePatch, current: Service): ServiceKey {
    ServiceKey(p.name.GetOr(current.name), p.categoryId.GetOr(current.categoryId))
  }

  /** The record after `db.service.update`. */
  function PatchedService(current: Service, p: ServicePatch): Service
    requires CostsAreNumbers(p.costPerPerson, p.groupCost, p.vanCost)
  {
    Service(current.id, p.name.GetOr(current.name),
      if p.description.Some? then p.description else current.description,
      OptionalToNumber(p.costPerPerson).value, OptionalToNumber(p.groupCost).value,
      OptionalToNumber(p.vanCost).value, p.isRequiredVan.GetOr(current.isRequiredVan),
      p.categoryId.GetOr(current.categoryId))
  }

  /** Applying the patch leaves the record holding the submitted values: the
      submitted key, the submitted costs, and the submitted flag and
      description where they were given. */
  lemma {:induction false} ServicePatchAppliesForm(form: ServiceValues, current: Service)
    requires CostsAreNumbers(form.costPerPerson, form.groupCost, form.vanCost)
    ensures ServiceTargetKey(ServicePatchOf(form, current), current) == ServiceKey(form.name, form.categoryId)
    ensures var s := PatchedService(current, ServicePatchOf(form, current));
      && s.id == current.id && KeyOfService(s) == ServiceKey(form.name, form.categoryId)
      && s.costPerPerson == OptionalToNumber(form.costPerPerson).value
      && s.groupCost == OptionalToNumber(form.groupCost).value
      && s.vanCost == OptionalToNumber(form.vanCost).value
      && s.isRequiredVan == form.isRequiredVan.GetOr(current.isRequiredVan)
      && s.description == (if form.description.Some? then form.description else current.description)
  {
    var p := ServicePatchOf(form, current);
    if form.isRequiredVan.Some? && form.isRequiredVan.value == current.isRequiredVan {
      assert p.isRequiredVan == None;
    }
    if form.description.Some? && form.description == current.description {
      assert p.description == None;
    }
  }

  /** Without a change of name or category the only service with the target
      key is the service being updated, so the skipped check could not fail. */
  lemma ServiceSkippedCheckIsSafe(m: map<Id, Service>, id: Id, p: ServicePatch)
    requires ServiceTableValid(m) && id in m && !ServiceKeyChanged(p)
    ensures FindService(m, ServiceTargetKey(p, m[id])) == Some(m[id])
  {
  }

  lemma UpdateKeepsServiceKeysUnique(m: map<Id, Service>, id: Id, updated: Service)
    requires ServiceTableValid(m) && id in m && updated.id == id
    requires FindService(m, KeyOfService(updated)).Some? ==> FindService(m, KeyOfService(updated)).value.id == id
    ensures ServiceTableValid(m[id := updated])
  {
  }

  /** `updateService`: "Service not found" for an unknown id; when the name
      or the category changes, refused if another service already has the
      new key; the database refuses an unknown category or a cost that is
      not a number; otherwise the patch is written. */
  method UpdateService(db: Db, id: Id, form: ServiceValues) returns (r: Outcome)
    requires db.Valid()
    modifies db
    ensures db.Valid()
    ensures id !in old(db.services) ==> r == Error(SERVICE_NOT_FOUND) && db.services == old(db.services)
    ensures id in old(db.services) ==>
      var current := old(db.services)[id];
      var p := ServicePatchOf(form, current);
      var found := FindService(old(db.services), ServiceTargetKey(p, current));
      var conflict := ServiceKeyChanged(p) && found.Some? && found.value.id != id;
      && (r == Error(SERVICE_EXISTS) <==> conflict)
      && (r == Ok <==> (!conflict && form.categoryId in old(db.categories)
        && CostsAreNumbers(p.costPerPerson, p.groupCost, p.vanCost)))
      && (r == Ok ==> db.services == old(db.services)[id := PatchedService(current, p)])
      && (r != Ok ==> db.services == old(db.services))
    ensures db.meals == old(db.meals) && db.categories == old(db.categories)
    ensures db.preventives == old(db.preventives)
  {
    if id !in db.services {
      return Error(SERVICE_NOT_FOUND);
    }
    var current := db.services[id];
    var p := ServicePatchOf(form, current);
    if ServiceKeyChanged(p) {
      var existing := FindService(db.services, ServiceTargetKey(p, current));
      if existing.Some? && existing.value.id != id {
        return Error(SERVICE_EXISTS);
      }
    }
    if p.categoryId.GetOr(current.categoryId) !in db.categories
      || !CostsAreNumbers(p.costPerPerson, p.groupCost, p.vanCost)
    {
      return Error(WRITE_REFUSED);
    }
    var updated := PatchedService(current, p);
    if !ServiceKeyChanged(p) {
      ServiceSkippedCheckIsSafe(db.services, id, p);
    }
    UpdateKeepsServiceKeysUnique(db.services, id, updated);
    db.services := db.services[id := updated];
    r := Ok;
  }

  /** Whether the catalog has a service with the key of `s`. */
  predicate InCatalog(m: map<Id, Service>, s: Service)
    requires ServiceTableValid(m)
  {
    FindService(m, KeyOfService(s)).Some?
  }

  /** `checkAndSetServices`: the input services whose (name, category) the
      catalog still has, in input order, as they were given. */
  function KeptServices(m: map<Id, Service>, s: seq<Service>): (r: seq<Service>)
    requires ServiceTableValid(m)
    ensures |r| <= |s|
  {
    if s == [] then []
    else
      var last := s[|s| - 1];
      KeptServices(m, s[..|s| - 1]) + (if InCatalog(m, last) then [last] else [])
  }

  /** An input service is kept exactly when the catalog has its key. */
  lemma {:induction false} KeptServicesMembers(m: map<Id, Service>, s: seq<Service>, x: Service)
    requires ServiceTableValid(m)
    ensures x in KeptServices(m, s) <==> x in s && InCatalog(m, x)
  {
    if s != [] {
      KeptServicesMembers(m, s[..|s| - 1], x);
      assert s == s[..|s| - 1] + [s[|s| - 1]];
    }
  }

  /** Filtering keeps order: the services kept from two consecutive parts of
      the list are the concatenation of those kept from each. */
  lemma {:induction false} KeptServicesAppend(m: map<Id, Service>, a: seq<Service>, b: seq<Service>)
    requires ServiceTableValid(m)
    ensures KeptServices(m, a + b) == KeptServices(m, a) + KeptServices(m, b)
  {
    if b != [] {
      assert (a + b)[..|a + b| - 1] == a + b[..|b| - 1];
      KeptServicesAppend(m, a, b[..|b| - 1]);
    } else {
      assert a + b == a;
    }
  }

  /** Filtering an already filtered list changes nothing. */
  lemma {:induction false} KeptServicesIdempotent(m: map<Id, Service>, s: seq<Service>)
    requires ServiceTableValid(m)
    ensures KeptServices(m, KeptServices(m, s)) == KeptServices(m, s)
  {
    if s != [] {
      var last := s[|s| - 1];
      KeptServicesIdempotent(m, s[..|s| - 1]);
      var extra := if InCatalog(m, last) then [last] else [];
      KeptServicesAppend(m, KeptServices(m, s[..|s| - 1]), extra);
      if InCatalog(m, last) {
        assert KeptServices(m, [last]) == [last] by {
          assert [last][..0] == [];
        }
      }
    }
  }

  /** `checkAndSetServices`: one catalog lookup per input service, then the
      `filter` of those the catalog has. */
  method CheckAndSetServices(db: Db, services: seq<Service>) returns (newServices: seq<Service>)
    requires db.Valid()
    ensures newServices == KeptServices(db.services, services)
  {
    newServices := [];
    var i := 0;
    while i < |services|
      invariant 0 <= i <= |services|
      invariant newServices == KeptServices(db.services, services[..i])
    {
      var item := services[i];
      var existing := FindService(db.services, KeyOfService(item));
      assert services[..i + 1][..i] == services[..i];
      if existing.Some? {
        newServices := newServices + [item];
      }
      i := i + 1;
    }
    assert services[..i] == services;
  }
}

=== FILE: service_inputs.dfy ===
/**
 * The service forms of the catalog: the create form
 * (`src/components/services/create.tsx`), which starts blank, and the edit
 * form with the view dialog (`src/components/services/actions.tsx`), which
 * is loaded from the stored service. Both filter the keystrokes of the three
 * cost inputs, and an edit of the van cost also sets whether the service
 * requires a van.
 */
module ServiceInputs {
  import opened Wrappers
  import opened JsText
  import opened Entities
  import opened Schemas
  import CostInput
  import ServiceActions

  /** The create form's `defaultValues`: every string field blank; the van
      flag and the category unset. */
  const SERVICE_DEFAULTS: RawServiceForm := RawServiceForm("", Some(""), Some(""), None, Some(""), Some(""), None)

  /** The three cost inputs. */
  datatype CostField = CostPerPerson | GroupCost | VanCost

  /** The form with one cost field set to `value`. */
  function WithCost(v: RawServiceForm, field: CostField, value: string): (r: RawServiceForm)
    ensures field == CostPerPerson ==> r == v.(costPerPerson := Some(value))
    ensures field == GroupCost ==> r == v.(groupCost := Some(value))
    ensures field == VanCost ==> r == v.(vanCost := Some(value))
  {
    match field
    case CostPerPerson => v.(costPerPerson := Some(value))
    case GroupCost => v.(groupCost := Some(value))
    case VanCost => v.(vanCost := Some(value))
  }

  /** `form.reset({ ...service, costPerPerson: String(..), groupCost:
      String(..), vanCost: String(..) })`. */
  function LoadedValues(s: Service): (v: RawServiceForm)
    ensures ServiceActions.CostsAreNumbers(v.costPerPerson, v.groupCost, v.vanCost)
    ensures OptionalToNumber(v.costPerPerson) == Finite(s.costPerPerson)
    ensures OptionalToNumber(v.groupCost) == Finite(s.groupCost)
    ensures OptionalToNumber(v.vanCost) == Finite(s.vanCost)
  {
    ToNumberOfIntToString(s.costPerPerson);
    ToNumberOfIntToString(s.groupCost);
    ToNumberOfIntToString(s.vanCost);
    RawServiceForm(s.name, Some(IntToString(s.costPerPerson)), Some(IntToString(s.groupCost)),
      Some(s.isRequiredVan), Some(IntToString(s.vanCost)), s.description, Some(s.categoryId))
  }

  /** A cost keystroke as the handlers are written: dropped when it ends in a
      space; otherwise the cost is taken if the filter accepts it, and for
      the van cost the flag is set from the typed value whether or not the
      cost was taken. */
  function WrittenEdit(v: RawServiceForm, field: CostField, value: string): (r: RawServiceForm)
    ensures CostInput.EndsInSpace(value) ==> r == v
    ensures CostInput.Accepts(value) && field != VanCost ==> r == WithCost(v, field, value)
    ensures !CostInput.Accepts(value) && field != VanCost ==> r == v
    ensures !CostInput.EndsInSpace(value) && field == VanCost ==>
      r.vanCost == (if CostInput.Accepts(value) then Some(value) else v.vanCost)
    ensures !CostInput.EndsInSpace(value) && field == VanCost ==> r.isRequiredVan == Some(value != "")
    ensures field == VanCost ==> r.costPerPerson == v.costPerPerson && r.groupCost == v.groupCost
    ensures r.name == v.name && r.description == v.description && r.categoryId == v.categoryId
  {
    if CostInput.EndsInSpace(value) then v
    else
      var costs := if CostInput.Accepts(value) then WithCost(v, field, value) else v;
      if field == VanCost then costs.(isRequiredVan := Some(|value| > 0)) else costs
  }

  class ServiceEditor {
    var values: RawServiceForm

    /** The create form. */
    constructor ()
      ensures values == SERVICE_DEFAULTS
    {
      values := SERVICE_DEFAULTS;
    }

    /** `form.reset()` when the create dialog closes. */
    method Clear()
      modifies this
      ensures values == SERVICE_DEFAULTS
    {
      values := SERVICE_DEFAULTS;
    }

    /** The edit form's effect when its dialog opens. */
    method Load(s: Service)
      modifies this
      ensures values == LoadedValues(s)
    {
      values := LoadedValues(s);
    }

    /** The "Required van" switch: it sets the flag directly and leaves
        every other field alone. */
    method SetVanFlag(on: bool)
      modifies this
      ensures values == old(values).(isRequiredVan := Some(on))
    {
      values := values.(isRequiredVan := Some(on));
    }

    /** The `onChange` of a cost input. For the van cost, the flag is set
        from the typed value after the filter, whether or not the filter
        took the value. */
    method EditCost(field: CostField, value: string)
      modifies this
      ensures values == WrittenEdit(old(values), field, value)
    {
      var lastChar := LastChar(value);
      if lastChar == " " {
        return;
      }
      if ToNumber(lastChar) != NaN {
        values := WithCost(values, field, value);
      }
      if field == VanCost {
        values := values.(isRequiredVan := Some(|value| > 0));
      }
    }
  }

  /** The blank create form is refused: its name is empty and no category is
      chosen. */
  lemma BlankFormRefused()
    ensures ServiceForm(SERVICE_DEFAULTS) == Invalid([NameEmpty, CategoryIdRequired])
  {
  }

  /** Opening the edit form of a stored service (whose name was trimmed when
      it was saved) and submitting it untouched: the form is accepted, the
      update changes no key field, and writing the patch back yields the
      stored service unchanged. */
  lemma UnchangedEditKeepsService(s: Service)
    requires s.name != "" && s.name == Trim(s.name)
    ensures var parsed := ServiceForm(LoadedValues(s));
      && parsed.Valid?
      && var patch := ServiceActions.ServicePatchOf(parsed.value, s);
         && !ServiceActions.ServiceKeyChanged(patch)
         && ServiceActions.CostsAreNumbers(patch.costPerPerson, patch.groupCost, patch.vanCost)
         && ServiceActions.PatchedService(s, patch) == s
  {
    var parsed := ServiceForm(LoadedValues(s));
    var patch := ServiceActions.ServicePatchOf(parsed.value, s);
    assert patch.description == None && patch.isRequiredVan == None;
  }

  /** The "Required van" line of the view dialog. */
  function RequiredVanLabel(isRequiredVan: bool): (text: string)
    ensures isRequiredVan <==> text == "Yes"
    ensures !isRequiredVan <==> text == "No"
  {
    if isRequiredVan then "Yes" else "No"
  }

  /** The flag says a van is required exactly when a van cost is filled
      in; an unset flag counts as no. */
  predicate VanFlagMatchesCost(v: RawServiceForm) {
    v.isRequiredVan.GetOr(false) == (v.vanCost.GetOr("") != "")
  }

  /** As written, a refused van-cost keystroke still sets the flag: typing
      "a" into a blank van cost leaves the cost blank and marks the service
      as requiring a van. */
  lemma RefusedVanCostSetsFlag()
    ensures VanFlagMatchesCost(SERVICE_DEFAULTS)
    ensures var after := WrittenEdit(SERVICE_DEFAULTS, VanCost, "a");
      && after.vanCost == Some("") && after.isRequiredVan == Some(true)
      && after != SERVICE_DEFAULTS
      && !VanFlagMatchesCost(after)
  {
    assert LastChar("a") == "a";
    ToNumberOfChar("a");
  }

  /** As written, a refused van-cost keystroke also undoes the "Required van"
      switch: after the switch is turned off on a van cost of "12", typing
      "12a" is refused, yet the flag is turned back on. */
  lemma RefusedVanCostUndoesSwitch()
    ensures var switched := SERVICE_DEFAULTS.(vanCost := Some("12"), isRequiredVan := Some(false));
      var after := WrittenEdit(switched, VanCost, "12a");
      && after.vanCost == Some("12") && after.isRequiredVan == Some(true)
      && IntendedEdit(switched, VanCost, "12a") == switched
  {
    assert LastChar("12a") == "a";
    ToNumberOfChar("a");
  }

  /** The van-cost edit as intended: a keystroke the filter refuses changes
      nothing, so a flag the "Required van" switch set survives it; an
      accepted van cost sets the flag from the value it writes. */
  function IntendedEdit(v: RawServiceForm, field: CostField, value: string): (r: RawServiceForm)
    ensures !CostInput.Accepts(value) ==> r == v
    ensures CostInput.Accepts(value) && field != VanCost ==> r == WithCost(v, field, value)
    ensures CostInput.Accepts(value) && field == VanCost ==>
      r == v.(vanCost := Some(value), isRequiredVan := Some(value != ""))
  {
    if !CostInput.Accepts(value) then v
    else
      var costs := WithCost(v, field, value);
      if field == VanCost then costs.(isRequiredVan := Some(|value| > 0)) else costs
  }

  /** The intended edit keeps a flag that agreed with the van cost in
      agreement, never touches the flag on a refused keystroke, and agrees
      with the edit as written on every keystroke the filter takes. */
  lemma IntendedEditKeepsFlag(v: RawServiceForm, field: CostField, value: string)
    ensures VanFlagMatchesCost(v) ==> VanFlagMatchesCost(IntendedEdit(v, field, value))
    ensures !CostInput.Accepts(value) ==> IntendedEdit(v, field, value).isRequiredVan == v.isRequiredVan
    ensures CostInput.Accepts(value) ==> IntendedEdit(v, field, value) == WrittenEdit(v, field, value)
  {
  }
}

=== FILE: steps.dfy ===
/**
 * The step bar (`src/components/preventives/steps.tsx`): one button per
 * step, enabled only for the current and earlier steps and never while a
 * submission is pending; the current step's button is highlighted.
 */
module Steps {
  import opened PreventiveFormContext

  const STEPS: seq<string> := ["Arrival and Departure", "Meals", "Service", "Confirm"]

  /** `isDisabled`. */
  predicate IsDisabled(index: int, step: int, isPending: bool) {
    index > step || isPending
  }

  /** `variant === "default"`. */
  predicate IsHighlighted(index: int, step: int) {
    index == step
  }

  /** There is a button for every step the context can be on. */
  lemma StepsCoverTheWizard()
    ensures |STEPS| == LAST_STEP + 1
  {
  }

  /** Exactly one button is highlighted, the current step's. */
  lemma ExactlyOneHighlighted(step: int)
    requires 0 <= step <= LAST_STEP
    ensures exists i :: 0 <= i < |STEPS| && IsHighlighted(i, step)
    ensures forall i, j :: 0 <= i < |STEPS| && 0 <= j < |STEPS| && IsHighlighted(i, step) && IsHighlighted(j, step) ==> i == j
  {
    assert IsHighlighted(step, step);
  }

  /** While no submission is pending, the enabled buttons are exactly the
      current and earlier steps; while one is, none is enabled. */
  lemma EnabledButtons(index: int, step: int, isPending: bool)
    ensures !IsDisabled(index, step, isPending) <==> !isPending && index <= step
  {
  }

  /** A click on an enabled button: `setStep(index)`. Only the current or an
      earlier step can be reached this way. */
  method ClickStep(ctx: FormContext, index: int)
    requires ctx.Valid() && 0 <= index < |STEPS|
    requires !IsDisabled(index, ctx.step, ctx.isPending)
    modifies ctx
    ensures ctx.Valid()
    ensures ctx.step == index && ctx.step <= old(ctx.step)
    ensures ctx.form == old(ctx.form) && ctx.meals == old(ctx.meals) && ctx.services == old(ctx.services)
    ensures ctx.openDialog == old(ctx.openDialog) && ctx.isPending == old(ctx.isPending)
  {
    ctx.step := index;
  }
}

=== FILE: switch_service.dfy ===
/**
 * The switch that adds a service to the quote or removes it
 * (`src/components/preventives/switch-service.tsx`), and the price it
 * previews beside the service.
 */
module SwitchService {
  import opened Entities
  import opened PreventiveFormContext
  import Constants
  import Pricing
  import Wrappers

  /** `isActive`: some selected entry has the service's id. */
  predicate IsActive(services: seq<Service>, service: Service) {
    exists i :: 0 <= i < |services| && services[i].id == service.id
  }

  /** `prev.filter(item => item.id !== id)`. */
  function WithoutId(s: seq<Service>, id: Id): (r: seq<Service>)
    ensures |r| <= |s|
  {
    if s == [] then []
    else WithoutId(s[..|s| - 1], id) + (if s[|s| - 1].id != id then [s[|s| - 1]] else [])
  }

  /** The filter keeps exactly the entries with another id. */
  lemma {:induction false} WithoutIdMembers(s: seq<Service>, id: Id, x: Service)
    ensures x in WithoutId(s, id) <==> x in s && x.id != id
  {
    if s != [] {
      WithoutIdMembers(s[..|s| - 1], id, x);
      assert s == s[..|s| - 1] + [s[|s| - 1]];
    }
  }

  /** A list without the id is left as it is. */
  lemma {:induction false} WithoutAbsentId(s: seq<Service>, id: Id)
    requires forall i :: 0 <= i < |s| ==> s[i].id != id
    ensures WithoutId(s, id) == s
  {
    if s != [] {
      WithoutAbsentId(s[..|s| - 1], id);
    }
  }

  /** `updateService(value)`: on appends the service (with no check for a
      duplicate); off removes every entry with its id. Either way the switch
      then shows `value`. */
  method UpdateService(ctx: FormContext, service: Service, value: bool)
    modifies ctx
    ensures value ==> ctx.services == old(ctx.services) + [service]
    ensures !value ==> ctx.services == WithoutId(old(ctx.services), service.id)
    ensures IsActive(ctx.services, service) == value
    ensures ctx.step == old(ctx.step) && ctx.form == old(ctx.form) && ctx.meals == old(ctx.meals)
    ensures ctx.openDialog == old(ctx.openDialog) && ctx.isPending == old(ctx.isPending)
  {
    if value {
      ctx.services := ctx.services + [service];
      assert ctx.services[|ctx.services| - 1].id == service.id;
    } else {
      ctx.services := WithoutId(ctx.services, service.id);
      if IsActive(ctx.services, service) {
        var i :| 0 <= i < |ctx.services| && ctx.services[i].id == service.id;
        WithoutIdMembers(old(ctx.services), service.id, ctx.services[i]);
        assert false;
      }
    }
  }

  /** Switching a service on and then off gives back the list it started
      from, when the service was not selected before. */
  lemma OnThenOff(s: seq<Service>, service: Service)
    requires !IsActive(s, service)
    ensures WithoutId(s + [service], service.id) == s
  {
    var grown := s + [service];
    assert grown[..|grown| - 1] == s;
    WithoutAbsentId(s, service.id);
  }

  /** The vans shown for a party: one up to seven guests, else
      `Math.ceil(guests / 7)`. */
  function VansFor(guests: int): (r: int)
    ensures guests <= Constants.NUMBER_OF_GUESTS_PER_VAN ==> r == 1
    ensures guests > Constants.NUMBER_OF_GUESTS_PER_VAN ==>
      (r - 1) * Constants.NUMBER_OF_GUESTS_PER_VAN < guests <= r * Constants.NUMBER_OF_GUESTS_PER_VAN
  {
    if guests > Constants.NUMBER_OF_GUESTS_PER_VAN then Constants.CeilDiv(guests, Constants.NUMBER_OF_GUESTS_PER_VAN)
    else 1
  }

  /** Every party of one to 32 guests fits the vans the selector offers. */
  lemma VansWithinChoices(guests: int)
    requires 1 <= guests <= Constants.MAX_NUMBER_OF_GUESTS
    ensures 1 <= VansFor(guests) <= Constants.MAX_NUMBER_OF_VANS
    ensures guests <= VansFor(guests) * Constants.NUMBER_OF_GUESTS_PER_VAN
  {
    Constants.MaxVansIsFive();
  }

  /** `calculateCostForService` of the switch: the van cost is counted for
      the previewed vans whether or not the service requires a van. */
  function PreviewCost(service: Service, guests: int): (r: int)
    ensures r == Pricing.ServiceCost(service, guests, Wrappers.Some(VansFor(guests)))
  {
    service.costPerPerson * guests + service.groupCost + service.vanCost * VansFor(guests)
  }
}

=== FILE: use_preventive_form.dfy ===
/**
 * The wizard's step navigation (`src/hooks/use-preventive-form.ts`): "next"
 * and "previous" move one step and stop at the ends; nothing else changes.
 */
module UsePreventiveForm {
  import opened PreventiveFormContext

  /** The step "next" leads to. */
  function Advance(step: int): (r: int)
    ensures step < LAST_STEP ==> r == step + 1
    ensures step >= LAST_STEP ==> r == step
  {
    if step < LAST_STEP then step + 1 else step
  }

  /** The step "previous" leads to. */
  function Retreat(step: int): (r: int)
    ensures step > 0 ==> r == step - 1
    ensures step <= 0 ==> r == step
  {
    if step > 0 then step - 1 else step
  }

  /** `nextStep`. */
  method NextStep(ctx: FormContext)
    requires ctx.Valid()
    modifies ctx
    ensures ctx.Valid()
    ensures ctx.step == Advance(old(ctx.step))
    ensures ctx.form == old(ctx.form) && ctx.meals == old(ctx.meals) && ctx.services == old(ctx.services)
    ensures ctx.openDialog == old(ctx.openDialog) && ctx.isPending == old(ctx.isPending)
  {
    if ctx.step < LAST_STEP {
      ctx.step := ctx.step + 1;
    }
  }

  /** `prevStep`. */
  method PrevStep(ctx: FormContext)
    requires ctx.Valid()
    modifies ctx
    ensures ctx.Valid()
    ensures ctx.step == Retreat(old(ctx.step))
    ensures ctx.form == old(ctx.form) && ctx.meals == old(ctx.meals) && ctx.services == old(ctx.services)
    ensures ctx.openDialog == old(ctx.openDialog) && ctx.isPending == old(ctx.isPending)
  {
    if ctx.step > 0 {
      ctx.step := ctx.step - 1;
    }
  }

  /** Both moves keep the step within the four steps. */
  lemma MovesStayInRange(step: int)
    requires 0 <= step <= LAST_STEP
    ensures 0 <= Advance(step) <= LAST_STEP && 0 <= Retreat(step) <= LAST_STEP
  {
  }

  /** "Previous" undoes "next" everywhere but on the last step, and "next"
      undoes "previous" everywhere but on the first. */
  lemma MovesUndoEachOther(step: int)
    requires 0 <= step <= LAST_STEP
    ensures step < LAST_STEP ==> Retreat(Advance(step)) == step
    ensures step > 0 ==> Advance(Retreat(step)) == step
  {
  }

  /** `n` presses of "next" from `step`. */
  function AdvanceTimes(step: int, n: nat): int {
    if n == 0 then step else Advance(AdvanceTimes(step, n - 1))
  }

  /** Pressing "next" `n` times moves `n` steps, up to the last one. */
  lemma {:induction false} AdvanceTimesReach(step: int, n: nat)
    requires 0 <= step <= LAST_STEP
    ensures AdvanceTimes(step, n) == if step + n <= LAST_STEP then step + n else LAST_STEP
  {
    if n > 0 {
      AdvanceTimesReach(step, n - 1);
    }
  }
}

=== FILE: wrappers.dfy ===
/** Optional values (JavaScript `undefined` / `null`) used across the model. */
module Wrappers {

  datatype Option<+T> = None | Some(value: T) {
    /** The `??` operator of JavaScript: the value, or `default` when absent. */
    function GetOr(default: T): T {
      match this
      case Some(v) => v
      case None => default
    }
  }
}
